=== FILE: README.md ===
# Arduino IoT Cloud bridge and device log buffer, in Dafny

The system is a small HTTP bridge in front of Arduino IoT Cloud, plus the firmware that
buffers log lines on each device. This project models its core and proves properties of
that model.

- **Log store** (`LogStore`). The bridge keeps one text log file per device name. The
  directory is a map from file name to contents and modification time.
  - `safeName` sanitises names.
  - `formatForStore` stamps each line.
  - `appendByName` appends, then trims the file by line once it grows past a byte limit.
  - `appendByDeviceId` resolves a device id to a name, and `tailByName` shows the last
    lines.
  - `clearByName` empties a file, and `listLogs` lists the files newest first.
- **Log routes** (`RoutesLogs`). `/logs`, `/log/:name` (POST, GET, DELETE) and
  `/logid/:deviceId`. The request body and the `line` query parameter are flattened and
  split into lines.
- **Configuration** (`Config`).
  - `loadMapping` builds `rooms`, `idToName` and `nameToId` from the device list.
  - `requireAuth` accepts the token in the `X-Auth-Token` header or in the `token` query
    parameter.
  - `rooms[name]` is modelled as JavaScript evaluates it.
- **Cloud client pieces** (`Cloud`). These are shared by both servers:
  - the OAuth token cache, which serves a token until ten seconds before it expires;
  - the Cloud requests and their replies;
  - the `Publish failed: <status> <text>` error.
- **Stand-alone server** (`Bridge`, plus `DeviceLog`).
  - `getToken`, `makeHeaders`, `publishValue`, `publishTrue` and `readProperty`.
  - `formatDeviceLog`: it cuts a device's log text into entries at every `[hh:mm:ss]`
    stamp and writes each stamped entry as `hh:mm:ss   message`.
  - The routes `/set/:device/:direction`, `/log/:device` and `/clearlog/:device`.
- **Modular server's Cloud client and trigger route** (`Arduino`, `ControlRoutes`). This
  client checks its credentials first, counts a token's life from the moment the token
  arrives, and sends `X-Organization` only for a non-blank organisation.
- **Firmware log buffer** (`FirmwareLogger`). `g_logBuffer` with `trimBufferIfNeeded`,
  `flushLogBuffer` and `logLine`.

Some code changes state in place: the log directory, the three configuration maps, both
token caches and the firmware buffer. That code is written as classes with methods. Each
method's `ensures` ties the new state to a function of the old one, and the properties
are proved about those functions. The route decisions are written as functions that
return a reply together with the single effect to perform. Inputs the code reads from the
outside are parameters: clocks, Cloud replies, the HTTP status of a device's POST, and
the Wi-Fi state.

## Model

| member | source | states |
|---|---|---|
| `Strings.TrimSpec` | server/src/logStore.js:32 | `trim` gives the contiguous part of the string left once the white space at both ends is removed: it neither starts nor ends with white space, it is empty exactly when the string is all white space, and a string with non-space ends is unchanged |
| `Strings.LowerIdempotent` | server/src/logStore.js:13 | lowercasing twice is lowercasing once |
| `Strings.LowerIdentity` | server/src/logStore.js:13 | a string without upper-case characters is left alone by `toLowerCase` |
| `Strings.SplitRejoins` | server/src/routes-logs.js:20-24 | joining the pieces of `split(c)` with `c` gives back the string |
| `Strings.SplitJoin` | server/src/routes-logs.js:20-24 | splitting a join of `c`-free pieces on `c` gives back the pieces |
| `Strings.NonEmptyConcat` | server/src/routes-logs.js:25 | `filter(Boolean)` distributes over concatenation |
| `Strings.NormalizeNewlines` | server/src/routes-logs.js:22-23 | replacing `\r\n`, then `\r`, by `\n` leaves no `\r`, and a text without `\r` is unchanged |
| `Strings.Utf8Size` | server/src/logStore.js:23 | a file's byte size lies between its length and four times its length |
| `LogStore.Sanitize` | server/src/logStore.js:13 | the result uses only the alphabet [a-z0-9._-] and is between one and two times as long as the input |
| `LogStore.SanitizeConcat` | server/src/logStore.js:13 | the replacement works character by character: sanitising a concatenation sanitises each part |
| `LogStore.SanitizeBmp` | server/src/logStore.js:13 | on text of one-code-unit characters the length is kept, every allowed character stays where it is and every other becomes `_` |
| `LogStore.SafeName` | server/src/logStore.js:12-14 | at most 64 characters, all from [a-z0-9._-], never a path separator; empty for an empty name |
| `LogStore.WideCharTwoUnderscores` | server/src/logStore.js:13 | a character outside the Basic Multilingual Plane, two UTF-16 code units, becomes `__` |
| `LogStore.SafeNameIdempotent` | server/src/logStore.js:13 | sanitising a sanitised name changes nothing |
| `LogStore.SafeNameFixed` | server/src/logStore.js:13 | a short name already in the safe alphabet is its own safe name |
| `LogStore.PathAgreement` | server/src/logStore.js:15 | two names share a file exactly when they sanitise alike, and the listing shows the sanitised name |
| `LogStore.FormatForStore` | server/src/logStore.js:31-35 | nothing for a blank line; otherwise the stamps, the sanitised name and the trimmed message, on one line that does not end in white space |
| `LogStore.RenderedStorable` | server/src/logStore.js:51 | every rendered line of an append is a storable single line |
| `LogStore.RenderedOrder` | server/src/logStore.js:51 | only blank lines are dropped; every other line renders |
| `LogStore.BlockLines` | server/src/logStore.js:51-53 | reading back an appended block yields exactly its lines |
| `LogStore.AppendedLines` | server/src/logStore.js:53 | appending to a newline-terminated file keeps the old lines, followed by the new ones |
| `LogStore.Trimmed` | server/src/logStore.js:25-27 | a trimmed file is non-empty and ends with the line separator |
| `LogStore.LinesAfterBreak` | server/src/logStore.js:25 | `split(/\r?\n/)` of text around a `\n` is the pieces before it, each without a `\r` before its break, then the pieces after it |
| `LogStore.FinalCrKept` | server/src/logStore.js:67-68 | a `\r` that ends the file is not a line break: the tail shows it, followed by `\n` |
| `LogStore.TrimmedLines` | server/src/logStore.js:25-27 | the trimmed file holds the last `TRIM_TAIL_LINES` pieces of the old one, in order, then a final separator |
| `LogStore.TrimKeepsNewest` | server/src/logStore.js:25-27 | the newest line survives a trim, followed by a blank line |
| `LogStore.TrimmedDir` | server/src/logStore.js:20-29 | only the named file may change; a missing or small file leaves the directory as it was |
| `LogStore.AfterAppend` | server/src/logStore.js:49-55 | nothing changes when no line renders; otherwise only the name's file grows by the block and is trimmed when over the byte limit; well-terminated files stay well terminated |
| `LogStore.Clamp` | server/src/logStore.js:68 | the line count is kept within 1..10000 and unchanged inside that range |
| `LogStore.TailLines` | server/src/logStore.js:67-68 | the tail is the last `min(n, count)` non-empty lines, each followed by a newline |
| `LogStore.TailByName` | server/src/logStore.js:63-69 | a missing file reads `(empty)`, an empty one a single newline |
| `LogStore.AppendThenTail` | server/src/logStore.js:49-69 | after an append within the byte limit, tailing as many lines as were written returns exactly those lines |
| `LogStore.ClearThenTail` | server/src/logStore.js:71-74 | a cleared log tails as a single newline |
| `LogStore.ListedHasEntry` | server/src/logStore.js:37-45 | every listed `.log` file has its entry, with its device name, byte size and mtime |
| `LogStore.ListedFrom` | server/src/logStore.js:37-45 | every entry of the listing is that of a listed `.log` file |
| `LogStore.ListedCount` | server/src/logStore.js:37-45 | a listing of distinct file names has one entry per `.log` file |
| `LogStore.InsertSorted` | server/src/logStore.js:46 | inserting into a newest-first list keeps it newest first |
| `LogStore.SortSorted` | server/src/logStore.js:46 | the listing is sorted newest first |
| `LogStore.SortPerm` | server/src/logStore.js:46 | sorting neither adds nor loses entries |
| `LogStore.ListLogs` | server/src/logStore.js:37-47 | given the directory's files, each once: one entry for every `.log` file of the directory and no other, newest first, a permutation of the unsorted listing |
| `LogStore.Store.EnsureTrimmed` | server/src/logStore.js:20-29 | the directory becomes `TrimmedDir` of the old one |
| `LogStore.Store.AppendByName` | server/src/logStore.js:49-55 | the directory becomes `AfterAppend` of the old one |
| `LogStore.Store.AppendByDeviceId` | server/src/logStore.js:57-61 | with the intended guard (see Findings): an unknown trimmed id fails with `Unknown device_id` and writes nothing; a known one appends under its name |
| `LogStore.Store.ClearByName` | server/src/logStore.js:71-74 | the name's file becomes empty and the others are unchanged |
| `LogStore.InheritedIdPassesGuard` | server/src/logStore.js:58-59 | an inherited member name passes `!idToName[id]` as written, although no device has that id |
| `LogStore.Store.AppendByDeviceIdAsWritten` | server/src/logStore.js:57-61 | as written: an id fails with `Unknown device_id` and writes nothing exactly when it is neither configured with a name nor an inherited member; a configured id appends under its name, and an inherited one under the text of the inherited function; for ids that are not inherited members it fails exactly when the intended guard does |
| `RoutesLogs.FalsySkipped` | server/src/routes-logs.js:13-15 | falsy values add no line, and a non-empty string adds itself |
| `RoutesLogs.FlattenSplit` | server/src/routes-logs.js:14 | arrays are flattened item by item, in order |
| `RoutesLogs.NestingFlattens` | server/src/routes-logs.js:14 | nested arrays flatten like the inner array |
| `RoutesLogs.Add` | server/src/routes-logs.js:12-16 | the recursive `add` appends the flattened value to the bucket |
| `RoutesLogs.IncomingLines` | server/src/routes-logs.js:10-26 | the lines are the split of the body's values followed by the query's |
| `RoutesLogs.SplitInputClean` | server/src/routes-logs.js:20-25 | every incoming line is non-empty and has no `\n` or `\r` |
| `RoutesLogs.SplitInputPlain` | server/src/routes-logs.js:20-25 | values without line breaks pass through, with the empty ones dropped |
| `RoutesLogs.BodyBeforeQuery` | server/src/routes-logs.js:17-18 | body lines come before query lines |
| `RoutesLogs.MixedBreaks` | server/src/routes-logs.js:22-24 | an illustration of `SplitInputClean`/`SplitInputPlain` on one input, not evidence beyond it: `a\r\nb\rc` gives the lines a, b, c |
| `RoutesLogs.GetLogs` | server/src/routes-logs.js:29-32 | an unauthorised request gets 401 and nothing else; an authorised one gets 200 with the listing |
| `RoutesLogs.PostLogByName` | server/src/routes-logs.js:35-43 | with the intended guard (see Findings): 401, then 404 for a name not configured, then 400 for no lines; 204 exactly when all pass, and only then an append under the safe name |
| `RoutesLogs.PostLogById` | server/src/routes-logs.js:46-54 | with the intended guard (see Findings): 401, then 404 for an unknown trimmed id before any line is read, then 400 `No lines provided` for a known id with no lines; 204 exactly when all pass, and only then an append by id |
| `RoutesLogs.GetLog` | server/src/routes-logs.js:57-63 | with the intended guard (see Findings): 200 exactly for an authorised, configured name, with the tail of its log (200 lines by default) |
| `RoutesLogs.DeleteLog` | server/src/routes-logs.js:66-72 | with the intended guard (see Findings): 401, then 404 `Unknown device name` for an authorised name that is not configured; 204 exactly for an authorised, configured name, and only then a clear |
| `RoutesLogs.ServePostLogByName` | server/src/routes-logs.js:35-43 | with the intended guard (see Findings): the store changes only on 204, and then by the append of the incoming lines |
| `RoutesLogs.ServePostLogById` | server/src/routes-logs.js:46-54 | with the intended guard (see Findings): the store changes only on 204, and then by the append under the id's name |
| `RoutesLogs.ServeDeleteLog` | server/src/routes-logs.js:66-72 | with the intended guard (see Findings): the store changes only on 204, and then only the name's file is emptied |
| `RoutesLogs.TrimTwice` | server/src/logStore.js:58 | `appendByDeviceId` trimming an already trimmed id changes nothing |
| `RoutesLogs.PostLogByNameAsWritten` | server/src/routes-logs.js:38 | as written, an inherited member name is accepted with 204 and an append; every other name is answered as by the intended guard |
| `RoutesLogs.InheritedNameAccepted` | server/src/routes-logs.js:38 | `constructor` with no rooms gets 204 as written and 404 under the intended guard |
| `RoutesLogs.PostLogByIdAsWritten` | server/src/routes-logs.js:49 | as written, an inherited member id is accepted with 204 and an append; every other id is answered as by the intended guard |
| `RoutesLogs.InheritedIdAccepted` | server/src/routes-logs.js:49 | `toString` with no ids gets 204 as written and 404 under the intended guard |
| `RoutesLogs.GetLogAsWritten` | server/src/routes-logs.js:57-63 | as written, 200 with the tail for a configured name or an inherited member name; every other name is answered as by the intended guard |
| `RoutesLogs.DeleteLogAsWritten` | server/src/routes-logs.js:66-72 | as written, 204 and a clear for a configured name or an inherited member name; every other name is answered as by the intended guard |
| `RoutesLogs.InheritedNameReadAndCleared` | server/src/routes-logs.js:61-70 | `constructor` with no rooms gets 200 `(empty)` from GET and 204 with a clear from DELETE as written, and 404 from both under the intended guard |
| `Config.RoomsOf` | server/src/config.js:24 | `rooms` holds exactly the configured names |
| `Config.NameIndexSpec` | server/src/config.js:25-31 | `nameToId` maps a name to its trimmed device id exactly when that id is non-empty and the name is not `__proto__`, whose assignment stores nothing |
| `Config.IdIndexKeys` | server/src/config.js:25-31 | `idToName` has a key for every non-empty trimmed id other than `__proto__`, and no other |
| `Config.IdIndexLastWins` | server/src/config.js:25-28 | when ids repeat, the last device with that id in `Object.entries` order wins |
| `Config.IdToNameToId` | server/src/config.js:28-29 | following an id to its name and back gives the id; a device named `__proto__` is the one exception, as `nameToId` cannot hold it |
| `Config.IdToNameHolder` | server/src/config.js:28 | every id maps to the name of a device that holds it |
| `Config.NameToIdToName` | server/src/config.js:28-29 | with distinct ids, following a name to its id and back gives the name; the id `__proto__` is the one exception, as `idToName` cannot hold it |
| `Config.IndexStep` | server/src/config.js:25-31 | one loop step adds exactly the device's entries to both maps |
| `Config.Registry.LoadMapping` | server/src/config.js:15-36 | no file leaves all three maps empty, a malformed file fails, and a parsed one sets the maps to their definitions; an assignment to the key `__proto__` stores nothing |
| `Config.RequireAuth` | server/src/config.js:38-45 | no token configured accepts everything; otherwise the header or the query must equal the token |
| `Config.LookupAsWritten` | server/src/routes-control.js:19-20 | `rooms[room]` is truthy for configured names and for inherited members, and yields the configured entry for a configured name |
| `Cloud.PublishResult` | server/index.mjs:80-82 | success exactly on 2xx, with the reply text or `OK`; otherwise `Publish failed: <status> <text>` |
| `Cloud.NatToStringInjective` | server/index.mjs:81 | different statuses print differently |
| `Cloud.HttpErrorSplits` | server/index.mjs:81 | an error message determines the status and text it came from |
| `Cloud.PublishFailureKeepsReply` | server/index.mjs:81 | two publish failures with the same message came from the same reply |
| `Cloud.NextToken` | server/index.mjs:36-55 | a fresh cached token is served unchanged; otherwise a rejection fails with `Auth failed: <text>`, a 2xx body that is not JSON fails with the parse error, both keeping the cache, and a new token replaces it with its expiry |
| `Cloud.TokenReused` | server/index.mjs:38 | a fetched token is served again until ten seconds before its expiry |
| `Cloud.ShortLivedRefetched` | server/index.mjs:38 | a token that lives ten seconds or less is never served from the cache |
| `DeviceLog.CutSpec` | server/index.mjs:126 | the stamp split loses nothing, every piece after the first starts with a stamp, and no piece holds a later stamp |
| `DeviceLog.EntriesClean` | server/index.mjs:119-129 | every entry is non-empty, on one line, trimmed, and holds at most a leading stamp |
| `DeviceLog.PadEnd` | server/index.mjs:136 | `padEnd` keeps the text and fills with spaces up to the width |
| `DeviceLog.FormatEntrySpec` | server/index.mjs:133-138 | a stamped entry becomes clock, three spaces and trimmed message; any other stays as it is |
| `DeviceLog.FormattedLine` | server/index.mjs:131-139 | every formatted entry is one non-empty line that does not start with white space |
| `DeviceLog.TrimJoined` | server/index.mjs:140-142 | trimming the joined lines only trims the end of the last one |
| `DeviceLog.OneLinePerEntry` | server/index.mjs:117-143 | the output has one line per entry, in order, with only the last one trimmed at its end; no entries give "" |
| `DeviceLog.StampedPair` | server/index.mjs:122-142 | two stamped entries on one line come out as two formatted lines |
| `DeviceLog.TwoEntriesOnOneLine` | server/index.mjs:117-143 | an illustration of `StampedPair` on one input, not evidence beyond it: `[10:00:01]boot[10:00:02]ready` becomes `10:00:01   boot\n10:00:02   ready` |
| `Bridge.MakeHeaders` | server/index.mjs:57-64 | bearer token and JSON type; `X-Organization` exactly when the organisation is set, trimmed |
| `Bridge.BlankOrganizationSent` | server/index.mjs:62 | a blank organisation still sends an empty `X-Organization` |
| `Bridge.FirstPresentSpec` | server/index.mjs:107-110 | a `??` chain yields the first key that is present and not null, and null only when there is none |
| `Bridge.SnapshotOf` | server/index.mjs:100-105 | an unparsable body is the value itself with no update time; a parsed value that is not an object yields "" and null |
| `Bridge.SnapshotSelection` | server/index.mjs:107-112 | the value is the first present of last_value, value, lastValue and current_value, else ""; the update time is the first of value_updated_at, updated_at and last_update, else null |
| `Bridge.ReadResult` | server/index.mjs:96-98 | a non-2xx read fails with `Read failed: <status> <text>` |
| `Bridge.Pretty` | server/index.mjs:117-118 | a falsy value shows as "", a string is formatted, and any other truthy value raises the `raw.replace` TypeError |
| `Bridge.LogReply` | server/index.mjs:196-201 | 200 exactly when the read succeeded and the value could be formatted, with the formatted log followed by the `(updated …)` suffix when there is an update time; a failed read answers 500 with its message, a value that cannot be formatted 500 with the TypeError |
| `Bridge.LogShowsUpdateTime` | server/index.mjs:199-201 | a stamped read shows the formatted log, a blank line and `(updated <time>)` |
| `Bridge.SetPlan` | server/index.mjs:152-169 | 401 exactly for a wrong query token, then 400 for a bad direction, 404 exactly when the lowercased device fails the lookup, 400 `Missing property id for <device>/<dir>` for a device found without that property, and a publish of `true` to the direction's property exactly when all checks pass |
| `Bridge.SetIgnoresCase` | server/index.mjs:157-158 | capitalisation of device and direction does not matter |
| `Bridge.InheritedDeviceAnswered400` | server/index.mjs:163-169 | a lower-case inherited member name gets 400 for the missing property, not 404 |
| `Bridge.LogTarget` | server/index.mjs:181-194 | 401, 404 and 400 as for `/log` and `/clearlog`; success exactly for a configured device with a log property |
| `Bridge.Server.GetToken` | server/index.mjs:36-55 | the cache moves as `NextToken` says, with the expiry counted from the clock read before the request |
| `Bridge.Server.PublishValue` | server/index.mjs:68-83 | a token failure sends nothing; otherwise the call goes out with the token's headers and the reply becomes `PublishResult` |
| `Bridge.Server.ReadProperty` | server/index.mjs:90-113 | a token failure sends nothing; otherwise the property is read with the token's headers and the reply becomes `ReadResult` |
| `Bridge.Server.ServeSet` | server/index.mjs:152-178 | a refusal sends nothing and keeps the cache; otherwise one publish, then 200 `Triggered <device> <dir>` or 500 with the error |
| `Bridge.Server.ServeLog` | server/index.mjs:181-206 | a refusal sends nothing; otherwise one read of the log property and the `/log` reply |
| `Bridge.Server.ServeClearLog` | server/index.mjs:209-231 | a refusal sends nothing; otherwise "" is published to the log property, then 200 `Cleared debug log for <device>` or 500 |
| `Arduino.MakeHeaders` | server/src/arduino.js:32-39 | `X-Organization` exactly when the trimmed organisation is non-empty |
| `Arduino.Client.GetToken` | server/src/arduino.js:6-30 | missing credentials fail before the cache is consulted; otherwise the cache moves as `NextToken` says, with the expiry counted from the clock after the reply |
| `Arduino.Client.PublishTrue` | server/src/arduino.js:41-55 | a token failure sends nothing; otherwise `true` is published with the token's headers and the reply becomes `PublishResult` |
| `Arduino.TokenLifeFromReply` | server/src/arduino.js:27-28 | a new token is fresh exactly until ten seconds before its expiry, counted from its arrival |
| `ControlRoutes.SetPlan` | server/src/routes-control.js:9-25 | auth (header or query) first, then 400 for a bad direction whatever the room, 404 exactly when the lowercased room fails the lookup, 400 `Missing <dir> property for <room>` for a room found without that property, and a publish of `true` to the direction's property exactly when the room is configured and has that property |
| `ControlRoutes.SetReply` | server/src/routes-control.js:25-31 | a refusal as planned; after a publish, 200 `Triggered <room> <dir>` or 500 with the error |
| `ControlRoutes.SetIgnoresCase` | server/src/routes-control.js:13-14 | capitalisation of room and direction does not matter |
| `ControlRoutes.InheritedRoomAnswered400` | server/src/routes-control.js:19-23 | a lower-case inherited member name gets 400 for the missing property, not 404 |
| `FirmwareLogger.IndexOfFrom` | firmware/logger.h:31 | `indexOf` is -1 from the end of the buffer on and otherwise searches like `strchr`, stopping at the first 0 byte; on a buffer without 0 bytes it finds the first occurrence at or after the start, or -1 when there is none |
| `FirmwareLogger.CutPoint` | firmware/logger.h:21-33 | no cut up to 8192 bytes, the last 6144 above 16384, and otherwise a cut within the last 6144 |
| `FirmwareLogger.Trimmed` | firmware/logger.h:21-33 | the buffer after a trim is a suffix of the old one, at most 8192 bytes, at most 6144 when a cut happened, unchanged up to 8192, and exactly the last 6144 above 16384 |
| `FirmwareLogger.SoftCutAtLineStart` | firmware/logger.h:28-32 | between the limits the kept text starts right after the first newline of the last 6144 bytes, with no newline or 0 byte before it there; it starts where they start when no newline comes before their first 0 byte, and on a buffer without 0 bytes only when they hold none |
| `FirmwareLogger.NulStopsLineSearch` | firmware/logger.h:28-32 | between the limits, a 0 byte where the last 6144 bytes start makes the trim keep exactly those bytes, whatever newlines follow |
| `FirmwareLogger.TrimmedIdempotent` | firmware/logger.h:21-33 | a trimmed buffer needs no further trim |
| `FirmwareLogger.Terminated` | firmware/logger.h:63-64 | a line gets a newline appended exactly when it does not end with one |
| `FirmwareLogger.AppendTrimWellFormed` | firmware/logger.h:61-65 | after an append and a trim the buffer is within 8192 bytes and ends at a line end |
| `FirmwareLogger.NewestLineKept` | firmware/logger.h:61-65 | a line shorter than 6144 bytes is still whole at the end of the buffer after its trim |
| `FirmwareLogger.LongLineEmptiesBuffer` | firmware/logger.h:28-32 | a 6143-byte line without newlines, logged on a buffer over 2048 bytes, empties the whole buffer, the new line included, exactly when it holds no 0 byte; with one, the line and its newline are all that is kept |
| `FirmwareLogger.LogBuffer.TrimIfNeeded` | firmware/logger.h:21-33 | the buffer becomes `Trimmed` of the old one |
| `FirmwareLogger.LogBuffer.Flush` | firmware/logger.h:36-58 | without Wi-Fi or a device id: false, unchanged; an empty buffer: true, nothing sent; otherwise the whole buffer is sent, a 2xx empties it and returns true, and anything else keeps it trimmed and returns false |
| `FirmwareLogger.LogBuffer.LogLine` | firmware/logger.h:61-71 | the terminated line is appended and the buffer trimmed; with Wi-Fi up it is then flushed; the buffer is always well formed afterwards |

## Left out

- The file system, the clock, `os.EOL`, the network, `fetch`, `JSON.parse`,
  `encodeURIComponent` and the Express wiring are outside the model. Clock readings,
  stamps, Cloud replies, parsed JSON values and HTTP status codes are parameters. `os.EOL`
  is fixed to `"\n"`.
- The file system's errors are not modelled, apart from the `ensureTrimmed` exception,
  which it swallows: a missing file counts as "no change".
- Concurrency is not modelled. Concurrent requests and interleaved `await`s (two token
  refreshes in flight, appends racing a trim) are modelled one request at a time.
- Process start-up and the environment are not modelled: the configuration file path,
  `LOG_DIR` creation, and `MAX_BYTES` and `TRIM_TAIL_LINES` from the environment (they
  are parameters).
- The stand-alone server's configuration read at start-up is not modelled; its device
  table is a constant of `Bridge.Server`.
- `firmware/thingProperties.h` is not modelled. Neither are the Wi-Fi stack and the HTTP
  client: `WiFi.status()` and the POST's status code are inputs.
- `Strings.Lower`: only ASCII letters, the Kelvin sign and U+0130 are mapped; every
  other character is left as it is. These are the only characters whose lowercase falls
  in [a-z], and lowercasing any other character keeps its number of UTF-16 code units, so
  `safeName` comes out the same. Lookups of a lowercased name in the configuration do
  not: there the full Unicode case mapping of `toLowerCase` matters.
- `Bridge.SetIgnoresCase`: holds for capitals that `Strings.Lower` maps (ASCII, the
  Kelvin sign, U+0130) only. The source folds every Unicode capital, so `/set/KÜCHE/up`
  reaches a device configured as `küche` there, and is answered 404 by the model.
- `ControlRoutes.SetIgnoresCase`: holds for capitals that `Strings.Lower` maps (ASCII, the
  Kelvin sign, U+0130) only. The source folds every Unicode capital, so `/set/KÜCHE/up`
  reaches a room configured as `küche` there, and is answered 404 by the model.
- `Object.keys`/`Object.entries` order (integer-like names first) is not computed: the
  configuration's entries are given in that order. `rooms` is a map, so `/rooms` and
  `/devices`, which list its keys, are not modelled either.
- Configuration files that make `loadMapping` throw after a successful parse are not
  modelled. A file whose JSON is `null` throws a TypeError at server/src/config.js:24,
  with the three maps left empty. A device entry that is `null` throws at
  server/src/config.js:26, after `rooms` was set at :24, so `rooms` holds every device
  while `idToName` and `nameToId` hold only the entries before it. A `devices` value that
  is not an object (a string or an array, whose characters or elements become entries)
  is not modelled either.
- Non-numeric or fractional `n` on `GET /log/:name` is not modelled: `n` is an integer or
  absent.
- The token endpoint's `expires_in` is taken to be an integer. A missing or non-numeric
  `expires_in` (NaN expiry) is not modelled. Neither is a 2xx JSON reply without
  `access_token`: the source then caches and sends the token `undefined`
  (`Bearer undefined`); the model's `TokenOk` always carries a token string.
- Repeated `token` query parameters (an array) are not modelled: the query token is a
  string.
- `DeviceLog.Entries`: `split(/\n+/)` is modelled as a split on `"\n"`. The empty pieces
  this adds are dropped by the same filter, so the entries are the same.
- `RoutesLogs.IncomingLines`: values other than strings and arrays (numbers, objects) are
  not modelled. JSON `{line|lines}` bodies are not unpacked: an object body becomes
  `[object Object]`, as written.
- `Bridge.Pretty`: for a truthy non-string value, the model gives the TypeError message
  of the V8 engine.
- `FirmwareLogger.LogBuffer`: of the Arduino `String` operations only `indexOf` is
  modelled as working on the NUL-terminated text (`FirmwareLogger.IndexOfFrom`).
  Appending, `substring`, `endsWith` and the POST of the payload are modelled as copying
  or comparing every byte up to the length, 0 bytes included; a `String` implementation
  whose copies stop at a 0 byte is not modelled.
- `FirmwareLogger.LogBuffer.LogLine`: the device id is a parameter, where the source uses
  the `DEVICE_LOGIN_NAME` constant.
- The trigger routes (`/set` on both servers, `/log` and `/clearlog`) keep the lookup as
  written, so an inherited member name such as `constructor` gets a 400 instead of a 404.
  This is stated by `Bridge.InheritedDeviceAnswered400` and
  `ControlRoutes.InheritedRoomAnswered400`. Nothing is published on that path, so no
  corrected variant is modelled.
- `LogStore.Store.AppendByDeviceIdAsWritten`: the name an inherited id's lines are filed
  under is `String(fn)` of the inherited function. That text depends on the JavaScript
  engine, so it is a parameter (`inheritedText`), not computed.

## Findings

| source | as written | input that shows it | evidently intended | confidence | as-written member | corrected member |
|---|---|---|---|---|---|---|
| server/src/routes-logs.js:38 | `if (!rooms[name])` takes inherited members of a plain object as configured rooms. | `POST /log/constructor` with one line and no rooms configured answers 204 and creates `constructor.log` | 404 `Unknown device name` for every name that is not configured | not executed | `RoutesLogs.InheritedNameAccepted` | `RoutesLogs.PostLogByName` |
| server/src/routes-logs.js:49 | `if (!idToName[deviceId])` takes inherited members as known ids. `appendByDeviceId` has the same test (next row; `LogStore.InheritedIdPassesGuard`, `LogStore.Store.AppendByDeviceIdAsWritten`), so the append goes ahead. | `POST /logid/toString` with one line and no ids answers 204 | 404 `Unknown device_id` for every id not configured | not executed | `RoutesLogs.InheritedIdAccepted` | `RoutesLogs.PostLogById` |
| server/src/logStore.js:58-60 | `if (!name)` after `idToName[id]` lets an inherited member through, and the lines are appended under `String(name)`, the source text of the inherited function. | `appendByDeviceId("toString", ["x"])` with no ids appends a line to a file named after that text | `Unknown device_id` and no write for every id not configured | not executed | `LogStore.Store.AppendByDeviceIdAsWritten` | `LogStore.Store.AppendByDeviceId` |
| server/src/routes-logs.js:61 | `GET /log/:name` has the same `!rooms[name]` guard. | `GET /log/constructor` with no rooms configured answers 200 with `(empty)` | 404 `Unknown device name` for every name that is not configured | not executed | `RoutesLogs.InheritedNameReadAndCleared` | `RoutesLogs.GetLog` |
| server/src/routes-logs.js:69 | `DELETE /log/:name` has the same `!rooms[name]` guard. | `DELETE /log/constructor` with no rooms configured answers 204 and creates an empty `constructor.log` | 404 `Unknown device name` for every name that is not configured | not executed | `RoutesLogs.InheritedNameReadAndCleared` | `RoutesLogs.DeleteLog` |

=== FILE: arduino.dfy ===
/**
  The Arduino IoT Cloud client the modular server uses: a token cache of its own and
  `publishTrue`, which presses a button property of a thing.
*/
module Arduino {
  import opened Wrappers
  import opened Strings
  import opened Cloud

  /** The error `getToken` raises when the client credentials are not configured. */
  const CredentialsMissing := "Arduino credentials missing (set ARDUINO_CLIENT_ID / ARDUINO_CLIENT_SECRET)"

  /**
    `makeHeaders(token)`. `ARDUINO_ORG` is trimmed when it is read, and X-Organization is
    sent only when what is left is not empty.
  */
  function MakeHeaders(token: string, rawOrg: string): (h: Headers)
    ensures h.authorization == "Bearer " + token && h.contentType == "application/json"
    ensures h.organization.Some? <==> !AllSpace(rawOrg)
    ensures h.organization.Some? ==> h.organization.value == Trim(rawOrg) && h.organization.value != ""
  {
    TrimShape(rawOrg);
    var org := Trim(rawOrg);
    Headers("Bearer " + token, "application/json", if org != "" then Some(org) else None)
  }

  /** The client: its credentials and organisation, read from the environment, and its token cache. */
  class Client {
    const clientId: string
    const clientSecret: string
    const rawOrg: string
    var tokenCache: TokenState

    constructor (clientId: string, clientSecret: string, rawOrg: string)
      ensures this.clientId == clientId && this.clientSecret == clientSecret && this.rawOrg == rawOrg
      ensures tokenCache == NoToken
    {
      this.clientId := clientId;
      this.clientSecret := clientSecret;
      this.rawOrg := rawOrg;
      tokenCache := NoToken;
    }

    /** Both client credentials are set. */
    predicate HasCredentials()
      reads this
    {
      clientId != "" && clientSecret != ""
    }

    /**
      `getToken`: missing credentials fail before the cache is looked at. `now` is the
      clock before the token request and `afterReply` the clock once its answer is in;
      a new token's expiry counts from `afterReply`.
    */
    method GetToken(now: int, afterReply: int, reply: TokenReply) returns (r: Result<string, string>)
      modifies this
      ensures !HasCredentials() ==> r == Failure(CredentialsMissing) && tokenCache == old(tokenCache)
      ensures HasCredentials() ==> (r, tokenCache) == NextToken(old(tokenCache), now, afterReply, reply)
    {
      if clientId == "" || clientSecret == "" {
        return Failure(CredentialsMissing);
      }
      if tokenCache.token != "" && now < tokenCache.exp - ExpiryMargin {
        return Success(tokenCache.token);
      }
      match reply {
        case TokenRejected(body) =>
          r := Failure("Auth failed: " + body);
        case TokenUnparsable(e) =>
          r := Failure(e);
        case TokenOk(token, expiresIn) =>
          tokenCache := TokenState(token, afterReply + expiresIn * 1000);
          r := Success(token);
      }
    }

    /**
      `publishTrue(thingId, propertyId, deviceId)`: get a token, publish `true` for the
      device, and turn the reply into its text ("OK" when empty) or an error.
    */
    method PublishTrue(thingId: string, propertyId: string, deviceId: string,
                       now: int, afterReply: int, tokenReply: TokenReply, putReply: HttpReply)
      returns (r: Result<string, string>, sent: Option<Sent>)
      modifies this
      ensures !HasCredentials() ==> r == Failure(CredentialsMissing) && sent == None && tokenCache == old(tokenCache)
      ensures HasCredentials() ==>
        var t := NextToken(old(tokenCache), now, afterReply, tokenReply);
        && tokenCache == t.1
        && (t.0.Failure? ==> r == Failure(t.0.error) && sent == None)
        && (t.0.Success? ==>
              && r == PublishResult(putReply)
              && sent == Some(Sent(Publish(thingId, propertyId, deviceId, PTrue), MakeHeaders(t.0.value, rawOrg))))
    {
      var token := GetToken(now, afterReply, tokenReply);
      if token.Failure? {
        return Failure(token.error), None;
      }
      sent := Some(Sent(Publish(thingId, propertyId, deviceId, PTrue), MakeHeaders(token.value, rawOrg)));
      r := PublishResult(putReply);
    }
  }

  /**
    A token's life counts from the moment its answer arrived: fetched at `afterReply`
    for `expiresIn` seconds, it is served until ten seconds before
    `afterReply + expiresIn * 1000`, and from then on asked for again.
  */
  lemma TokenLifeFromReply(s: TokenState, now: int, afterReply: int, token: string, expiresIn: int, later: int)
    requires !Fresh(s, now) && token != ""
    ensures var cached := NextToken(s, now, afterReply, TokenOk(token, expiresIn)).1;
      Fresh(cached, later) <==> later < afterReply + expiresIn * 1000 - ExpiryMargin
  {
  }
}

=== FILE: cloud.dfy ===
/**
  What the two Arduino IoT Cloud clients of the bridge have in common: the cached
  OAuth token, the shape of a Cloud request and of its reply, and the way a
  publish reply becomes a result text or an error message.
*/
module Cloud {
  import opened Wrappers
  import opened Strings

  // ------------------------------------------------------------ replies

  /**
    The token endpoint's answer: the JSON fields of a 2xx reply, the message `res.json()`
    throws for a 2xx body that is not JSON, or the text of any other reply.
  */
  datatype TokenReply =
    | TokenOk(accessToken: string, expiresIn: int)
    | TokenUnparsable(parseError: string)
    | TokenRejected(body: string)

  /** Any other Cloud API reply: its HTTP status and its body text. */
  datatype HttpReply = HttpReply(status: nat, body: string)

  /** `res.ok`: a status in the 2xx range. */
  predicate IsOk(status: nat) {
    200 <= status <= 299
  }

  /** The text of the error thrown for a refused request: `${what} failed: ${status} ${body}`. */
  function HttpError(what: string, reply: HttpReply): string {
    what + " failed: " + NatToString(reply.status) + " " + reply.body
  }

  /**
    The end of `publishValue` / `publishTrue`: a 2xx reply yields its text, or "OK" when
    the text is empty; any other reply becomes the error `Publish failed: <status> <text>`.
  */
  function PublishResult(reply: HttpReply): (r: Result<string, string>)
    ensures r.Success? <==> IsOk(reply.status)
    ensures r.Success? ==> r.value != "" && (reply.body != "" ==> r.value == reply.body)
    ensures r.Success? && reply.body == "" ==> r.value == "OK"
    ensures r.Failure? ==> r.error == HttpError("Publish", reply)
  {
    if !IsOk(reply.status) then Failure(HttpError("Publish", reply))
    else if reply.body == "" then Success("OK")
    else Success(reply.body)
  }

  /** Numbers from ten on print with at least two digits. */
  lemma NatToStringLength(n: nat)
    ensures n >= 10 <==> |NatToString(n)| >= 2
  {
    if n >= 10 {
      assert NatToString(n) == NatToString(n / 10) + ["0123456789"[n % 10]];
    }
  }

  /** Different numbers are printed differently. */
  lemma {:induction false} NatToStringInjective(m: nat, n: nat)
    requires NatToString(m) == NatToString(n)
    ensures m == n
    decreases m
  {
    NatToStringLength(m);
    NatToStringLength(n);
    var a, b := NatToString(m), NatToString(n);
    if m >= 10 {
      assert a[..|a| - 1] == NatToString(m / 10);
      assert b[..|b| - 1] == NatToString(n / 10);
      NatToStringInjective(m / 10, n / 10);
      assert "0123456789"[m % 10] == a[|a| - 1] == b[|b| - 1] == "0123456789"[n % 10];
    } else {
      assert "0123456789"[m] == a[0] == b[0] == "0123456789"[n];
    }
  }

  /** In `digits + " " + rest`, the first space is the one right after the digits. */
  lemma DigitsBeforeSpace(digits: string, rest: string)
    requires forall i :: 0 <= i < |digits| ==> IsDigit(digits[i])
    ensures (digits + " " + rest)[|digits|] == ' '
    ensures forall i :: 0 <= i < |digits| ==> (digits + " " + rest)[i] != ' '
  {
    assert forall i :: 0 <= i < |digits| ==> (digits + " " + rest)[i] == digits[i];
  }

  /** The status is the digits up to the first space after the prefix; the rest is the body. */
  lemma HttpErrorSplits(what: string, a: HttpReply, b: HttpReply)
    requires HttpError(what, a) == HttpError(what, b)
    ensures a == b
  {
    var p := what + " failed: ";
    var da, db := NatToString(a.status), NatToString(b.status);
    var ta, tb := da + " " + a.body, db + " " + b.body;
    assert HttpError(what, a) == p + ta;
    assert HttpError(what, b) == p + tb;
    assert ta == (p + ta)[|p|..] == (p + tb)[|p|..] == tb;
    DigitsBeforeSpace(da, a.body);
    DigitsBeforeSpace(db, b.body);
    assert |da| == |db|;
    assert da == ta[..|da|] == tb[..|db|] == db;
    NatToStringInjective(a.status, b.status);
    assert a.body == ta[|da| + 1..] == tb[|db| + 1..] == b.body;
  }

  /** A publish failure message names exactly one refused reply: its status and text can be read back. */
  lemma PublishFailureKeepsReply(a: HttpReply, b: HttpReply)
    requires PublishResult(a).Failure? && PublishResult(a) == PublishResult(b)
    ensures a == b
  {
    HttpErrorSplits("Publish", a, b);
  }

  // -------------------------------------------------------- token cache

  /** `tokenCache`: the last token (the empty string for none) and its expiry, in milliseconds. */
  datatype TokenState = TokenState(token: string, exp: int)

  /** The cache both servers start with: `{ token: null, exp: 0 }`. */
  const NoToken := TokenState("", 0)

  /** A cached token is not served during the last ten seconds of its life. */
  const ExpiryMargin := 10000

  /** `tokenCache.token && now < tokenCache.exp - 10_000`. */
  predicate Fresh(s: TokenState, now: int) {
    s.token != "" && now < s.exp - ExpiryMargin
  }

  /**
    One `getToken` call at clock `now` on cache `s`. `reply` is what the token endpoint
    would answer (asked only on a miss) and `stampAt` the clock reading the new expiry
    is counted from. Yields the call's result and the cache afterwards.
  */
  function NextToken(s: TokenState, now: int, stampAt: int, reply: TokenReply): (r: (Result<string, string>, TokenState))
    ensures Fresh(s, now) ==> r == (Success(s.token), s)
    ensures !Fresh(s, now) ==> (r.0.Failure? <==> !reply.TokenOk?)
    ensures r.0.Failure? ==> r.1 == s
    ensures r.0.Failure? && reply.TokenRejected? ==> r.0.error == "Auth failed: " + reply.body
    ensures r.0.Failure? && reply.TokenUnparsable? ==> r.0.error == reply.parseError
    ensures r.0.Success? ==> r.1.token == r.0.value
    ensures r.1 == s || (reply.TokenOk? && r.1 == TokenState(reply.accessToken, stampAt + reply.expiresIn * 1000))
  {
    if Fresh(s, now) then (Success(s.token), s)
    else match reply
      case TokenRejected(body) => (Failure("Auth failed: " + body), s)
      case TokenUnparsable(e) => (Failure(e), s)
      case TokenOk(token, expiresIn) => (Success(token), TokenState(token, stampAt + expiresIn * 1000))
  }

  /**
    A token fetched after a miss is served again, whatever the endpoint would answer,
    at every clock reading earlier than ten seconds before its expiry.
  */
  lemma TokenReused(s: TokenState, now: int, stampAt: int, token: string, expiresIn: int,
                    later: int, laterStamp: int, again: TokenReply)
    requires !Fresh(s, now) && token != ""
    requires later < stampAt + expiresIn * 1000 - ExpiryMargin
    ensures var cached := NextToken(s, now, stampAt, TokenOk(token, expiresIn)).1;
      NextToken(cached, later, laterStamp, again) == (Success(token), cached)
  {
  }

  /** A token that lives ten seconds or less is never served from the cache: every later call asks again. */
  lemma ShortLivedRefetched(s: TokenState, now: int, stampAt: int, token: string, expiresIn: int, later: int)
    requires !Fresh(s, now) && expiresIn <= 10 && later >= stampAt
    ensures !Fresh(NextToken(s, now, stampAt, TokenOk(token, expiresIn)).1, later)
  {
  }

  // ------------------------------------------------------------ requests

  /** The request headers `makeHeaders` builds; `organization` is the optional `X-Organization`. */
  datatype Headers = Headers(authorization: string, contentType: string, organization: Option<string>)

  /** A value a publish writes: JSON `true`, or a string. */
  datatype PropValue = PTrue | PText(text: string)

  /** A Cloud API call: a publish (`PUT .../publish`) or a property read (`GET .../properties/<id>`). */
  datatype CloudCall =
    | Publish(thingId: string, propertyId: string, deviceId: string, value: PropValue)
    | ReadProp(thingId: string, propertyId: string)

  /** A Cloud request as sent: the call and its headers. */
  datatype Sent = Sent(call: CloudCall, headers: Headers)

  /** A route's decision before it talks to the Cloud: refuse with a status and text, or make a call. */
  datatype Plan = Refuse(status: nat, text: string) | Perform(call: CloudCall)

  /** The HTTP reply a route sends. */
  datatype Reply = Reply(status: nat, text: string)
}

=== FILE: config.dfy ===
/**
  The device registry: the `rooms`, `idToName` and `nameToId` tables built from
  the devices configuration file, and the shared-secret check every route runs.
*/
module Config {
  import opened Wrappers
  import opened Strings

  /** One device entry of the configuration; an absent attribute is the empty string. */
  datatype DeviceConfig = DeviceConfig(
    thingId: string,
    deviceId: string,
    upPropertyId: string,
    downPropertyId: string,
    logPropertyId: string,
    debugLogPropertyId: string)

  /** A configuration entry: the device's name (the JSON key) and its attributes. */
  type Entry = (string, DeviceConfig)

  /**
    What reading the configuration file yields: no file, text that is not JSON,
    or a parsed document whose `devices` object (if any) lists its entries in
    `Object.entries` order.
  */
  datatype ConfigSource = NoFile | Malformed | Parsed(devices: Option<seq<Entry>>)

  /** JSON object keys are unique, so the entries of `devices` have distinct names. */
  ghost predicate DistinctNames(es: seq<Entry>) {
    forall i, j :: 0 <= i < j < |es| ==> es[i].0 != es[j].0
  }

  ghost predicate DistinctIds(es: seq<Entry>) {
    forall i, j :: 0 <= i < j < |es| && IdOf(es[i].1) != "" ==> IdOf(es[i].1) != IdOf(es[j].1)
  }

  /** `String(obj.deviceId || "").trim()`. */
  function IdOf(d: DeviceConfig): string {
    Trim(d.deviceId)
  }

  /** The `rooms` table: every configured device, keyed by its name as written in the file. */
  function RoomsOf(es: seq<Entry>): (r: map<string, DeviceConfig>)
    ensures forall i :: 0 <= i < |es| ==> es[i].0 in r
    ensures forall n :: n in r ==> exists i :: 0 <= i < |es| && es[i].0 == n
    decreases |es|
  {
    if es == [] then map[]
    else
      var prev := RoomsOf(es[..|es| - 1]);
      assert forall i :: 0 <= i < |es| - 1 ==> es[..|es| - 1][i] == es[i];
      prev[es[|es| - 1].0 := es[|es| - 1].1]
  }

  /**
    On a plain object, `obj["__proto__"] = v` calls the inherited `__proto__` setter,
    which ignores a string `v`: an assignment to this key stores nothing.
  */
  const ProtoKey := "__proto__"

  /** `obj[key] = value` on a plain object with string keys and values. */
  function Assign(m: map<string, string>, key: string, value: string): map<string, string> {
    if key == ProtoKey then m else m[key := value]
  }

  /** The `idToName` table after the loop has visited `es` in order. */
  function IdIndex(es: seq<Entry>): map<string, string>
    decreases |es|
  {
    if es == [] then map[]
    else
      var prev := IdIndex(es[..|es| - 1]);
      var last := es[|es| - 1];
      if IdOf(last.1) != "" then Assign(prev, IdOf(last.1), last.0) else prev
  }

  /** The `nameToId` table after the loop has visited `es` in order. */
  function NameIndex(es: seq<Entry>): map<string, string>
    decreases |es|
  {
    if es == [] then map[]
    else
      var prev := NameIndex(es[..|es| - 1]);
      var last := es[|es| - 1];
      if IdOf(last.1) != "" then Assign(prev, last.0, IdOf(last.1)) else prev
  }

  /**
    `nameToId` holds exactly the devices with a non-empty id, each mapped to that
    id, except a device named `__proto__`, whose assignment stores nothing; a
    device without an id is in neither table.
  */
  lemma {:induction false} NameIndexSpec(es: seq<Entry>)
    requires DistinctNames(es)
    ensures forall i :: 0 <= i < |es| ==> (es[i].0 in NameIndex(es) <==> IdOf(es[i].1) != "" && es[i].0 != ProtoKey)
    ensures forall i :: 0 <= i < |es| && IdOf(es[i].1) != "" && es[i].0 != ProtoKey ==> NameIndex(es)[es[i].0] == IdOf(es[i].1)
    ensures forall n :: n in NameIndex(es) ==> n != ProtoKey && exists i :: 0 <= i < |es| && es[i].0 == n
    decreases |es|
  {
    if es != [] {
      var init, last := es[..|es| - 1], es[|es| - 1];
      assert forall i :: 0 <= i < |init| ==> init[i] == es[i];
      NameIndexSpec(init);
      var m := NameIndex(es);
      assert forall j :: 0 <= j < |init| ==> init[j].0 != last.0;
      assert last.0 !in NameIndex(init);
      forall i | 0 <= i < |es|
        ensures (es[i].0 in m <==> IdOf(es[i].1) != "" && es[i].0 != ProtoKey)
        ensures IdOf(es[i].1) != "" && es[i].0 != ProtoKey ==> m[es[i].0] == IdOf(es[i].1)
      {
        if i < |es| - 1 {
          assert es[i].0 != last.0 && init[i] == es[i];
        }
      }
      forall n | n in m
        ensures n != ProtoKey && exists i :: 0 <= i < |es| && es[i].0 == n
      {
        if n != last.0 {
          var i :| 0 <= i < |init| && init[i].0 == n;
          assert es[i].0 == n;
        } else {
          assert es[|es| - 1].0 == n;
        }
      }
    }
  }

  /** `idToName` holds exactly the non-empty ids of the devices, except `__proto__`, whose assignment stores nothing. */
  lemma {:induction false} IdIndexKeys(es: seq<Entry>)
    ensures forall i :: 0 <= i < |es| && IdOf(es[i].1) != "" && IdOf(es[i].1) != ProtoKey ==> IdOf(es[i].1) in IdIndex(es)
    ensures forall id :: id in IdIndex(es) ==> id != "" && id != ProtoKey && exists i :: 0 <= i < |es| && IdOf(es[i].1) == id
    decreases |es|
  {
    if es != [] {
      var init, last := es[..|es| - 1], es[|es| - 1];
      assert forall i :: 0 <= i < |init| ==> init[i] == es[i];
      IdIndexKeys(init);
      var m := IdIndex(es);
      assert m == if IdOf(last.1) != "" then Assign(IdIndex(init), IdOf(last.1), last.0) else IdIndex(init);
      forall id | id in m
        ensures id != "" && id != ProtoKey && exists i :: 0 <= i < |es| && IdOf(es[i].1) == id
      {
        if id != IdOf(last.1) || IdOf(last.1) == "" || IdOf(last.1) == ProtoKey {
          var i :| 0 <= i < |init| && IdOf(init[i].1) == id;
          assert IdOf(es[i].1) == id;
        } else {
          assert IdOf(es[|es| - 1].1) == id;
        }
      }
    }
  }

  /**
    Each id maps to the LAST device carrying it in the order the loop visits the
    entries (`Object.entries` order: integer-like names first, in ascending order,
    then the others in file order): a later duplicate overwrites an earlier one.
  */
  lemma {:induction false} IdIndexLastWins(es: seq<Entry>, i: nat)
    requires i < |es| && IdOf(es[i].1) != "" && IdOf(es[i].1) != ProtoKey
    requires forall j :: i < j < |es| ==> IdOf(es[j].1) != IdOf(es[i].1)
    ensures IdOf(es[i].1) in IdIndex(es) && IdIndex(es)[IdOf(es[i].1)] == es[i].0
    decreases |es|
  {
    var init, last := es[..|es| - 1], es[|es| - 1];
    if i < |es| - 1 {
      assert init[i] == es[i];
      assert forall j :: i < j < |init| ==> init[j] == es[j];
      IdIndexLastWins(init, i);
    }
  }

  /**
    Every id in `idToName` names a device whose own id it is: `nameToId[idToName[id]] == id`,
    unless that device is named `__proto__`, which `nameToId` cannot hold.
  */
  lemma IdToNameToId(es: seq<Entry>)
    requires DistinctNames(es)
    ensures forall id :: id in IdIndex(es) ==>
      (IdIndex(es)[id] in NameIndex(es) <==> IdIndex(es)[id] != ProtoKey)
      && (IdIndex(es)[id] != ProtoKey ==> NameIndex(es)[IdIndex(es)[id]] == id)
  {
    var ids, names := IdIndex(es), NameIndex(es);
    IdToNameHolder(es);
    IdIndexKeys(es);
    NameIndexSpec(es);
    forall id | id in ids
      ensures (ids[id] in names <==> ids[id] != ProtoKey) && (ids[id] != ProtoKey ==> names[ids[id]] == id)
    {
      var i :| 0 <= i < |es| && es[i].0 == ids[id] && IdOf(es[i].1) == id;
      assert id != "";
    }
  }

  /** The name `idToName` gives for an id is the name of some device carrying that id. */
  lemma {:induction false} IdToNameHolder(es: seq<Entry>)
    ensures forall id :: id in IdIndex(es) ==> exists i :: 0 <= i < |es| && es[i].0 == IdIndex(es)[id] && IdOf(es[i].1) == id
    decreases |es|
  {
    if es != [] {
      var init, last := es[..|es| - 1], es[|es| - 1];
      assert forall i :: 0 <= i < |init| ==> init[i] == es[i];
      IdToNameHolder(init);
      var m := IdIndex(es);
      forall id | id in m
        ensures exists i :: 0 <= i < |es| && es[i].0 == m[id] && IdOf(es[i].1) == id
      {
        if id != IdOf(last.1) || IdOf(last.1) == "" || IdOf(last.1) == ProtoKey {
          var i :| 0 <= i < |init| && init[i].0 == IdIndex(init)[id] && IdOf(init[i].1) == id;
          assert es[i] == init[i];
        } else {
          assert es[|es| - 1] == last;
        }
      }
    }
  }

  /**
    With distinct ids the two tables are mutual inverses: `idToName[nameToId[name]] == name`,
    unless the name's id is `__proto__`, which `idToName` cannot hold.
  */
  lemma NameToIdToName(es: seq<Entry>)
    requires DistinctNames(es) && DistinctIds(es)
    ensures forall n :: n in NameIndex(es) ==>
      (NameIndex(es)[n] in IdIndex(es) <==> NameIndex(es)[n] != ProtoKey)
      && (NameIndex(es)[n] != ProtoKey ==> IdIndex(es)[NameIndex(es)[n]] == n)
  {
    var ids, names := IdIndex(es), NameIndex(es);
    NameIndexSpec(es);
    forall n | n in names
      ensures (names[n] in ids <==> names[n] != ProtoKey)
      ensures names[n] != ProtoKey ==> ids[names[n]] == n
    {
      var i :| 0 <= i < |es| && es[i].0 == n;
      var id := IdOf(es[i].1);
      assert id != "" && names[n] == id;
      if id == ProtoKey {
        IdIndexKeys(es);
      } else {
        IdIndexLastWins(es, i);
      }
    }
  }

  /** One more iteration of the loader's loop extends both tables by the next entry. */
  lemma IndexStep(es: seq<Entry>, i: nat)
    requires i < |es|
    ensures var id := IdOf(es[i].1);
      && IdIndex(es[..i + 1]) == (if id != "" && id != ProtoKey then IdIndex(es[..i])[id := es[i].0] else IdIndex(es[..i]))
      && NameIndex(es[..i + 1]) == (if id != "" && es[i].0 != ProtoKey then NameIndex(es[..i])[es[i].0 := id] else NameIndex(es[..i]))
  {
    assert es[..i + 1][..i] == es[..i];
  }

  /** `cfg.devices || {}`, as a list of entries. */
  function EntriesOf(src: ConfigSource): seq<Entry>
    requires src.Parsed?
  {
    if src.devices.Some? then src.devices.value else []
  }

  /** The process-wide tables that `loadMapping` reassigns. */
  class Registry {
    var rooms: map<string, DeviceConfig>
    var idToName: map<string, string>
    var nameToId: map<string, string>

    constructor ()
      ensures rooms == map[] && idToName == map[] && nameToId == map[]
    {
      rooms, idToName, nameToId := map[], map[], map[];
    }

    /**
      `loadMapping`: resets the three tables, then fills them from the file. A
      missing file leaves them empty and is no error; text that is not JSON
      throws after the reset.
    */
    method LoadMapping(src: ConfigSource) returns (r: Outcome<string>)
      requires src.Parsed? && src.devices.Some? ==> DistinctNames(src.devices.value)
      modifies this
      ensures !src.Parsed? ==> rooms == map[] && idToName == map[] && nameToId == map[]
      ensures r.Fail? <==> src.Malformed?
      ensures src.Parsed? ==>
        rooms == RoomsOf(EntriesOf(src)) && idToName == IdIndex(EntriesOf(src)) && nameToId == NameIndex(EntriesOf(src))
    {
      rooms, idToName, nameToId := map[], map[], map[];
      if src.NoFile? {
        return Pass;
      }
      if src.Malformed? {
        return Fail("SyntaxError: configuration is not valid JSON");
      }
      var es := EntriesOf(src);
      rooms := RoomsOf(es);
      var i := 0;
      while i < |es|
        invariant 0 <= i <= |es|
        invariant rooms == RoomsOf(es)
        invariant idToName == IdIndex(es[..i]) && nameToId == NameIndex(es[..i])
      {
        IndexStep(es, i);
        var name, obj := es[i].0, es[i].1;
        var devId := Trim(obj.deviceId);
        if devId != "" {
          if devId != ProtoKey {
            idToName := idToName[devId := name];
          }
          if name != ProtoKey {
            nameToId := nameToId[name := devId];
          }
        }
        i := i + 1;
      }
      assert es[..i] == es;
      return Pass;
    }
  }

  // ------------------------------------------------------------ requireAuth

  /** What a request presents: the `X-Auth-Token` header and the `token` query parameter ("" when absent). */
  datatype Credentials = Credentials(header: string, queryToken: string)

  /**
    `requireAuth`: with no secret configured every request passes; otherwise the
    header or the query parameter must equal the secret exactly (no trimming, no
    case folding), and a request without credentials is refused.
  */
  function RequireAuth(authToken: string, cred: Credentials): (ok: bool)
    ensures authToken == "" ==> ok
    ensures authToken != "" ==> (ok <==> authToken in {cred.header, cred.queryToken})
    ensures authToken != "" && cred == Credentials("", "") ==> !ok
  {
    if authToken == "" then true
    else cred.header == authToken || cred.queryToken == authToken
  }

  // -------------------------------------------------- object key lookups

  /** Members every plain JavaScript object inherits from `Object.prototype`. */
  const InheritedKeys: set<string> := {
    "constructor", "__proto__", "hasOwnProperty", "isPrototypeOf", "propertyIsEnumerable",
    "toLocaleString", "toString", "valueOf",
    "__defineGetter__", "__defineSetter__", "__lookupGetter__", "__lookupSetter__"
  }

  /** `rooms[name]` is truthy, as written: an own key, or an inherited member. */
  predicate RoomKnownAsWritten(rooms: map<string, DeviceConfig>, name: string) {
    name in rooms || name in InheritedKeys
  }

  /** `idToName[id]` is truthy, as written: an own key with a non-empty name, or an inherited member. */
  predicate IdKnownAsWritten(idToName: map<string, string>, id: string) {
    if id in idToName then idToName[id] != "" else id in InheritedKeys
  }

  /** A device entry with every attribute absent: what an inherited member yields. */
  const NoAttributes := DeviceConfig("", "", "", "", "", "")

  /**
    `table[name]` as written: the entry of an own key; for a member every object inherits
    (a function or `Object.prototype`), a truthy value whose device attributes are all absent.
  */
  function LookupAsWritten(table: map<string, DeviceConfig>, name: string): (r: Option<DeviceConfig>)
    ensures r.Some? <==> RoomKnownAsWritten(table, name)
    ensures name in table ==> r == Some(table[name])
    ensures name !in table && r.Some? ==> r.value == NoAttributes
  {
    if name in table then Some(table[name])
    else if name in InheritedKeys then Some(NoAttributes)
    else None
  }

  /** The lookup the routes evidently intend: a configured device name. */
  predicate RoomKnown(rooms: map<string, DeviceConfig>, name: string) {
    name in rooms
  }

  /** The lookup the routes evidently intend: a configured, non-empty device name for the id. */
  predicate IdKnown(idToName: map<string, string>, id: string) {
    id in idToName && idToName[id] != ""
  }
}

=== FILE: device_log.dfy ===
/**
  `formatDeviceLog`: how the bridge renders a device's debug-log property. The
  property is one string in which a device writes `[hh:mm:ss]`-stamped entries,
  several to a line or one per line; the bridge puts every entry on a line of
  its own with the clock in a fixed-width column in front of the message.
*/
module DeviceLog {
  import opened Strings

  // -------------------------------------------------------------- stamps

  /** A clock stamp `[hh:mm:ss]` starts at index `i` of `s` (`\d` is an ASCII digit). */
  predicate StampAt(s: string, i: int) {
    && 0 <= i && i + 10 <= |s|
    && s[i] == '[' && IsDigit(s[i + 1]) && IsDigit(s[i + 2]) && s[i + 3] == ':'
    && IsDigit(s[i + 4]) && IsDigit(s[i + 5]) && s[i + 6] == ':'
    && IsDigit(s[i + 7]) && IsDigit(s[i + 8]) && s[i + 9] == ']'
  }

  /** No stamp starts anywhere in `p` after its first character. */
  ghost predicate NoInnerStamp(p: string) {
    forall j :: 0 < j ==> !StampAt(p, j)
  }

  /** A stamp found inside a slice is a stamp of the whole string. */
  lemma StampInSlice(s: string, a: int, b: int, j: int)
    requires 0 <= a <= b <= |s| && StampAt(s[a..b], j)
    ensures StampAt(s, a + j)
  {
    assert forall t :: j <= t < j + 10 ==> s[a..b][t] == s[a + t];
  }

  /** Two stamps never overlap: none starts in the nine characters after another's '['. */
  lemma StampsApart(s: string, i: int, k: int)
    requires StampAt(s, i) && i < k < i + 10
    ensures !StampAt(s, k)
  {
  }

  // ------------------------------------------------- cutting before stamps

  /**
    `line.split(/(?=\[\d{2}:\d{2}:\d{2}\])/)`, scanning from index `i` while the current
    piece starts at `from`: the line is cut before every stamp that does not start the
    current piece (a match where the last piece began is skipped, as the splitter does).
  */
  function CutFrom(s: string, from: nat, i: nat): seq<string>
    requires from <= i <= |s|
    decreases |s| - i
  {
    if i == |s| then [s[from..]]
    else if i > from && StampAt(s, i) then [s[from..i]] + CutFrom(s, i, i + 1)
    else CutFrom(s, from, i + 1)
  }

  function Cut(s: string): seq<string> {
    CutFrom(s, 0, 0)
  }

  /** Concatenation starts with the first piece. */
  lemma ConcatFirst(xs: seq<string>)
    requires |xs| >= 1
    ensures Join(xs, "") == xs[0] + Join(xs[1..], "")
  {
  }

  /** Scanning over characters where no cut happens changes nothing. */
  lemma {:induction false} CutSkip(s: string, from: nat, i: nat, j: nat)
    requires from <= i <= j <= |s|
    requires forall k :: i <= k < j && k > from ==> !StampAt(s, k)
    ensures CutFrom(s, from, i) == CutFrom(s, from, j)
    decreases j - i
  {
    if i < j {
      CutSkip(s, from, i + 1, j);
    }
  }

  /** What holds of the pieces scanned from `from`, knowing no stamp lies strictly between `from` and `i`. */
  ghost predicate CutShape(s: string, from: nat, i: nat, r: seq<string>)
    requires from <= |s|
  {
    && |r| >= 1
    && Join(r, "") == s[from..]
    && i - from <= |r[0]|
    && (forall k :: 0 < k < |r| ==> StampAt(r[k], 0))
    && (forall k :: 0 <= k < |r| ==> NoInnerStamp(r[k]))
  }

  lemma {:induction false} CutFromSpec(s: string, from: nat, i: nat)
    requires from <= i <= |s|
    requires forall k :: from < k < i ==> !StampAt(s, k)
    ensures CutShape(s, from, i, CutFrom(s, from, i))
    decreases |s| - i, 2
  {
    if i == |s| {
      forall j | 0 < j && StampAt(s[from..], j) ensures false {
        StampInSlice(s, from, |s|, j);
      }
    } else if i > from && StampAt(s, i) {
      CutAtStamp(s, from, i);
    } else {
      CutFromSpec(s, from, i + 1);
    }
  }

  /** The step that cuts: the piece `s[from..i]` ends where a stamp begins. */
  lemma {:induction false} CutAtStamp(s: string, from: nat, i: nat)
    requires from < i < |s| && StampAt(s, i)
    requires forall k :: from < k < i ==> !StampAt(s, k)
    ensures CutShape(s, from, i, [s[from..i]] + CutFrom(s, i, i + 1))
    decreases |s| - i, 1
  {
    var rest := CutFrom(s, i, i + 1);
    PiecesAfterStamp(s, i);
    assert NoInnerStamp(s[from..i]) by {
      forall j | 0 < j && StampAt(s[from..i], j) ensures false {
        StampInSlice(s, from, i, j);
      }
    }
    assert Join([s[from..i]] + rest, "") == s[from..i] + Join(rest, "") by {
      ConcatFirst([s[from..i]] + rest);
      assert ([s[from..i]] + rest)[1..] == rest;
    }
    assert s[from..] == s[from..i] + s[i..];
  }

  /** The pieces scanned from a stamp: the first one holds the whole stamp. */
  lemma {:induction false} PiecesAfterStamp(s: string, i: nat)
    requires i < |s| && StampAt(s, i)
    ensures CutShape(s, i, i + 1, CutFrom(s, i, i + 1))
    ensures StampAt(CutFrom(s, i, i + 1)[0], 0)
    decreases |s| - i, 0
  {
    var e := i + 10;
    var rest := CutFrom(s, i, i + 1);
    forall k | i + 1 <= k < e && k > i ensures !StampAt(s, k) {
      StampsApart(s, i, k);
    }
    CutSkip(s, i, i + 1, e);
    CutFromSpec(s, i, e);
    assert |rest[0]| >= 10;
    assert rest[0] == s[i..][..|rest[0]|] by {
      ConcatFirst(rest);
    }
    assert forall k :: 0 <= k < 10 ==> rest[0][k] == s[i + k];
  }

  /**
    The pieces of a line put the line back together; every piece but the first starts
    with a stamp, and no piece holds a stamp anywhere after its first character.
  */
  lemma CutSpec(s: string)
    ensures |Cut(s)| >= 1 && Join(Cut(s), "") == s
    ensures forall k :: 0 < k < |Cut(s)| ==> StampAt(Cut(s)[k], 0)
    ensures forall k :: 0 <= k < |Cut(s)| ==> NoInnerStamp(Cut(s)[k])
  {
    CutFromSpec(s, 0, 0);
    assert CutShape(s, 0, 0, Cut(s));
  }

  /** A character missing from the line is missing from each of its pieces. */
  lemma {:induction false} CutAvoids(s: string, from: nat, i: nat, c: char)
    requires from <= i <= |s| && c !in s
    ensures forall k :: 0 <= k < |CutFrom(s, from, i)| ==> c !in CutFrom(s, from, i)[k]
    decreases |s| - i
  {
    if i == |s| {
      assert c !in s[from..] by { assert forall t :: from <= t < |s| ==> s[from..][t - from] == s[t]; }
    } else if i > from && StampAt(s, i) {
      assert c !in s[from..i] by { assert forall t :: from <= t < i ==> s[from..i][t - from] == s[t]; }
      CutAvoids(s, i, i + 1, c);
    } else {
      CutAvoids(s, from, i + 1, c);
    }
  }

  // ------------------------------------------------------------- entries

  /** `.map((s) => s.trim())`. */
  function TrimAll(xs: seq<string>): (r: seq<string>)
    ensures |r| == |xs| && forall i :: 0 <= i < |xs| ==> r[i] == Trim(xs[i])
  {
    seq(|xs|, i requires 0 <= i < |xs| => Trim(xs[i]))
  }

  /** The entries of one line: its pieces, trimmed, without the empty ones (`.filter(Boolean)`). */
  function LineEntries(line: string): seq<string> {
    NonEmpty(TrimAll(Cut(line)))
  }

  /** `.flatMap(...)` over the lines of the text. */
  function EntriesOfLines(lines: seq<string>): seq<string>
    decreases |lines|
  {
    if lines == [] then [] else LineEntries(lines[0]) + EntriesOfLines(lines[1..])
  }

  /**
    The entries of the whole text once CRLF and lone CR have become LF. The text is split
    at every LF: `split(/\n+/)` only differs by not producing the empty lines between
    consecutive LFs, and an empty line contributes no entry.
  */
  function Entries(raw: string): seq<string> {
    EntriesOfLines(SplitOn(NormalizeNewlines(raw), '\n'))
  }

  /**
    What every entry is: not empty, within one line, without white space at either end,
    and with no stamp after its first character (each stamp heads an entry of its own).
  */
  ghost predicate CleanEntry(e: string) {
    && e != "" && '\n' !in e && !IsJsSpace(e[0]) && !IsJsSpace(e[|e| - 1])
    && NoInnerStamp(e)
  }

  /** Trimming only removes characters at the ends: the result is a slice. */
  lemma TrimIsSlice(p: string) returns (a: nat)
    ensures a + |Trim(p)| <= |p| && Trim(p) == p[a..a + |Trim(p)|]
  {
    TrimAt(p);
    a := |p| - |TrimStart(p)|;
  }

  /** A slice of a piece without inner stamps that keeps its first character keeps that property. */
  lemma TrimKeepsNoInnerStamp(p: string)
    requires NoInnerStamp(p)
    ensures NoInnerStamp(Trim(p))
  {
    var a := TrimIsSlice(p);
    var t := Trim(p);
    forall j | 0 < j && StampAt(t, j) ensures false {
      assert StampAt(p[a..a + |t|], j);
      StampInSlice(p, a, a + |t|, j);
    }
  }

  lemma LineEntriesClean(line: string)
    requires '\n' !in line
    ensures forall k :: 0 <= k < |LineEntries(line)| ==> CleanEntry(LineEntries(line)[k])
  {
    var ps := Cut(line);
    CutSpec(line);
    CutAvoids(line, 0, 0, '\n');
    var ts := TrimAll(ps);
    forall k | 0 <= k < |ts| && ts[k] != "" ensures CleanEntry(ts[k]) {
      TrimShape(ps[k]);
      TrimKeepsNoInnerStamp(ps[k]);
    }
    NonEmptyMembers(ts);
    NonEmptySpec(ts);
  }

  lemma {:induction false} EntriesOfLinesClean(lines: seq<string>)
    requires forall i :: 0 <= i < |lines| ==> '\n' !in lines[i]
    ensures forall k :: 0 <= k < |EntriesOfLines(lines)| ==> CleanEntry(EntriesOfLines(lines)[k])
    decreases |lines|
  {
    if lines != [] {
      LineEntriesClean(lines[0]);
      EntriesOfLinesClean(lines[1..]);
    }
  }

  /** Every entry of any text is clean. */
  lemma EntriesClean(raw: string)
    ensures forall k :: 0 <= k < |Entries(raw)| ==> CleanEntry(Entries(raw)[k])
  {
    SplitPiecesFree(NormalizeNewlines(raw), '\n');
    EntriesOfLinesClean(SplitOn(NormalizeNewlines(raw), '\n'));
  }

  // ---------------------------------------------------------- formatting

  /** The characters `.` does not match in a regular expression without the `s` flag. */
  predicate IsLineTerminator(c: char) {
    c == '\n' || c == '\r' || c == '\U{2028}' || c == '\U{2029}'
  }

  /** `e` matches `^\[(\d{2}:\d{2}:\d{2})\](.*)$`: a stamp, then characters `.` matches up to the end. */
  predicate Stamped(e: string) {
    StampAt(e, 0) && forall i :: 10 <= i < |e| ==> !IsLineTerminator(e[i])
  }

  /** `t.padEnd(n)`: `t` followed by spaces up to length `n`. */
  function PadEnd(t: string, n: nat): (r: string)
    ensures |r| == (if |t| >= n then |t| else n)
    ensures r[..|t|] == t
    ensures forall i :: |t| <= i < |r| ==> r[i] == ' '
  {
    if |t| >= n then t else t + seq(n - |t|, _ => ' ')
  }

  /** One entry as displayed: `${t.padEnd(9)}  ${msg.trim()}` when it is stamped, the entry itself otherwise. */
  function FormatEntry(e: string): string {
    if Stamped(e) then PadEnd(e[1..9], 9) + "  " + Trim(e[10..]) else e
  }

  /**
    A stamped entry is shown as its clock, three spaces and its message without surrounding
    white space; any other entry is shown as it is.
  */
  lemma FormatEntrySpec(e: string)
    ensures Stamped(e) ==> FormatEntry(e) == e[1..9] + "   " + Trim(e[10..])
    ensures !Stamped(e) ==> FormatEntry(e) == e
  {
    if Stamped(e) {
      assert PadEnd(e[1..9], 9) == e[1..9] + " ";
    }
  }

  function FormatAll(es: seq<string>): (r: seq<string>)
    ensures |r| == |es| && forall i :: 0 <= i < |es| ==> r[i] == FormatEntry(es[i])
  {
    seq(|es|, i requires 0 <= i < |es| => FormatEntry(es[i]))
  }

  /**
    `formatDeviceLog(raw)` for a string `raw`: the formatted entries joined by LF, trimmed.
    What the result means is stated by `CutSpec` (how the raw text splits into entries),
    `EntriesClean` (what each entry looks like) and `OneLinePerEntry` (one output line
    per entry, in order).
  */
  function FormatDeviceLog(raw: string): string {
    if raw == "" then "" else Trim(Join(FormatAll(Entries(raw)), "\n"))
  }

  /** A displayed line: not empty, within one line, and starting with a character trim keeps. */
  ghost predicate OutLine(f: string) {
    f != "" && '\n' !in f && !IsJsSpace(f[0])
  }

  lemma FormattedLine(e: string)
    requires CleanEntry(e)
    ensures OutLine(FormatEntry(e))
  {
    FormatEntrySpec(e);
    if Stamped(e) {
      var m := e[10..];
      TrimShape(m);
      assert '\n' !in m;
      assert '\n' !in Trim(m);
      assert '\n' !in e[1..9];
      assert FormatEntry(e)[0] == e[1];
    }
  }

  /** Trimming the end of `a + b` stops inside `b` when `b` starts with a character trim keeps. */
  lemma {:induction false} TrimEndAfter(a: string, b: string)
    requires b != "" && !IsJsSpace(b[0])
    ensures TrimEnd(a + b) == a + TrimEnd(b)
    decreases |b|
  {
    if IsJsSpace(b[|b| - 1]) {
      var b' := b[..|b| - 1];
      assert (a + b)[..|a + b| - 1] == a + b';
      TrimEndAfter(a, b');
    }
  }

  /** Joining puts the last line after the others and one more separator. */
  lemma JoinLast(f: seq<string>, last: string)
    requires |f| >= 2 && f[|f| - 1] == last
    ensures Join(f, "\n") == Join(f[..|f| - 1], "\n") + "\n" + last
  {
    assert f == f[..|f| - 1] + [last];
    JoinSnoc(f[..|f| - 1], last, "\n");
  }

  /** trimStart leaves a string alone when its first character is not white space. */
  lemma TrimStartKeeps(x: string)
    requires x != "" && !IsJsSpace(x[0])
    ensures TrimStart(x) == x
  {
  }

  /** Joined lines start with the first line's first character. */
  lemma JoinFirstChar(f: seq<string>)
    requires |f| >= 1 && f[0] != ""
    ensures Join(f, "\n") != "" && Join(f, "\n")[0] == f[0][0]
  {
    if |f| > 1 {
      assert Join(f, "\n") == f[0] + "\n" + Join(f[1..], "\n");
    }
  }

  /** Trimming the end of joined lines only reaches into the last line, which starts with a kept character. */
  lemma TrimEndJoined(f: seq<string>)
    requires |f| >= 2 && f[|f| - 1] != "" && !IsJsSpace(f[|f| - 1][0])
    ensures TrimEnd(Join(f, "\n")) == Join(f[..|f| - 1] + [TrimEnd(f[|f| - 1])], "\n")
  {
    var n := |f|;
    var last := f[n - 1];
    var g := f[..n - 1] + [TrimEnd(last)];
    JoinLast(f, last);
    JoinLast(g, TrimEnd(last));
    assert g[..n - 1] == f[..n - 1];
    TrimEndAfter(Join(f[..n - 1], "\n") + "\n", last);
  }

  /** trimEnd leaves a string alone when its last character is not white space. */
  lemma TrimEndKeeps(x: string)
    requires x != "" && !IsJsSpace(x[|x| - 1])
    ensures TrimEnd(x) == x
  {
  }

  /** Lines whose first character trim keeps only lose the trailing white space of the last line. */
  lemma TrimJoined(f: seq<string>)
    requires |f| >= 1 && forall i :: 0 <= i < |f| ==> OutLine(f[i])
    ensures Trim(Join(f, "\n")) == Join(f[..|f| - 1] + [TrimEnd(f[|f| - 1])], "\n")
  {
    JoinFirstChar(f);
    TrimStartKeeps(Join(f, "\n"));
    if |f| == 1 {
      assert Join(f, "\n") == f[0];
      assert f[..|f| - 1] + [TrimEnd(f[|f| - 1])] == [TrimEnd(f[0])];
    } else {
      assert OutLine(f[|f| - 1]);
      TrimEndJoined(f);
    }
  }

  /**
    The displayed text has one line per entry, in order: line `i` is entry `i` formatted,
    and only the last line loses its trailing white space to the final trim.
  */
  lemma OneLinePerEntry(raw: string)
    ensures var f := FormatAll(Entries(raw));
      && (f == [] ==> FormatDeviceLog(raw) == "")
      && (raw != "" && f != [] ==>
            SplitOn(FormatDeviceLog(raw), '\n') == f[..|f| - 1] + [TrimEnd(f[|f| - 1])])
  {
    var f := FormatAll(Entries(raw));
    if raw != "" && f != [] {
      forall i | 0 <= i < |f| ensures OutLine(f[i]) {
        EntriesClean(raw);
        FormattedLine(Entries(raw)[i]);
      }
      var g := f[..|f| - 1] + [TrimEnd(f[|f| - 1])];
      TrimJoined(f);
      assert forall i :: 0 <= i < |g| ==> '\n' !in g[i] by {
        TrimEndSpec(f[|f| - 1]);
      }
      SplitJoin(g, '\n');
    }
  }

  /** `t` is a clock `hh:mm:ss`. */
  predicate IsClock(t: string) {
    && |t| == 8 && IsDigit(t[0]) && IsDigit(t[1]) && t[2] == ':'
    && IsDigit(t[3]) && IsDigit(t[4]) && t[5] == ':' && IsDigit(t[6]) && IsDigit(t[7])
  }

  /** A message that is already trimmed, stays on one line and holds no '['. */
  predicate PlainMessage(m: string) {
    && m != "" && !IsJsSpace(m[0]) && !IsJsSpace(m[|m| - 1]) && '[' !in m
    && forall i :: 0 <= i < |m| ==> !IsLineTerminator(m[i])
  }

  /** The parts of an entry `[t]m`. */
  lemma EntryParts(t: string, m: string)
    requires |t| == 8
    ensures var e := "[" + t + "]" + m;
      && |e| == 10 + |m| && e[0] == '[' && e[9] == ']' && e[1..9] == t && e[10..] == m
      && (forall k :: 1 <= k < 9 ==> e[k] == t[k - 1])
      && (forall k :: 10 <= k < |e| ==> e[k] == m[k - 10])
  {
  }

  /** An entry `[t]m` with a plain message matches the entry pattern. */
  lemma StampedEntryMatches(t: string, m: string)
    requires IsClock(t) && PlainMessage(m)
    ensures Stamped("[" + t + "]" + m)
  {
    EntryParts(t, m);
  }

  /** An entry `[t]m` with a plain message shows as `t`, three spaces, `m`. */
  lemma StampedEntryFormat(t: string, m: string)
    requires IsClock(t) && PlainMessage(m)
    ensures FormatEntry("[" + t + "]" + m) == t + "   " + m
  {
    var e := "[" + t + "]" + m;
    EntryParts(t, m);
    StampedEntryMatches(t, m);
    FormatEntrySpec(e);
    TrimStartKeeps(m);
    TrimEndKeeps(m);
  }

  /** An entry `[t]m` with a plain message has no white space at either end. */
  lemma StampedEntryTrimmed(t: string, m: string)
    requires IsClock(t) && PlainMessage(m)
    ensures Trim("[" + t + "]" + m) == "[" + t + "]" + m
  {
    var e := "[" + t + "]" + m;
    assert e[0] == '[' && e[|e| - 1] == m[|m| - 1];
    TrimStartKeeps(e);
    TrimEndKeeps(e);
  }

  /** An entry `[t]m` with a plain message is on one line and holds a single '['. */
  lemma StampedEntryPlain(t: string, m: string)
    requires IsClock(t) && PlainMessage(m)
    ensures var e := "[" + t + "]" + m;
      && '\n' !in e && '\r' !in e
      && (forall k :: 0 < k < |e| ==> e[k] != '[')
  {
    var e := "[" + t + "]" + m;
    EntryParts(t, m);
    assert forall k :: 10 <= k < |e| ==> !IsLineTerminator(e[k]);
  }

  /** A line made of two pieces that each hold a single '[', the second at a stamp, is cut between them. */
  lemma CutPair(a: string, b: string)
    requires a != "" && StampAt(b, 0)
    requires forall k :: 0 < k < |a| ==> a[k] != '['
    requires forall k :: 0 < k < |b| ==> b[k] != '['
    ensures Cut(a + b) == [a, b]
  {
    var s := a + b;
    assert forall k :: 0 <= k < |a| ==> s[k] == a[k];
    assert forall k :: |a| <= k < |s| ==> s[k] == b[k - |a|];
    CutSkip(s, 0, 0, |a|);
    assert s[|a|..] == b && s[0..|a|] == a;
    assert StampAt(s, |a|);
    assert CutFrom(s, 0, |a|) == [a] + CutFrom(s, |a|, |a| + 1);
    CutSkip(s, |a|, |a| + 1, |s|);
    assert CutFrom(s, |a|, |s|) == [b];
  }

  /** The entries of a line holding two stamped entries are those two. */
  lemma PairEntries(t1: string, m1: string, t2: string, m2: string)
    requires IsClock(t1) && PlainMessage(m1) && IsClock(t2) && PlainMessage(m2)
    ensures Entries("[" + t1 + "]" + m1 + "[" + t2 + "]" + m2) == ["[" + t1 + "]" + m1, "[" + t2 + "]" + m2]
  {
    var a, b := "[" + t1 + "]" + m1, "[" + t2 + "]" + m2;
    var s := a + b;
    assert s == "[" + t1 + "]" + m1 + "[" + t2 + "]" + m2;
    StampedEntryPlain(t1, m1);
    StampedEntryPlain(t2, m2);
    StampedEntryTrimmed(t1, m1);
    StampedEntryTrimmed(t2, m2);
    assert StampAt(b, 0) by { StampedEntryMatches(t2, m2); }
    assert SplitOn(NormalizeNewlines(s), '\n') == [s] by {
      assert '\r' !in s && '\n' !in s;
      SplitFree(s, '\n');
    }
    assert EntriesOfLines([s]) == LineEntries(s) + EntriesOfLines([]);
    CutPair(a, b);
    assert TrimAll([a, b]) == [a, b];
    NonEmptyKeepsAll([a, b]);
  }

  /** The text shown for a line holding two stamped entries, before the final trim. */
  lemma PairJoined(t1: string, m1: string, t2: string, m2: string)
    requires IsClock(t1) && PlainMessage(m1) && IsClock(t2) && PlainMessage(m2)
    ensures Join(FormatAll(["[" + t1 + "]" + m1, "[" + t2 + "]" + m2]), "\n")
      == t1 + "   " + m1 + "\n" + t2 + "   " + m2
  {
    var a, b := "[" + t1 + "]" + m1, "[" + t2 + "]" + m2;
    var x, y := t1 + "   " + m1, t2 + "   " + m2;
    StampedEntryFormat(t1, m1);
    StampedEntryFormat(t2, m2);
    assert FormatAll([a, b]) == [x, y];
    assert Join([x, y], "\n") == x + "\n" + y;
  }

  /** Two stamped entries written on one line are shown on two lines. */
  lemma StampedPair(t1: string, m1: string, t2: string, m2: string)
    requires IsClock(t1) && PlainMessage(m1) && IsClock(t2) && PlainMessage(m2)
    ensures FormatDeviceLog("[" + t1 + "]" + m1 + "[" + t2 + "]" + m2)
      == t1 + "   " + m1 + "\n" + t2 + "   " + m2
  {
    var s := "[" + t1 + "]" + m1 + "[" + t2 + "]" + m2;
    var out := t1 + "   " + m1 + "\n" + t2 + "   " + m2;
    PairEntries(t1, m1, t2, m2);
    PairJoined(t1, m1, t2, m2);
    assert out[0] == t1[0] && out[|out| - 1] == m2[|m2| - 1];
    TrimStartKeeps(out);
    TrimEndKeeps(out);
    assert s != "";
  }

  /** The input of the `TwoEntriesOnOneLine` illustration, assembled from its clocks and messages. */
  lemma ExampleInput()
    ensures "[" + "10:00:01" + "]" + "boot" + "[" + "10:00:02" + "]" + "ready" == "[10:00:01]boot[10:00:02]ready"
  {
    var a, b := "[" + "10:00:01" + "]" + "boot", "[" + "10:00:02" + "]" + "ready";
    assert a == "[10:00:01]boot";
    assert b == "[10:00:02]ready";
    assert "[" + "10:00:01" + "]" + "boot" + "[" + "10:00:02" + "]" + "ready" == a + b;
  }

  /** The output of the `TwoEntriesOnOneLine` illustration, assembled from its clocks and messages. */
  lemma ExampleOutput()
    ensures "10:00:01" + "   " + "boot" + "\n" + "10:00:02" + "   " + "ready" == "10:00:01   boot\n10:00:02   ready"
  {
    var a, b := "10:00:01" + "   " + "boot", "10:00:02" + "   " + "ready";
    assert a == "10:00:01   boot";
    assert b == "10:00:02   ready";
    assert "10:00:01" + "   " + "boot" + "\n" + "10:00:02" + "   " + "ready" == a + "\n" + b;
  }

  /**
    An illustration of `StampedPair` on one input, not evidence beyond it: two stamped
    entries written on one line end up on two lines, clock first.
  */
  lemma TwoEntriesOnOneLine(raw: string)
    requires raw == "[10:00:01]boot[10:00:02]ready"
    ensures FormatDeviceLog(raw) == "10:00:01   boot\n10:00:02   ready"
  {
    assert IsClock("10:00:01") && IsClock("10:00:02");
    assert PlainMessage("boot") && PlainMessage("ready");
    StampedPair("10:00:01", "boot", "10:00:02", "ready");
    ExampleInput();
    ExampleOutput();
  }
}

=== FILE: firmware_logger.dfy ===
/**
  The device-side log buffer: lines are appended to one text buffer, which is cut from
  the front when it grows past a soft limit and sent to the bridge whenever Wi-Fi is up.
  A successful send empties it; a failed one keeps it for the next attempt.
*/
module FirmwareLogger {
  import opened Wrappers

  /** One byte of an Arduino `String`. */
  newtype byte = x: int | 0 <= x < 256

  const NL: byte := 10

  /** Above this length the buffer is trimmed. */
  const SoftLimit := 8 * 1024
  /** Above this length the buffer is cut without looking for a line boundary. */
  const HardLimit := 16 * 1024
  /** How many of the newest bytes a trim keeps at most. */
  const TrimKeep := 6 * 1024

  /** `b` ends with `suffix`. */
  predicate EndsWith(b: seq<byte>, suffix: seq<byte>) {
    |suffix| <= |b| && b[|b| - |suffix|..] == suffix
  }

  /** The byte that ends a C string. */
  const NUL: byte := 0

  /**
    Where the C string that runs from `start` ends: at the first 0 byte at or after
    `start`, or at the end of `b` (where the terminator sits).
  */
  function CStringEnd(b: seq<byte>, start: nat): (e: nat)
    requires start <= |b|
    ensures start <= e <= |b|
    ensures forall k :: start <= k < e ==> b[k] != NUL
    ensures e < |b| ==> b[e] == NUL
    decreases |b| - start
  {
    if start == |b| || b[start] == NUL then start else CStringEnd(b, start + 1)
  }

  /**
    `strchr(b + k, c)` as an index: the first position at or after `k` holding `c`,
    searching no further than the first 0 byte; a search for 0 itself finds that byte,
    or the terminator at `|b|`.
  */
  function Strchr(b: seq<byte>, c: byte, k: nat): (r: int)
    requires k <= |b|
    ensures r == -1 <==> c != NUL && forall j :: k <= j < CStringEnd(b, k) ==> b[j] != c
    ensures r != -1 ==> k <= r <= CStringEnd(b, k) && (r < |b| ==> b[r] == c) && (r == |b| ==> c == NUL)
    ensures r != -1 ==> forall j :: k <= j < r ==> b[j] != c
    decreases |b| - k
  {
    if k == |b| then (if c == NUL then |b| else -1)
    else if b[k] == c then k
    else if b[k] == NUL then -1
    else Strchr(b, c, k + 1)
  }

  /**
    `String::indexOf(c, start)`: -1 from the end of the buffer on, otherwise `strchr`
    from `start`. The buffer is NUL-terminated, so the search stops at an embedded 0
    byte; on a buffer without one from `start` on it finds the first `c` at or after
    `start`.
  */
  function IndexOfFrom(b: seq<byte>, c: byte, start: nat): (r: int)
    ensures start >= |b| ==> r == -1
    ensures c != NUL ==> r == -1 || start <= r < |b|
    ensures start < |b| ==> r == Strchr(b, c, start)
    ensures start < |b| && c != NUL && (forall k :: start <= k < |b| ==> b[k] != NUL) ==>
      && (r == -1 <==> forall k :: start <= k < |b| ==> b[k] != c)
      && (r != -1 ==> b[r] == c && forall k :: start <= k < r ==> b[k] != c)
  {
    if start >= |b| then -1 else Strchr(b, c, start)
  }

  /**
    Where `trimBufferIfNeeded` cuts buffer `b`: nowhere (0) up to the soft limit, before
    its last 6144 bytes above the hard limit, and in between right after the first
    newline at or after the last 6144 bytes begin (where they begin when there is no
    such newline).
  */
  function CutPoint(b: seq<byte>): (k: nat)
    ensures k <= |b|
    ensures |b| <= SoftLimit <==> k == 0
    ensures |b| > HardLimit ==> k == |b| - TrimKeep
    ensures |b| > SoftLimit ==> k >= |b| - TrimKeep
  {
    if |b| <= SoftLimit then 0
    else if |b| > HardLimit then |b| - TrimKeep
    else
      var start := if |b| >= TrimKeep then |b| - TrimKeep else 0;
      var nl := IndexOfFrom(b, NL, start);
      if nl >= 0 then nl + 1 else start
  }

  /** What `trimBufferIfNeeded` leaves of buffer `b`: a suffix of it within the soft limit. */
  function Trimmed(b: seq<byte>): (r: seq<byte>)
    ensures EndsWith(b, r)
    ensures |b| <= SoftLimit ==> r == b
    ensures |b| > HardLimit ==> r == b[|b| - TrimKeep..]
    ensures |r| <= SoftLimit
    ensures |b| > SoftLimit ==> |r| <= TrimKeep
  {
    b[CutPoint(b)..]
  }

  /**
    Between the two limits the cut falls on a line boundary: the kept text starts right
    after the first newline in the last 6144 bytes, or, when none lies before the first
    0 byte there (on a buffer without 0 bytes: when they hold none), where they start.
  */
  lemma SoftCutAtLineStart(b: seq<byte>)
    requires SoftLimit < |b| <= HardLimit
    ensures var r := Trimmed(b); var k := |b| - |r|; var start := |b| - TrimKeep;
      && start <= k
      && (forall j :: start <= j < k - 1 ==> b[j] != NL && b[j] != NUL)
      && (k > start ==> b[k - 1] == NL)
      && (k == start ==> forall j :: start <= j < CStringEnd(b, start) ==> b[j] != NL)
      && (k == start && (forall j :: start <= j < |b| ==> b[j] != NUL) ==>
            forall j :: start <= j < |b| ==> b[j] != NL)
  {
    assert |Trimmed(b)| == |b| - CutPoint(b);
  }

  /**
    A 0 byte right where the last 6144 bytes start hides every newline after it from
    `indexOf`: between the limits the trim keeps exactly those 6144 bytes.
  */
  lemma NulStopsLineSearch(b: seq<byte>)
    requires SoftLimit < |b| <= HardLimit && b[|b| - TrimKeep] == NUL
    ensures Trimmed(b) == b[|b| - TrimKeep..]
  {
    assert CStringEnd(b, |b| - TrimKeep) == |b| - TrimKeep;
  }

  /** Trimming twice trims no more than trimming once. */
  lemma TrimmedIdempotent(b: seq<byte>)
    ensures Trimmed(Trimmed(b)) == Trimmed(b)
  {
  }

  /** `line`, followed by a newline unless it already ends with one. */
  function Terminated(line: seq<byte>): (t: seq<byte>)
    ensures |t| > 0 && t[|t| - 1] == NL
    ensures t == line || t == line + [NL]
    ensures EndsWith(line, [NL]) <==> t == line
  {
    if |line| > 0 && line[|line| - 1] == NL then line else line + [NL]
  }

  /**
    A buffer is well formed when it is within the soft limit and is empty or ends with a
    newline: it holds whole lines at its end.
  */
  predicate WellFormed(b: seq<byte>) {
    |b| <= SoftLimit && (b == [] || b[|b| - 1] == NL)
  }

  /** Appending a line to a well-formed buffer and trimming gives a well-formed buffer. */
  lemma AppendTrimWellFormed(b: seq<byte>, line: seq<byte>)
    ensures WellFormed(Trimmed(b + Terminated(line)))
  {
    var a := b + Terminated(line);
    var r := Trimmed(a);
    if r != [] {
      assert r[|r| - 1] == a[|a| - 1];
    }
  }

  /**
    A line shorter than the bytes a trim keeps survives the trim that follows its
    append, whole, at the end of the buffer.
  */
  lemma NewestLineKept(b: seq<byte>, line: seq<byte>)
    requires WellFormed(b)
    requires |Terminated(line)| < TrimKeep
    ensures EndsWith(Trimmed(b + Terminated(line)), Terminated(line))
  {
    var t := Terminated(line);
    var a := b + t;
    var r := Trimmed(a);
    if |a| > SoftLimit {
      var start := |a| - TrimKeep;
      assert b != [] && start < |b|;
      assert a[|b| - 1] == NL;
      var nl := IndexOfFrom(a, NL, start);
      assert CutPoint(a) <= |b|;
      assert r[|r| - |t|..] == a[|b|..] == t;
    }
  }

  /**
    A line of 6143 bytes without a newline, logged on a buffer of more than 2048 bytes,
    empties the buffer, the new line with it, when the line holds no 0 byte: the only
    newline in the last 6144 bytes is the one that ends the line. A 0 byte in the line
    hides that newline, and the line is kept with it.
  */
  lemma LongLineEmptiesBuffer(b: seq<byte>, line: seq<byte>)
    requires WellFormed(b) && |b| > SoftLimit - TrimKeep
    requires |line| == TrimKeep - 1 && forall j :: 0 <= j < |line| ==> line[j] != NL
    ensures var r := Trimmed(b + Terminated(line));
      && (r == [] <==> forall j :: 0 <= j < |line| ==> line[j] != NUL)
      && (r != [] ==> r == line + [NL])
  {
    var a := b + Terminated(line);
    assert Terminated(line) == line + [NL];
    assert a[|a| - 1] == NL;
    assert forall j :: |b| <= j < |a| - 1 ==> a[j] == line[j - |b|];
    var nl := IndexOfFrom(a, NL, |b|);
    if forall j :: 0 <= j < |line| ==> line[j] != NUL {
      assert CStringEnd(a, |b|) == |a|;
      assert nl == |a| - 1;
      assert CutPoint(a) == |a|;
    } else {
      var z :| 0 <= z < |line| && line[z] == NUL;
      assert a[|b| + z] == NUL;
      assert CStringEnd(a, |b|) <= |b| + z;
      assert nl == -1;
      assert CutPoint(a) == |b|;
      assert a[|b|..] == line + [NL];
    }
  }

  /**
    `wifiReady() && deviceId && *deviceId`: what a flush needs before it sends anything;
    `None` stands for a null device id.
  */
  predicate CanSend(wifiReady: bool, deviceId: Option<string>) {
    wifiReady && deviceId.Some? && deviceId.value != ""
  }

  /** An HTTP status in the 2xx range. */
  predicate IsOk(code: int) {
    200 <= code < 300
  }

  /** `g_logBuffer` and the operations on it. */
  class LogBuffer {
    var text: seq<byte>

    constructor ()
      ensures text == []
    {
      text := [];
    }

    predicate Valid()
      reads this
    {
      WellFormed(text)
    }

    /** `trimBufferIfNeeded()`. */
    method TrimIfNeeded()
      modifies this
      ensures text == Trimmed(old(text))
    {
      if |text| <= SoftLimit {
        return;
      }
      if |text| > HardLimit {
        text := text[|text| - TrimKeep..];
        return;
      }
      var start := |text| - TrimKeep;
      if start < 0 {
        start := 0;
      }
      var nl := IndexOfFrom(text, NL, start);
      text := if nl >= 0 then text[nl + 1..] else text[start..];
    }

    /**
      `flushLogBuffer(deviceId)`: with Wi-Fi up and a device id, send the whole buffer
      (`code` is the status the POST returns) and empty it on a 2xx answer; on any
      other answer keep it, trimmed. `sent` is the payload, when one was posted.
    */
    method Flush(wifiReady: bool, deviceId: Option<string>, code: int) returns (ok: bool, sent: Option<seq<byte>>)
      modifies this
      ensures !CanSend(wifiReady, deviceId) ==> !ok && sent == None && text == old(text)
      ensures CanSend(wifiReady, deviceId) && old(text) == [] ==> ok && sent == None && text == []
      ensures CanSend(wifiReady, deviceId) && old(text) != [] ==>
        && sent == Some(old(text))
        && (ok <==> IsOk(code))
        && text == (if ok then [] else Trimmed(old(text)))
      ensures old(Valid()) ==> Valid()
    {
      if !wifiReady || deviceId.None? || deviceId.value == "" {
        return false, None;
      }
      if text == [] {
        return true, None;
      }
      sent := Some(text);
      if 200 <= code < 300 {
        text := [];
        return true, sent;
      }
      TrimIfNeeded();
      ok := false;
    }

    /**
      `logLine(line)`: append the line and its newline, trim, and, with Wi-Fi up, flush
      for the device. Whatever the buffer held before, it is well formed afterwards.
    */
    method LogLine(line: seq<byte>, wifiReady: bool, deviceId: Option<string>, code: int)
      returns (sent: Option<seq<byte>>)
      modifies this
      ensures Valid()
      ensures var queued := Trimmed(old(text) + Terminated(line));
        && sent == (if CanSend(wifiReady, deviceId) && queued != [] then Some(queued) else None)
        && text == (if CanSend(wifiReady, deviceId) && queued != [] && IsOk(code) then [] else queued)
    {
      text := text + line;
      if !(|line| > 0 && line[|line| - 1] == NL) {
        text := text + [NL];
      }
      assert text == old(text) + Terminated(line);
      TrimIfNeeded();
      AppendTrimWellFormed(old(text), line);
      sent := None;
      if wifiReady {
        var flushed;
        flushed, sent := Flush(wifiReady, deviceId, code);
      }
    }
  }
}

=== FILE: index_server.dfy ===
/**
  The stand-alone bridge server: it answers `/set`, `/log` and `/clearlog` for the
  devices of its configuration by publishing to, or reading from, Arduino IoT Cloud
  properties, with an OAuth token cache of its own.
*/
module Bridge {
  import opened Wrappers
  import opened Strings
  import opened Config
  import opened Cloud
  import opened DeviceLog

  // ------------------------------------------------------------- headers

  /**
    `makeHeaders(token)`: a bearer token and a JSON body; `X-Organization` is sent whenever
    `ARDUINO_ORG` is set, with its value trimmed.
  */
  function MakeHeaders(token: string, org: string): (h: Headers)
    ensures h.authorization == "Bearer " + token && h.contentType == "application/json"
    ensures h.organization.Some? <==> org != ""
    ensures h.organization.Some? ==> h.organization.value == Trim(org)
  {
    Headers("Bearer " + token, "application/json", if org != "" then Some(Trim(org)) else None)
  }

  /** An `ARDUINO_ORG` made only of white space still sends an X-Organization header, an empty one. */
  lemma BlankOrganizationSent(token: string, org: string)
    requires org != "" && AllSpace(org)
    ensures MakeHeaders(token, org).organization == Some("")
  {
    TrimShape(org);
  }

  // ----------------------------------------------------- property snapshot

  /**
    A JSON value as `JSON.parse` returns it. Numbers, booleans and arrays are `JOther`,
    with their truthiness and the text `String(v)` gives them.
  */
  datatype Json = JNull | JStr(s: string) | JObj(fields: map<string, Json>) | JOther(truthy: bool, text: string)

  /** `data?.[k]` is neither null nor undefined. */
  predicate Present(fields: map<string, Json>, k: string) {
    k in fields && fields[k] != JNull
  }

  /** `data?.[k0] ?? data?.[k1] ?? ...`, with null standing for "none of them". */
  function FirstPresent(fields: map<string, Json>, keys: seq<string>): Json
    decreases |keys|
  {
    if keys == [] then JNull
    else if Present(fields, keys[0]) then fields[keys[0]]
    else FirstPresent(fields, keys[1..])
  }

  /** The chain of `??` yields the value of the first key present, and null only when none is. */
  lemma {:induction false} FirstPresentSpec(fields: map<string, Json>, keys: seq<string>)
    ensures var r := FirstPresent(fields, keys);
      && (r == JNull <==> forall i :: 0 <= i < |keys| ==> !Present(fields, keys[i]))
      && (r != JNull ==>
            exists i :: 0 <= i < |keys| && Present(fields, keys[i]) && r == fields[keys[i]]
                        && forall j :: 0 <= j < i ==> !Present(fields, keys[j]))
    decreases |keys|
  {
    if keys != [] && !Present(fields, keys[0]) {
      var rest := keys[1..];
      FirstPresentSpec(fields, rest);
      assert forall i :: 0 < i < |keys| ==> keys[i] == rest[i - 1];
      var r := FirstPresent(fields, keys);
      if r != JNull {
        var i :| 0 <= i < |rest| && Present(fields, rest[i]) && r == fields[rest[i]]
                 && forall j :: 0 <= j < i ==> !Present(fields, rest[j]);
        assert keys[i + 1] == rest[i];
        assert forall j :: 0 < j < i + 1 ==> keys[j] == rest[j - 1];
      }
    }
  }

  /** `{ value, updatedAt }` as `readProperty` returns it. */
  datatype Snapshot = Snapshot(value: Json, updatedAt: Json)

  const ValueKeys: seq<string> := ["last_value", "value", "lastValue", "current_value"]
  const UpdatedKeys: seq<string> := ["value_updated_at", "updated_at", "last_update"]

  /**
    What `readProperty` makes of a 2xx reply whose text is `bodyText`; `parsed` is
    `JSON.parse(bodyText)`, `None` when that throws.
  */
  function SnapshotOf(bodyText: string, parsed: Option<Json>): (r: Snapshot)
    ensures parsed.None? ==> r == Snapshot(JStr(bodyText), JNull)
    ensures parsed.Some? && !parsed.value.JObj? ==> r == Snapshot(JStr(""), JNull)
  {
    match parsed
    case None => Snapshot(JStr(bodyText), JNull)
    case Some(data) =>
      var fields := if data.JObj? then data.fields else map[];
      var value := FirstPresent(fields, ValueKeys);
      Snapshot(if value == JNull then JStr("") else value, FirstPresent(fields, UpdatedKeys))
  }

  /**
    For a JSON object, the value is the first of last_value, value, lastValue and
    current_value that is present ("" when none is), and the update time the first of
    value_updated_at, updated_at and last_update (null when none is).
  */
  lemma SnapshotSelection(bodyText: string, fields: map<string, Json>)
    ensures var r := SnapshotOf(bodyText, Some(JObj(fields)));
      && (r.value == JStr("") <==>
            || (forall i :: 0 <= i < |ValueKeys| ==> !Present(fields, ValueKeys[i]))
            || FirstPresent(fields, ValueKeys) == JStr(""))
      && (r.value != JStr("") ==>
            exists i :: 0 <= i < |ValueKeys| && Present(fields, ValueKeys[i]) && r.value == fields[ValueKeys[i]]
                        && forall j :: 0 <= j < i ==> !Present(fields, ValueKeys[j]))
      && (r.updatedAt == JNull <==> forall i :: 0 <= i < |UpdatedKeys| ==> !Present(fields, UpdatedKeys[i]))
      && (r.updatedAt != JNull ==>
            exists i :: 0 <= i < |UpdatedKeys| && Present(fields, UpdatedKeys[i]) && r.updatedAt == fields[UpdatedKeys[i]]
                        && forall j :: 0 <= j < i ==> !Present(fields, UpdatedKeys[j]))
  {
    FirstPresentSpec(fields, ValueKeys);
    FirstPresentSpec(fields, UpdatedKeys);
  }

  /** `readProperty` after the request: a refused read throws `Read failed: <status> <text>`. */
  function ReadResult(reply: HttpReply, parsed: Option<Json>): (r: Result<Snapshot, string>)
    ensures r.Failure? <==> !IsOk(reply.status)
    ensures r.Failure? ==> r.error == HttpError("Read", reply)
  {
    if !IsOk(reply.status) then Failure(HttpError("Read", reply)) else Success(SnapshotOf(reply.body, parsed))
  }

  // ------------------------------------------------------------ display

  /** JavaScript truthiness of a JSON value. */
  predicate Truthy(v: Json) {
    match v
    case JNull => false
    case JStr(s) => s != ""
    case JObj(_) => true
    case JOther(t, _) => t
  }

  /** `${v}` for a value that is not null. */
  function Text(v: Json): string {
    match v
    case JNull => "null"
    case JStr(s) => s
    case JObj(_) => "[object Object]"
    case JOther(_, t) => t
  }

  /** The TypeError message `raw.replace(...)` raises when `raw` is not a string. */
  const NotAString := "raw.replace is not a function"

  /**
    `formatDeviceLog(value)` for any JSON value: "" for a falsy value, the formatted log
    for a string, and a TypeError for any other truthy value.
  */
  function Pretty(v: Json): (r: Result<string, string>)
    ensures r.Failure? <==> Truthy(v) && !v.JStr?
    ensures r.Failure? ==> r.error == NotAString
    ensures v.JStr? ==> r == Success(FormatDeviceLog(v.s))
    ensures !Truthy(v) ==> r == Success("")
  {
    if !Truthy(v) then Success("")
    else if v.JStr? then Success(FormatDeviceLog(v.s))
    else Failure(NotAString)
  }

  /** `updatedAt ? "\n\n(updated " + updatedAt + ")" : ""`. */
  function UpdatedSuffix(u: Json): string {
    if Truthy(u) then "\n\n(updated " + Text(u) + ")" else ""
  }

  /** The `/log` reply once the property has been read (or the read has failed). */
  function LogReply(read: Result<Snapshot, string>): (reply: Reply)
    ensures reply.status == 200 <==> read.Success? && Pretty(read.value.value).Success?
    ensures read.Failure? ==> reply == Reply(500, read.error)
    ensures read.Success? && Pretty(read.value.value).Failure? ==> reply == Reply(500, NotAString)
    ensures reply.status == 200 ==>
              reply.text == Pretty(read.value.value).value + UpdatedSuffix(read.value.updatedAt)
  {
    match read
    case Failure(e) => Reply(500, e)
    case Success(snap) =>
      match Pretty(snap.value)
      case Failure(e) => Reply(500, e)
      case Success(pretty) => Reply(200, pretty + UpdatedSuffix(snap.updatedAt))
  }

  /** A log read with a time stamp shows the formatted log, a blank line, and the time. */
  lemma LogShowsUpdateTime(log: string, at: string)
    requires at != ""
    ensures LogReply(Success(Snapshot(JStr(log), JStr(at))))
         == Reply(200, FormatDeviceLog(log) + "\n\n(updated " + at + ")")
  {
    var pretty := Pretty(JStr(log));
    assert pretty == Success(FormatDeviceLog(log));
    assert UpdatedSuffix(JStr(at)) == "\n\n(updated " + at + ")";
  }

  // -------------------------------------------------------------- routes

  /** `AUTH_TOKEN && req.query.token !== AUTH_TOKEN`: only the `token` query parameter counts. */
  predicate Refused(authToken: string, queryToken: string) {
    authToken != "" && queryToken != authToken
  }

  /** The property a direction drives. */
  function PropertyFor(cfg: DeviceConfig, dir: string): string {
    if dir == "up" then cfg.upPropertyId else cfg.downPropertyId
  }

  /**
    `/set/:device/:direction`: refuse a wrong token (401), then a direction other than
    up or down (400), then an unknown device (404), then a device without a property for
    the direction (400); otherwise publish `true` to that property. Device and direction
    are lowercased first.
  */
  function SetPlan(authToken: string, queryToken: string, devices: map<string, DeviceConfig>,
                   rawDevice: string, rawDir: string): (p: Plan)
    ensures p == Refuse(401, "Unauthorized") <==> Refused(authToken, queryToken)
    ensures (!Refused(authToken, queryToken) && Lower(rawDir) != "up" && Lower(rawDir) != "down")
              ==> p == Refuse(400, "Direction must be 'up' or 'down'")
    ensures p == Refuse(404, "Unknown device") <==>
              && !Refused(authToken, queryToken) && Lower(rawDir) in {"up", "down"}
              && !RoomKnownAsWritten(devices, Lower(rawDevice))
    ensures (&& !Refused(authToken, queryToken) && Lower(rawDir) in {"up", "down"}
             && RoomKnownAsWritten(devices, Lower(rawDevice))
             && PropertyFor(LookupAsWritten(devices, Lower(rawDevice)).value, Lower(rawDir)) == "")
              ==> p == Refuse(400, "Missing property id for " + Lower(rawDevice) + "/" + Lower(rawDir))
    ensures p.Perform? <==>
              && !Refused(authToken, queryToken) && Lower(rawDir) in {"up", "down"}
              && Lower(rawDevice) in devices && PropertyFor(devices[Lower(rawDevice)], Lower(rawDir)) != ""
    ensures p.Perform? ==>
              var cfg := devices[Lower(rawDevice)];
              p.call == Publish(cfg.thingId, PropertyFor(cfg, Lower(rawDir)), cfg.deviceId, PTrue)
  {
    if Refused(authToken, queryToken) then Refuse(401, "Unauthorized")
    else
      var device, dir := Lower(rawDevice), Lower(rawDir);
      if dir != "up" && dir != "down" then Refuse(400, "Direction must be 'up' or 'down'")
      else match LookupAsWritten(devices, device)
        case None => Refuse(404, "Unknown device")
        case Some(cfg) =>
          var pid := PropertyFor(cfg, dir);
          if pid == "" then Refuse(400, "Missing property id for " + device + "/" + dir)
          else Perform(Publish(cfg.thingId, pid, cfg.deviceId, PTrue))
  }

  /** `/set` does not care how the device and the direction are capitalised. */
  lemma SetIgnoresCase(authToken: string, queryToken: string, devices: map<string, DeviceConfig>,
                       rawDevice: string, rawDir: string)
    ensures SetPlan(authToken, queryToken, devices, Lower(rawDevice), Lower(rawDir))
         == SetPlan(authToken, queryToken, devices, rawDevice, rawDir)
  {
    LowerIdempotent(rawDevice);
    LowerIdempotent(rawDir);
  }

  /**
    The lower-case name of a member every object inherits (such as `constructor`) passes
    the device lookup: `/set` then answers 400 for the missing property instead of 404,
    and publishes nothing.
  */
  lemma InheritedDeviceAnswered400(authToken: string, devices: map<string, DeviceConfig>, device: string, dir: string)
    requires device in InheritedKeys && device !in devices
    requires forall i :: 0 <= i < |device| ==> LowerFixed(device[i])
    requires dir in {"up", "down"}
    ensures SetPlan(authToken, authToken, devices, device, dir)
         == Refuse(400, "Missing property id for " + device + "/" + dir)
  {
    assert Lower(device) == device by { LowerIdentity(device); }
    assert Lower(dir) == dir by { LowerDirections(); }
    assert !Refused(authToken, authToken);
    assert LookupAsWritten(devices, device) == Some(NoAttributes);
  }

  /** The property the log routes use: `debugLogPropertyId || logPropertyId`. */
  function LogPid(cfg: DeviceConfig): string {
    if cfg.debugLogPropertyId != "" then cfg.debugLogPropertyId else cfg.logPropertyId
  }

  /**
    The checks `/log/:device` and `/clearlog/:device` share: a wrong token (401), an
    unknown device (404), a device with no log property (400); otherwise the device entry.
  */
  function LogTarget(authToken: string, queryToken: string, devices: map<string, DeviceConfig>,
                     rawDevice: string): (r: Result<DeviceConfig, Reply>)
    ensures r == Failure(Reply(401, "Unauthorized")) <==> Refused(authToken, queryToken)
    ensures r == Failure(Reply(404, "Unknown device")) <==>
              !Refused(authToken, queryToken) && !RoomKnownAsWritten(devices, Lower(rawDevice))
    ensures r.Success? <==>
              && !Refused(authToken, queryToken) && Lower(rawDevice) in devices
              && LogPid(devices[Lower(rawDevice)]) != ""
    ensures r.Success? ==> r.value == devices[Lower(rawDevice)]
    ensures r.Failure? ==> r.error.status in {400, 401, 404}
  {
    if Refused(authToken, queryToken) then Failure(Reply(401, "Unauthorized"))
    else match LookupAsWritten(devices, Lower(rawDevice))
      case None => Failure(Reply(404, "Unknown device"))
      case Some(cfg) =>
        if LogPid(cfg) == "" then Failure(Reply(400, "Device has no debugLogPropertyId/logPropertyId configured"))
        else Success(cfg)
  }

  // ----------------------------------------------------------- the server

  /** The server: its configuration, fixed at start-up, and its token cache. */
  class Server {
    const authToken: string
    const org: string
    const devices: map<string, DeviceConfig>
    var tokenCache: TokenState

    constructor (authToken: string, org: string, devices: map<string, DeviceConfig>)
      ensures this.authToken == authToken && this.org == org && this.devices == devices
      ensures tokenCache == NoToken
    {
      this.authToken := authToken;
      this.org := org;
      this.devices := devices;
      tokenCache := NoToken;
    }

    /**
      `getToken`: the clock is read before the token request, so a new token's expiry
      counts from `now`; `reply` is the token endpoint's answer, used only on a miss.
    */
    method GetToken(now: int, reply: TokenReply) returns (r: Result<string, string>)
      modifies this
      ensures (r, tokenCache) == NextToken(old(tokenCache), now, now, reply)
    {
      if tokenCache.token != "" && now < tokenCache.exp - ExpiryMargin {
        return Success(tokenCache.token);
      }
      match reply {
        case TokenRejected(body) =>
          r := Failure("Auth failed: " + body);
        case TokenUnparsable(e) =>
          r := Failure(e);
        case TokenOk(token, expiresIn) =>
          tokenCache := TokenState(token, now + expiresIn * 1000);
          r := Success(token);
      }
    }

    /**
      `publishValue` for a publish `call`: get a token, send the call with the headers
      built from it, and turn the reply into a result text or an error.
    */
    method PublishValue(call: CloudCall, now: int, tokenReply: TokenReply, putReply: HttpReply)
      returns (r: Result<string, string>, sent: Option<Sent>)
      modifies this
      ensures var t := NextToken(old(tokenCache), now, now, tokenReply);
        && tokenCache == t.1
        && (t.0.Failure? ==> r == Failure(t.0.error) && sent == None)
        && (t.0.Success? ==> r == PublishResult(putReply) && sent == Some(Sent(call, MakeHeaders(t.0.value, org))))
    {
      var token := GetToken(now, tokenReply);
      if token.Failure? {
        return Failure(token.error), None;
      }
      sent := Some(Sent(call, MakeHeaders(token.value, org)));
      r := PublishResult(putReply);
    }

    /** `readProperty`: get a token, read the property, and pick its value and update time. */
    method ReadProperty(thingId: string, propertyId: string, now: int, tokenReply: TokenReply,
                        getReply: HttpReply, parsed: Option<Json>)
      returns (r: Result<Snapshot, string>, sent: Option<Sent>)
      modifies this
      ensures var t := NextToken(old(tokenCache), now, now, tokenReply);
        && tokenCache == t.1
        && (t.0.Failure? ==> r == Failure(t.0.error) && sent == None)
        && (t.0.Success? ==> r == ReadResult(getReply, parsed)
                             && sent == Some(Sent(ReadProp(thingId, propertyId), MakeHeaders(t.0.value, org))))
    {
      var token := GetToken(now, tokenReply);
      if token.Failure? {
        return Failure(token.error), None;
      }
      sent := Some(Sent(ReadProp(thingId, propertyId), MakeHeaders(token.value, org)));
      r := ReadResult(getReply, parsed);
    }

    /** `GET /set/:device/:direction`. */
    method ServeSet(queryToken: string, rawDevice: string, rawDir: string,
                    now: int, tokenReply: TokenReply, putReply: HttpReply)
      returns (reply: Reply, sent: Option<Sent>)
      modifies this
      ensures var plan := SetPlan(authToken, queryToken, devices, rawDevice, rawDir);
        var t := NextToken(old(tokenCache), now, now, tokenReply);
        if plan.Refuse? then
          reply == Reply(plan.status, plan.text) && sent == None && tokenCache == old(tokenCache)
        else
          && tokenCache == t.1
          && sent == (if t.0.Success? then Some(Sent(plan.call, MakeHeaders(t.0.value, org))) else None)
          && reply == (if t.0.Failure? then Reply(500, t.0.error)
                       else if IsOk(putReply.status) then Reply(200, "Triggered " + Lower(rawDevice) + " " + Lower(rawDir))
                       else Reply(500, HttpError("Publish", putReply)))
    {
      var plan := SetPlan(authToken, queryToken, devices, rawDevice, rawDir);
      if plan.Refuse? {
        return Reply(plan.status, plan.text), None;
      }
      var r;
      r, sent := PublishValue(plan.call, now, tokenReply, putReply);
      match r {
        case Failure(e) => reply := Reply(500, e);
        case Success(_) => reply := Reply(200, "Triggered " + Lower(rawDevice) + " " + Lower(rawDir));
      }
    }

    /** `GET /log/:device`. */
    method ServeLog(queryToken: string, rawDevice: string, now: int, tokenReply: TokenReply,
                    getReply: HttpReply, parsed: Option<Json>)
      returns (reply: Reply, sent: Option<Sent>)
      modifies this
      ensures var target := LogTarget(authToken, queryToken, devices, rawDevice);
        var t := NextToken(old(tokenCache), now, now, tokenReply);
        if target.Failure? then
          reply == target.error && sent == None && tokenCache == old(tokenCache)
        else
          && tokenCache == t.1
          && sent == (if t.0.Success?
                      then Some(Sent(ReadProp(target.value.thingId, LogPid(target.value)), MakeHeaders(t.0.value, org)))
                      else None)
          && reply == LogReply(if t.0.Failure? then Failure(t.0.error) else ReadResult(getReply, parsed))
    {
      var target := LogTarget(authToken, queryToken, devices, rawDevice);
      if target.Failure? {
        return target.error, None;
      }
      var cfg := target.value;
      var read;
      read, sent := ReadProperty(cfg.thingId, LogPid(cfg), now, tokenReply, getReply, parsed);
      reply := LogReply(read);
    }

    /** `GET /clearlog/:device`: publish the empty string to the log property. */
    method ServeClearLog(queryToken: string, rawDevice: string, now: int, tokenReply: TokenReply,
                         putReply: HttpReply)
      returns (reply: Reply, sent: Option<Sent>)
      modifies this
      ensures var target := LogTarget(authToken, queryToken, devices, rawDevice);
        var t := NextToken(old(tokenCache), now, now, tokenReply);
        if target.Failure? then
          reply == target.error && sent == None && tokenCache == old(tokenCache)
        else
          var cfg := target.value;
          && tokenCache == t.1
          && sent == (if t.0.Success?
                      then Some(Sent(Publish(cfg.thingId, LogPid(cfg), cfg.deviceId, PText("")), MakeHeaders(t.0.value, org)))
                      else None)
          && reply == (if t.0.Failure? then Reply(500, t.0.error)
                       else if IsOk(putReply.status) then Reply(200, "Cleared debug log for " + Lower(rawDevice))
                       else Reply(500, HttpError("Publish", putReply)))
    {
      var target := LogTarget(authToken, queryToken, devices, rawDevice);
      if target.Failure? {
        return target.error, None;
      }
      var cfg := target.value;
      var r;
      r, sent := PublishValue(Publish(cfg.thingId, LogPid(cfg), cfg.deviceId, PText("")), now, tokenReply, putReply);
      match r {
        case Failure(e) => reply := Reply(500, e);
        case Success(_) => reply := Reply(200, "Cleared debug log for " + Lower(rawDevice));
      }
    }
  }
}

=== FILE: log_store.dfy ===
/**
  The per-device local log store. The log directory is a map from file name to
  the file's text and modification time; a device's file is `safeName(name) + ".log"`.
  Timestamps, the byte threshold (`LOG_MAX_BYTES`) and the number of lines a trim
  keeps (`LOG_TRIM_TAIL_LINES`) are parameters; the line terminator is "\n".
*/
module LogStore {
  import opened Wrappers
  import opened Strings
  import Config

  // ------------------------------------------------------------- safeName

  predicate SafeChar(c: char) {
    ('a' <= c <= 'z') || ('0' <= c <= '9') || c == '.' || c == '_' || c == '-'
  }

  /**
    What `.replace(/[^a-z0-9._-]/g, "_")` makes of one character. The pattern has no
    `u` flag, so it matches UTF-16 code units: a character outside the Basic
    Multilingual Plane, two code units, becomes two `_`.
  */
  function SanitizeChar(c: char): string {
    if SafeChar(c) then [c] else if c as int >= 0x1_0000 then "__" else "_"
  }

  /** `.replace(/[^a-z0-9._-]/g, "_")`: every code unit outside the allowed set becomes `_`. */
  function Sanitize(s: string): (r: string)
    ensures |s| <= |r| <= 2 * |s|
    ensures forall i :: 0 <= i < |r| ==> SafeChar(r[i])
    decreases |s|
  {
    if s == "" then ""
    else
      var h, t := SanitizeChar(s[0]), Sanitize(s[1..]);
      assert forall i :: |h| <= i < |h + t| ==> (h + t)[i] == t[i - |h|];
      h + t
  }

  /** A string of allowed characters is left as it is. */
  lemma {:induction false} SanitizeFixed(s: string)
    requires forall i :: 0 <= i < |s| ==> SafeChar(s[i])
    ensures Sanitize(s) == s
    decreases |s|
  {
    if s != "" {
      SanitizeFixed(s[1..]);
      assert s == [s[0]] + s[1..];
    }
  }

  /** The replacement works character by character: sanitising a concatenation sanitises each part. */
  lemma {:induction false} SanitizeConcat(a: string, b: string)
    ensures Sanitize(a + b) == Sanitize(a) + Sanitize(b)
    decreases |a|
  {
    if a == "" {
      assert a + b == b;
    } else {
      assert (a + b)[1..] == a[1..] + b;
      SanitizeConcat(a[1..], b);
    }
  }

  /**
    On text of Basic Multilingual Plane characters (one code unit each) the result has
    the input's length, keeps every allowed character where it is and puts `_` in
    place of every other.
  */
  lemma {:induction false} SanitizeBmp(s: string)
    requires forall i :: 0 <= i < |s| ==> s[i] as int < 0x1_0000
    ensures |Sanitize(s)| == |s|
    ensures forall i :: 0 <= i < |s| ==> Sanitize(s)[i] == (if SafeChar(s[i]) then s[i] else '_')
    decreases |s|
  {
    if s != "" {
      SanitizeBmp(s[1..]);
      assert Sanitize(s) == SanitizeChar(s[0]) + Sanitize(s[1..]);
      assert forall i :: 1 <= i < |s| ==> s[i] == s[1..][i - 1];
    }
  }

  const NameCap := 64

  /**
    `safeName`: the lowercased name with every UTF-16 code unit outside [a-z0-9._-]
    replaced by `_`, cut to 64 characters. It can never hold a path separator.
  */
  function SafeName(name: string): (r: string)
    ensures |r| <= NameCap
    ensures forall i :: 0 <= i < |r| ==> SafeChar(r[i])
    ensures '/' !in r && '\\' !in r
    ensures name == "" ==> r == ""
  {
    var s := Sanitize(Lower(name));
    if |s| <= NameCap then s else s[..NameCap]
  }

  /** A character outside the Basic Multilingual Plane, such as an emoji, leaves two `_`. */
  lemma WideCharTwoUnderscores(c: char)
    requires c as int >= 0x1_0000
    ensures SafeName([c]) == "__"
  {
    assert [c][1..] == "";
    assert Lower([c]) == [c];
    assert Sanitize([c]) == "__";
  }

  /** Sanitising a sanitised name changes nothing. */
  lemma SafeNameIdempotent(name: string)
    ensures SafeName(SafeName(name)) == SafeName(name)
  {
    SafeNameFixed(SafeName(name));
  }

  /** A name already made of at most 64 allowed characters is its own safe name. */
  lemma SafeNameFixed(name: string)
    requires |name| <= NameCap && forall i :: 0 <= i < |name| ==> SafeChar(name[i])
    ensures SafeName(name) == name
  {
    LowerIdentity(name);
    SanitizeFixed(name);
  }

  /** `logPathByName`, relative to the log directory. */
  function LogPath(name: string): string {
    SafeName(name) + ".log"
  }

  /** `f.replace(/\.log$/, "")`. */
  function DeviceOf(f: string): string {
    if |f| >= 4 && f[|f| - 4..] == ".log" then f[..|f| - 4] else f
  }

  /**
    Every operation derives the file from the same sanitiser: two names share a
    file exactly when they sanitise alike, and the listing shows the sanitised name.
  */
  lemma PathAgreement(a: string, b: string)
    ensures DeviceOf(LogPath(a)) == SafeName(a)
    ensures LogPath(a) == LogPath(b) <==> SafeName(a) == SafeName(b)
  {
    if LogPath(a) == LogPath(b) {
      assert SafeName(a) == LogPath(a)[..|LogPath(a)| - 4];
    }
  }

  // -------------------------------------------------------- formatForStore

  /** The two clock readings of one formatted line: `toISOString()` and its `HH:MM:SS` part. */
  datatype Stamp = Stamp(iso: string, clock: string)

  function StorePrefix(stamp: Stamp, device: string): string {
    stamp.iso + " [" + stamp.clock + "] " + SafeName(device) + " "
  }

  predicate LineFree(s: string) {
    '\n' !in s
  }

  /**
    `formatForStore`: nothing for a blank line; otherwise the timestamps, the
    sanitised device name (the same one the file path uses) and the trimmed
    message, on one line that never ends in whitespace.
  */
  function FormatForStore(device: string, line: string, stamp: Stamp): (r: Option<string>)
    ensures r.None? <==> AllSpace(line)
    ensures r.Some? ==> r.value == StorePrefix(stamp, device) + Trim(line)
    ensures r.Some? ==> r.value != "" && !IsJsSpace(r.value[|r.value| - 1])
    ensures r.Some? && LineFree(line) && LineFree(stamp.iso) && LineFree(stamp.clock) ==> LineFree(r.value)
  {
    TrimShape(line);
    var msg := Trim(line);
    if msg == "" then None else Some(StorePrefix(stamp, device) + msg)
  }

  /** `lines.map(l => formatForStore(name, l)).filter(Boolean)`, one stamp per line. */
  function Rendered(name: string, lines: seq<string>, stamps: seq<Stamp>): (r: seq<string>)
    requires |stamps| == |lines|
    ensures |r| <= |lines|
    decreases |lines|
  {
    if lines == [] then []
    else
      var head := FormatForStore(name, lines[0], stamps[0]);
      (if head.Some? then [head.value] else []) + Rendered(name, lines[1..], stamps[1..])
  }

  /** A line that can be stored and read back as itself. */
  predicate StorableLine(f: string) {
    f != "" && LineFree(f) && f[|f| - 1] != '\r'
  }

  predicate AllLineFree(xs: seq<string>) {
    forall i :: 0 <= i < |xs| ==> LineFree(xs[i])
  }

  /** Each rendered line is non-empty and stays on one line when its inputs do. */
  lemma {:induction false} RenderedStorable(name: string, lines: seq<string>, stamps: seq<Stamp>)
    requires |stamps| == |lines|
    requires AllLineFree(lines)
    requires forall i :: 0 <= i < |stamps| ==> LineFree(stamps[i].iso) && LineFree(stamps[i].clock)
    ensures AllStorable(Rendered(name, lines, stamps))
    decreases |lines|
  {
    if lines != [] {
      RenderedStorable(name, lines[1..], stamps[1..]);
    }
  }

  /** The rendered lines are the non-blank inputs, in input order. */
  lemma {:induction false} RenderedOrder(name: string, lines: seq<string>, stamps: seq<Stamp>)
    requires |stamps| == |lines|
    ensures |Rendered(name, lines, stamps)| == |lines| <==> forall i :: 0 <= i < |lines| ==> !AllSpace(lines[i])
    ensures forall i :: 0 <= i < |lines| && !AllSpace(lines[i]) ==> FormatForStore(name, lines[i], stamps[i]).Some?
    decreases |lines|
  {
    if lines != [] {
      RenderedOrder(name, lines[1..], stamps[1..]);
      assert forall i :: 1 <= i < |lines| ==> lines[1..][i - 1] == lines[i];
    }
  }

  // ---------------------------------------------------------- line splitting

  /** Drops one `\r` before the line break, as `/\r?\n/` does. */
  function StripCr(x: string): string {
    if |x| > 0 && x[|x| - 1] == '\r' then x[..|x| - 1] else x
  }

  function StripCrs(xs: seq<string>): (r: seq<string>)
    ensures |r| == |xs|
    decreases |xs|
  {
    if xs == [] then [] else [StripCr(xs[0])] + StripCrs(xs[1..])
  }

  lemma {:induction false} StripCrsConcat(a: seq<string>, b: seq<string>)
    ensures StripCrs(a + b) == StripCrs(a) + StripCrs(b)
    decreases |a|
  {
    if a == [] {
      assert a + b == b;
    } else {
      assert (a + b)[1..] == a[1..] + b;
      StripCrsConcat(a[1..], b);
    }
  }

  lemma {:induction false} StripCrsKeeps(xs: seq<string>)
    requires forall i :: 0 <= i < |xs| ==> xs[i] == "" || xs[i][|xs[i]| - 1] != '\r'
    ensures StripCrs(xs) == xs
    decreases |xs|
  {
    if xs != [] {
      StripCrsKeeps(xs[1..]);
      assert xs == [xs[0]] + xs[1..];
    }
  }

  lemma {:induction false} StripCrsLineFree(xs: seq<string>)
    requires AllLineFree(xs)
    ensures AllLineFree(StripCrs(xs))
    decreases |xs|
  {
    if xs != [] {
      StripCrsLineFree(xs[1..]);
    }
  }

  /**
    `content.split(/\r?\n/)`: the pieces between the line breaks, each without the
    `\r` right before its break. The last piece has no break after it, so a `\r`
    that ends the text stays.
  */
  function SplitLines(s: string): (r: seq<string>)
    ensures |r| >= 1
  {
    StripButLast(SplitOn(s, '\n'))
  }

  /** Drops the `\r` before the break of every piece but the last, which no break follows. */
  function StripButLast(ps: seq<string>): (r: seq<string>)
    requires |ps| >= 1
    ensures |r| == |ps|
  {
    StripCrs(ps[..|ps| - 1]) + [ps[|ps| - 1]]
  }

  /** `content.split(/\r?\n/).filter(Boolean)`. */
  function NonEmptyLines(s: string): seq<string> {
    NonEmpty(SplitLines(s))
  }

  /** No piece of `split(/\r?\n/)` holds a line break. */
  lemma SplitLinesLineFree(s: string)
    ensures AllLineFree(SplitLines(s))
  {
    var ps := SplitOn(s, '\n');
    SplitPiecesFree(s, '\n');
    var init := ps[..|ps| - 1];
    assert AllLineFree(init) by {
      forall i | 0 <= i < |init| ensures LineFree(init[i]) {
        assert init[i] == ps[i];
      }
    }
    StripCrsLineFree(init);
  }

  lemma NonEmptyLinesLineFree(s: string)
    ensures AllLineFree(NonEmptyLines(s))
  {
    SplitLinesLineFree(s);
    NonEmptyFrom(SplitLines(s), '\n');
  }

  /** Joining one-line strings with EOL and ending with EOL gives text that splits back into them. */
  lemma EolJoinSplit(xs: seq<string>)
    requires |xs| >= 1 && AllLineFree(xs)
    ensures SplitOn(Join(xs, "\n") + "\n", '\n') == xs + [""]
  {
    JoinSnoc(xs, "", "\n");
    assert Join(xs + [""], "\n") == Join(xs, "\n") + "\n";
    SplitJoin(xs + [""], '\n');
  }

  /** A file is well terminated when it is empty or its last character is EOL. */
  predicate Terminated(s: string) {
    s == "" || s[|s| - 1] == '\n'
  }

  /** The empty file has no non-empty line. */
  lemma NoLinesInEmpty()
    ensures SplitLines("") == [""]
    ensures NonEmptyLines("") == []
  {
    assert SplitOn("", '\n') == [""];
    assert StripCrs([]) == [];
  }

  /**
    A line break separates the lines before it from those after it; every piece
    before the break loses the `\r` that ends it.
  */
  lemma LinesAfterBreak(a: string, b: string)
    ensures SplitLines(a + "\n" + b) == StripCrs(SplitOn(a, '\n')) + SplitLines(b)
    ensures NonEmptyLines(a + "\n" + b) == NonEmpty(StripCrs(SplitOn(a, '\n'))) + NonEmptyLines(b)
  {
    PiecesAfterBreak(a, b);
    NonEmptyConcat(StripCrs(SplitOn(a, '\n')), SplitLines(b));
  }

  lemma PiecesAfterBreak(a: string, b: string)
    ensures SplitLines(a + "\n" + b) == StripCrs(SplitOn(a, '\n')) + SplitLines(b)
  {
    var pa, pb := SplitOn(a, '\n'), SplitOn(b, '\n');
    SplitConcat(a, b, '\n');
    assert SplitOn(a + "\n" + b, '\n') == pa + pb;
    LastSplit(pa, pb);
  }

  /** Stripping all pieces but the last of `pa + pb` strips all of `pa` and all but the last of `pb`. */
  lemma LastSplit(pa: seq<string>, pb: seq<string>)
    requires |pb| >= 1
    ensures StripButLast(pa + pb) == StripCrs(pa) + StripButLast(pb)
  {
    var ps := pa + pb;
    assert ps[..|ps| - 1] == pa + pb[..|pb| - 1];
    assert ps[|ps| - 1] == pb[|pb| - 1];
    StripCrsConcat(pa, pb[..|pb| - 1]);
  }

  /**
    A `\r` that ends the file is not part of a line break: the tail shows it, where
    a `\r` before a `\n` is dropped.
  */
  lemma FinalCrKept(x: string, n: int)
    requires '\n' !in x
    ensures Tail(Some(x + "\r"), n) == x + "\r\n"
  {
    var y := x + "\r";
    SplitLinesSingle(y);
    assert NonEmptyLines(y) == [y] by { assert [y][1..] == []; }
    assert SliceFromEnd([y], Clamp(n)) == [y];
  }

  /** Text without a line break is a single piece. */
  lemma SplitLinesSingle(y: string)
    requires '\n' !in y
    ensures SplitLines(y) == [y]
  {
    SplitFree(y, '\n');
    assert StripButLast([y]) == StripCrs([]) + [y];
  }


  /** Stored lines, followed by the empty piece after the last EOL, carry no `\r` to strip. */
  lemma StorableKept(fs: seq<string>)
    requires AllStorable(fs)
    ensures StripCrs(fs) == fs
  {
    forall i | 0 <= i < |fs|
      ensures fs[i] == "" || fs[i][|fs[i]| - 1] != '\r'
    {
      assert StorableLine(fs[i]);
    }
    StripCrsKeeps(fs);
  }

  predicate AllStorable(fs: seq<string>) {
    forall i :: 0 <= i < |fs| ==> StorableLine(fs[i])
  }

  /** A block of stored lines followed by EOL splits into those lines and one empty piece. */
  lemma BlockSplit(fs: seq<string>)
    requires |fs| >= 1 && AllStorable(fs)
    ensures SplitLines(Join(fs, "\n") + "\n") == fs + [""]
  {
    assert AllLineFree(fs) by {
      forall i | 0 <= i < |fs| ensures LineFree(fs[i]) {
        assert StorableLine(fs[i]);
      }
    }
    EolJoinSplit(fs);
    StorableKept(fs);
    assert (fs + [""])[..|fs|] == fs;
  }

  lemma DropEmptyLast(fs: seq<string>)
    requires AllStorable(fs)
    ensures NonEmpty(fs + [""]) == fs
  {
    NonEmptyConcat(fs, [""]);
    assert forall i :: 0 <= i < |fs| ==> StorableLine(fs[i]);
    NonEmptyKeepsAll(fs);
    assert NonEmpty([""]) == [];
  }

  /** A block of stored lines followed by EOL reads back as exactly those lines. */
  lemma BlockLines(fs: seq<string>)
    requires |fs| >= 1 && AllStorable(fs)
    ensures NonEmptyLines(Join(fs, "\n") + "\n") == fs
  {
    BlockSplit(fs);
    DropEmptyLast(fs);
  }

  lemma PrevSplit(prev: string, p0: string, block: string)
    requires prev != "" && prev[|prev| - 1] == '\n' && p0 == prev[..|prev| - 1]
    ensures prev == p0 + "\n" + ""
    ensures prev + block == p0 + "\n" + block
  {
    assert prev == p0 + "\n";
  }

  /**
    Appending a block of stored lines to a well-terminated file adds exactly those
    lines, in order, after the file's existing non-empty lines.
  */
  lemma AppendedLines(prev: string, fs: seq<string>)
    requires Terminated(prev)
    requires |fs| >= 1 && AllStorable(fs)
    ensures NonEmptyLines(prev + Join(fs, "\n") + "\n") == NonEmptyLines(prev) + fs
  {
    var block := Join(fs, "\n") + "\n";
    assert prev + Join(fs, "\n") + "\n" == prev + block;
    BlockLines(fs);
    if prev == "" {
      NoLinesInEmpty();
      assert prev + block == block;
    } else {
      LinesAfterEol(prev, block);
    }
  }

  /** Text after a well-terminated, non-empty file adds its lines after the file's. */
  lemma LinesAfterEol(prev: string, block: string)
    requires prev != "" && prev[|prev| - 1] == '\n'
    ensures NonEmptyLines(prev + block) == NonEmptyLines(prev) + NonEmptyLines(block)
  {
    var p0 := prev[..|prev| - 1];
    PrevSplit(prev, p0, block);
    LinesAfterBreak(p0, block);
    LinesAfterBreak(p0, "");
    NoLinesInEmpty();
    assert NonEmptyLines(prev) == NonEmpty(StripCrs(SplitOn(p0, '\n'))) + [];
  }

  // ----------------------------------------------------------- ensureTrimmed

  /** `xs.slice(-k)`, for any integer k (for k <= 0 JavaScript reads it as `xs.slice(|k|)`). */
  function SliceFromEnd<T>(xs: seq<T>, k: int): (r: seq<T>)
    ensures IsSuffix(r, xs)
    ensures k > 0 ==> |r| == if k < |xs| then k else |xs|
  {
    if k > 0 then xs[if k < |xs| then |xs| - k else 0..]
    else xs[if -k < |xs| then -k else |xs|..]
  }

  /** The content `ensureTrimmed` writes: the last `k` pieces of the split, joined by EOL, plus EOL. */
  function Trimmed(content: string, k: int): (r: string)
    ensures Terminated(r) && r != ""
  {
    Join(SliceFromEnd(SplitLines(content), k), "\n") + "\n"
  }

  /**
    The trimmed file consists of a suffix of the old file's lines, each followed by
    EOL; for a positive `k` there are `min(k, n)` of them, n the old line count.
  */
  lemma TrimmedLines(content: string, k: int)
    ensures var kept := SliceFromEnd(SplitLines(content), k);
      && IsSuffix(kept, SplitLines(content))
      && (k > 0 ==> |kept| == if k < |SplitLines(content)| then k else |SplitLines(content)|)
      && (kept != [] ==> SplitOn(Trimmed(content, k), '\n') == kept + [""])
      && (kept == [] ==> Trimmed(content, k) == "\n")
  {
    var lines := SplitLines(content);
    var kept := SliceFromEnd(lines, k);
    assert Trimmed(content, k) == Join(kept, "\n") + "\n";
    if kept != [] {
      SplitLinesLineFree(content);
      SuffixLineFree(kept, lines);
      EolJoinSplit(kept);
    }
  }

  /** A run of lines taken from the end of one-line strings holds one-line strings. */
  lemma SuffixLineFree(kept: seq<string>, xs: seq<string>)
    requires IsSuffix(kept, xs) && AllLineFree(xs)
    ensures AllLineFree(kept)
  {
    forall i | 0 <= i < |kept|
      ensures LineFree(kept[i])
    {
      assert kept[i] == xs[|xs| - |kept| + i];
    }
  }

  /** The last two parts of a join, with the separator between them, end the joined text. */
  lemma {:induction false} JoinEnds(xs: seq<string>, sep: string)
    requires |xs| >= 2
    ensures IsSuffix(xs[|xs| - 2] + sep + xs[|xs| - 1], Join(xs, sep))
    decreases |xs|
  {
    if |xs| > 2 {
      JoinEnds(xs[1..], sep);
    }
  }

  /**
    For a well-terminated file and `k >= 2`, the newest line survives the trim: the
    trimmed file ends with it, then EOL, then the empty last piece's EOL.
  */
  lemma TrimKeepsNewest(content: string, k: int)
    requires content != "" && content[|content| - 1] == '\n' && k >= 2
    ensures var lines := SplitLines(content);
      |lines| >= 2 && lines[|lines| - 1] == ""
      && IsSuffix(lines[|lines| - 2] + "\n\n", Trimmed(content, k))
  {
    var c0 := content[..|content| - 1];
    TerminatedLines(content, c0);
    var lines := SplitLines(content);
    var kept := SliceFromEnd(lines, k);
    SliceKeepsLastTwo(lines, k);
    var x := lines[|lines| - 2];
    var joined := Join(kept, "\n");
    assert Trimmed(content, k) == joined + "\n";
    JoinEnds(kept, "\n");
    EolAfterSuffix(x, kept[|kept| - 1], joined);
  }

  lemma EolAfterSuffix(x: string, y: string, joined: string)
    requires IsSuffix(x + "\n" + y, joined) && y == ""
    ensures IsSuffix(x + "\n\n", joined + "\n")
  {
    var a := x + "\n" + y;
    assert (joined + "\n")[|joined + "\n"| - |a + "\n"|..] == joined[|joined| - |a|..] + "\n";
    assert a + "\n" == x + "\n\n";
  }

  /** A file ending with EOL splits into the lines before it and one empty piece. */
  lemma TerminatedLines(content: string, c0: string)
    requires content != "" && content[|content| - 1] == '\n' && c0 == content[..|content| - 1]
    ensures SplitLines(content) == StripCrs(SplitOn(c0, '\n')) + [""]
  {
    assert content == c0 + "\n" + "";
    LinesAfterBreak(c0, "");
    NoLinesInEmpty();
  }

  lemma SliceKeepsLastTwo<T>(xs: seq<T>, k: int)
    requires |xs| >= 2 && k >= 2
    ensures var kept := SliceFromEnd(xs, k);
      |kept| >= 2 && kept[|kept| - 1] == xs[|xs| - 1] && kept[|kept| - 2] == xs[|xs| - 2]
  {
  }

  // ------------------------------------------------------- the log directory

  datatype LogFile = LogFile(content: string, mtime: int)

  type Dir = map<string, LogFile>

  /** Every file in the directory is empty or ends with EOL. */
  ghost predicate WellTerminated(dir: Dir) {
    forall p :: p in dir ==> Terminated(dir[p].content)
  }

  function ContentAt(dir: Dir, p: string): string {
    if p in dir then dir[p].content else ""
  }

  /** `ensureTrimmed(p)`: a missing file (the stat throws, the error is swallowed) or a small one is left alone. */
  function TrimmedDir(dir: Dir, p: string, maxBytes: int, tailLines: int, now: int): (r: Dir)
    ensures r.Keys == dir.Keys
    ensures forall q :: q in dir && q != p ==> r[q] == dir[q]
    ensures p !in dir || Utf8Size(dir[p].content) <= maxBytes ==> r == dir
  {
    if p !in dir || Utf8Size(dir[p].content) <= maxBytes then dir
    else dir[p := LogFile(Trimmed(dir[p].content, tailLines), now)]
  }

  /** The block `appendByName` appends: the rendered lines joined by EOL (empty when none survive). */
  function Block(name: string, lines: seq<string>, stamps: seq<Stamp>): string
    requires |stamps| == |lines|
  {
    Join(Rendered(name, lines, stamps), "\n")
  }

  /**
    The directory after `appendByName`. When no line survives formatting nothing
    changes and no file is created; otherwise only the device's file changes: it
    gains the block and an EOL, then is trimmed if it has grown past the threshold.
  */
  function AfterAppend(dir: Dir, name: string, lines: seq<string>, stamps: seq<Stamp>,
                       now: int, maxBytes: int, tailLines: int): (r: Dir)
    requires |stamps| == |lines|
    ensures Rendered(name, lines, stamps) == [] ==> r == dir
    ensures Rendered(name, lines, stamps) != [] ==> r.Keys == dir.Keys + {LogPath(name)}
    ensures forall q :: q in dir && q != LogPath(name) ==> r[q] == dir[q]
    ensures Rendered(name, lines, stamps) != [] ==>
      var grown := ContentAt(dir, LogPath(name)) + Block(name, lines, stamps) + "\n";
      r[LogPath(name)].content == if Utf8Size(grown) <= maxBytes then grown else Trimmed(grown, tailLines)
    ensures WellTerminated(dir) ==> WellTerminated(r)
  {
    var p := LogPath(name);
    var out := Block(name, lines, stamps);
    BlockEmpty(name, lines, stamps);
    if out == "" then dir
    else
      var grown := ContentAt(dir, p) + out + "\n";
      TrimmedDir(dir[p := LogFile(grown, now)], p, maxBytes, tailLines, now)
  }

  /** The block is empty exactly when no line survives formatting. */
  lemma BlockEmpty(name: string, lines: seq<string>, stamps: seq<Stamp>)
    requires |stamps| == |lines|
    ensures Block(name, lines, stamps) == "" <==> Rendered(name, lines, stamps) == []
  {
    var fs := Rendered(name, lines, stamps);
    NonBlankRendered(name, lines, stamps);
    if |fs| > 1 {
      assert |Block(name, lines, stamps)| >= |fs[0]| + 1;
    }
  }

  lemma {:induction false} NonBlankRendered(name: string, lines: seq<string>, stamps: seq<Stamp>)
    requires |stamps| == |lines|
    ensures forall i :: 0 <= i < |Rendered(name, lines, stamps)| ==> Rendered(name, lines, stamps)[i] != ""
    decreases |lines|
  {
    if lines != [] {
      NonBlankRendered(name, lines[1..], stamps[1..]);
    }
  }

  // ----------------------------------------------------------- tailByName

  /** `Math.max(1, Math.min(10000, n))`. */
  function Clamp(n: int): (k: int)
    ensures 1 <= k <= 10000
    ensures 1 <= n <= 10000 ==> k == n
  {
    if n > 10000 then 10000 else if n < 1 then 1 else n
  }

  /**
    `tailByName` on a file's content (None when the file does not exist): the
    placeholder for a missing file, else the last `Clamp(n)` non-empty lines, each
    followed by "\n".
  */
  function Tail(content: Option<string>, n: int): (r: string)
    ensures content.None? ==> r == "(empty)\n"
    ensures r != "" && r[|r| - 1] == '\n'
  {
    match content
    case None => "(empty)\n"
    case Some(c) => Join(SliceFromEnd(NonEmptyLines(c), Clamp(n)), "\n") + "\n"
  }

  /**
    What a tail reply holds: exactly the last `min(Clamp(n), m)` of the file's m
    non-empty lines, in file order, each on its own line; just "\n" when the file
    has no non-empty line.
  */
  lemma TailLines(c: string, n: int)
    ensures var ls := NonEmptyLines(c);
      var t := SplitOn(Tail(Some(c), n), '\n');
      && (ls == [] ==> Tail(Some(c), n) == "\n")
      && (ls != [] ==>
            |t| == (if Clamp(n) < |ls| then Clamp(n) else |ls|) + 1
            && t[|t| - 1] == ""
            && t[..|t| - 1] == ls[|ls| - (|t| - 1)..])
  {
    var ls := NonEmptyLines(c);
    assert Tail(Some(c), n) == Join(SliceFromEnd(ls, Clamp(n)), "\n") + "\n";
    if ls != [] {
      NonEmptyLinesLineFree(c);
      TailOfLines(ls, Clamp(n));
    }
  }

  /** The last `k` of some one-line strings, joined and terminated, split back into them. */
  lemma TailOfLines(ls: seq<string>, k: int)
    requires ls != [] && k >= 1 && AllLineFree(ls)
    ensures var t := SplitOn(Join(SliceFromEnd(ls, k), "\n") + "\n", '\n');
      && |t| == (if k < |ls| then k else |ls|) + 1
      && t[|t| - 1] == ""
      && t[..|t| - 1] == ls[|ls| - (|t| - 1)..]
  {
    var kept := SliceFromEnd(ls, k);
    SuffixLineFree(kept, ls);
    EolJoinSplit(kept);
    assert (kept + [""])[..|kept|] == kept;
  }


  /** `tailByName(name, n)` over the directory. */
  function TailByName(dir: Dir, name: string, n: int): (r: string)
    ensures LogPath(name) !in dir ==> r == "(empty)\n"
    ensures LogPath(name) in dir && dir[LogPath(name)].content == "" ==> r == "\n"
  {
    assert SplitOn("", '\n') == [""];
    Tail(if LogPath(name) in dir then Some(dir[LogPath(name)].content) else None, n)
  }

  /**
    Round trip: appending lines to a well-terminated file that stays within the
    threshold, then reading as many lines as were stored, returns exactly the
    stored lines, in input order.
  */
  lemma AppendThenTail(dir: Dir, name: string, lines: seq<string>, stamps: seq<Stamp>,
                       now: int, maxBytes: int, tailLines: int)
    requires |stamps| == |lines|
    requires AllLineFree(lines)
    requires forall i :: 0 <= i < |stamps| ==> LineFree(stamps[i].iso) && LineFree(stamps[i].clock)
    requires Terminated(ContentAt(dir, LogPath(name)))
    requires 1 <= |Rendered(name, lines, stamps)| <= 10000
    requires Utf8Size(ContentAt(dir, LogPath(name)) + Block(name, lines, stamps) + "\n") <= maxBytes
    ensures var fs := Rendered(name, lines, stamps);
      TailByName(AfterAppend(dir, name, lines, stamps, now, maxBytes, tailLines), name, |fs|)
        == Join(fs, "\n") + "\n"
  {
    var fs := Rendered(name, lines, stamps);
    var prev := ContentAt(dir, LogPath(name));
    var after := AfterAppend(dir, name, lines, stamps, now, maxBytes, tailLines);
    var content := prev + Join(fs, "\n") + "\n";
    assert after[LogPath(name)].content == content;
    RenderedStorable(name, lines, stamps);
    AppendedLines(prev, fs);
    var all := NonEmptyLines(prev) + fs;
    assert NonEmptyLines(content) == all;
    assert SliceFromEnd(all, Clamp(|fs|)) == fs;
    assert TailByName(after, name, |fs|) == Tail(Some(content), |fs|);
  }

  /** Clearing empties the file without deleting it: a later tail returns "\n", not the placeholder. */
  lemma ClearThenTail(dir: Dir, name: string, now: int, n: int)
    ensures TailByName(dir[LogPath(name) := LogFile("", now)], name, n) == "\n"
  {
  }

  // ------------------------------------------------------------- listLogs

  datatype LogEntry = LogEntry(device: string, bytes: nat, mtime: int)

  predicate IsLogFile(f: string) {
    |f| >= 4 && f[|f| - 4..] == ".log"
  }

  /** The `{device, bytes, mtime}` record `listLogs` makes of file `f`. */
  function EntryOf(dir: Dir, f: string): LogEntry
    requires f in dir
  {
    LogEntry(DeviceOf(f), Utf8Size(dir[f].content), dir[f].mtime)
  }

  /** The `.log` files of the directory. */
  ghost function LogFiles(dir: Dir): set<string> {
    set f | f in dir && IsLogFile(f)
  }

  /** `readdirSync` lists every file of the directory, each exactly once. */
  ghost predicate ListsDir(dir: Dir, names: seq<string>) {
    && (forall f :: f in dir <==> f in names)
    && (forall i, j :: 0 <= i < j < |names| ==> names[i] != names[j])
  }

  /** `readdirSync(...).filter(f => f.endsWith(".log")).map(...)`, in directory order. */
  function Listed(dir: Dir, names: seq<string>): (r: seq<LogEntry>)
    requires forall i :: 0 <= i < |names| ==> names[i] in dir
    decreases |names|
  {
    if names == [] then []
    else
      var f := names[0];
      (if IsLogFile(f) then [EntryOf(dir, f)] else []) + Listed(dir, names[1..])
  }

  /** Every `.log` file of the listing has its entry, with its UTF-8 size and time. */
  lemma {:induction false} ListedHasEntry(dir: Dir, names: seq<string>, f: string)
    requires forall j :: 0 <= j < |names| ==> names[j] in dir
    requires f in names && IsLogFile(f)
    ensures f in dir && EntryOf(dir, f) in Listed(dir, names)
    decreases |names|
  {
    if names[0] != f {
      ListedHasEntry(dir, names[1..], f);
    }
  }

  /** Every entry of the listing is the entry of one of its `.log` files. */
  lemma {:induction false} ListedFrom(dir: Dir, names: seq<string>)
    requires forall j :: 0 <= j < |names| ==> names[j] in dir
    ensures forall e :: e in Listed(dir, names) ==> exists f :: f in names && f in dir && IsLogFile(f) && e == EntryOf(dir, f)
    decreases |names|
  {
    if names != [] {
      ListedFrom(dir, names[1..]);
      forall e | e in Listed(dir, names)
        ensures exists f :: f in names && f in dir && IsLogFile(f) && e == EntryOf(dir, f)
      {
        if e !in Listed(dir, names[1..]) {
          assert e == EntryOf(dir, names[0]);
        } else {
          var f :| f in names[1..] && f in dir && IsLogFile(f) && e == EntryOf(dir, f);
          assert f in names;
        }
      }
    }
  }

  /** A listing of distinct names has one entry per `.log` name. */
  lemma {:induction false} ListedCount(dir: Dir, names: seq<string>)
    requires forall j :: 0 <= j < |names| ==> names[j] in dir
    requires forall i, j :: 0 <= i < j < |names| ==> names[i] != names[j]
    ensures |Listed(dir, names)| == |set f | f in names && IsLogFile(f)|
    decreases |names|
  {
    if names != [] {
      var rest := names[1..];
      ListedCount(dir, rest);
      var all, tail := set f | f in names && IsLogFile(f), set f | f in rest && IsLogFile(f);
      assert names[0] !in rest by {
        forall j | 0 <= j < |rest| ensures rest[j] != names[0] { assert rest[j] == names[j + 1]; }
      }
      if IsLogFile(names[0]) {
        assert all == tail + {names[0]};
      } else {
        assert all == tail;
      }
    }
  }

  /** Each entry is at least as recent as the next one. */
  ghost predicate NewestFirst(es: seq<LogEntry>) {
    forall i :: 0 < i < |es| ==> es[i - 1].mtime >= es[i].mtime
  }

  /** Newest first between neighbours means newest first between any two entries. */
  lemma {:induction false} NewestFirstAll(es: seq<LogEntry>, i: int, j: int)
    requires NewestFirst(es) && 0 <= i <= j < |es|
    ensures es[i].mtime >= es[j].mtime
    decreases j - i
  {
    if i < j {
      NewestFirstAll(es, i + 1, j);
    }
  }

  /** Places `e` before the first entry that is not newer, which keeps equal times in their order. */
  function Insert(e: LogEntry, es: seq<LogEntry>): (r: seq<LogEntry>)
    ensures |r| == |es| + 1
    decreases |es|
  {
    if es == [] || es[0].mtime <= e.mtime then [e] + es else [es[0]] + Insert(e, es[1..])
  }

  /** Inserting into a newest-first listing keeps it newest first. */
  lemma {:induction false} InsertSorted(e: LogEntry, es: seq<LogEntry>)
    requires NewestFirst(es)
    ensures NewestFirst(Insert(e, es))
    ensures Insert(e, es)[0] == e || (es != [] && Insert(e, es)[0] == es[0])
    decreases |es|
  {
    if !(es == [] || es[0].mtime <= e.mtime) {
      InsertSorted(e, es[1..]);
      var rest := Insert(e, es[1..]);
      var r := [es[0]] + rest;
      assert Insert(e, es) == r;
      forall i | 1 < i < |r| ensures r[i - 1].mtime >= r[i].mtime {
        assert r[i - 1] == rest[i - 2];
      }
    }
  }

  /** Inserting adds exactly `e`. */
  lemma {:induction false} InsertPerm(e: LogEntry, es: seq<LogEntry>)
    ensures multiset(Insert(e, es)) == multiset(es) + multiset{e}
    decreases |es|
  {
    if !(es == [] || es[0].mtime <= e.mtime) {
      InsertPerm(e, es[1..]);
      assert es == [es[0]] + es[1..];
    }
  }

  /** `.sort((a, b) => b.mtime - a.mtime)`, as an insertion sort (stable, like the engine's sort). */
  function SortNewestFirst(es: seq<LogEntry>): (r: seq<LogEntry>)
    ensures |r| == |es|
    decreases |es|
  {
    if es == [] then [] else Insert(es[0], SortNewestFirst(es[1..]))
  }

  lemma {:induction false} SortSorted(es: seq<LogEntry>)
    ensures NewestFirst(SortNewestFirst(es))
    decreases |es|
  {
    if es != [] {
      SortSorted(es[1..]);
      InsertSorted(es[0], SortNewestFirst(es[1..]));
    }
  }

  lemma {:induction false} SortPerm(es: seq<LogEntry>)
    ensures multiset(SortNewestFirst(es)) == multiset(es)
    decreases |es|
  {
    if es != [] {
      SortPerm(es[1..]);
      InsertPerm(es[0], SortNewestFirst(es[1..]));
      assert es == [es[0]] + es[1..];
    }
  }

  /**
    `listLogs()`, given the directory's file names in `readdirSync` order: one entry
    for each `.log` file and for nothing else, newest first.
  */
  function ListLogs(dir: Dir, names: seq<string>): (r: seq<LogEntry>)
    requires ListsDir(dir, names)
    ensures NewestFirst(r)
    ensures multiset(r) == multiset(Listed(dir, names))
    ensures forall f :: f in dir && IsLogFile(f) ==> EntryOf(dir, f) in r
    ensures forall e :: e in r ==> exists f :: f in dir && IsLogFile(f) && e == EntryOf(dir, f)
    ensures |r| == |LogFiles(dir)|
  {
    assert forall i :: 0 <= i < |names| ==> names[i] in dir by {
      forall i | 0 <= i < |names| ensures names[i] in dir { assert names[i] in names; }
    }
    var listed := Listed(dir, names);
    SortSorted(listed);
    SortPerm(listed);
    ListedFrom(dir, names);
    ListedCount(dir, names);
    assert (set f | f in names && IsLogFile(f)) == LogFiles(dir);
    var r := SortNewestFirst(listed);
    assert forall e :: e in r <==> e in listed by {
      forall e ensures e in r <==> e in listed {
        assert e in r <==> e in multiset(r);
      }
    }
    forall f | f in dir && IsLogFile(f) ensures EntryOf(dir, f) in r {
      ListedHasEntry(dir, names, f);
    }
    r
  }

  // ------------------------------------------------------------ the store

  /** The log directory as mutable state; each method is one of the module's file operations. */
  class Store {
    var files: Dir

    constructor (initial: Dir)
      ensures files == initial
    {
      files := initial;
    }

    /** `ensureTrimmed(p)`: rewrites the whole file with its tail once it exceeds `maxBytes`. */
    method EnsureTrimmed(p: string, maxBytes: int, tailLines: int, now: int)
      modifies this
      ensures files == TrimmedDir(old(files), p, maxBytes, tailLines, now)
    {
      if p !in files {
        return;
      }
      if Utf8Size(files[p].content) <= maxBytes {
        return;
      }
      var lines := SplitLines(files[p].content);
      var tail := Join(SliceFromEnd(lines, tailLines), "\n");
      files := files[p := LogFile(tail + "\n", now)];
    }

    /** `appendByName(name, lines)`. */
    method AppendByName(name: string, lines: seq<string>, stamps: seq<Stamp>,
                        now: int, maxBytes: int, tailLines: int)
      requires |stamps| == |lines|
      modifies this
      ensures files == AfterAppend(old(files), name, lines, stamps, now, maxBytes, tailLines)
    {
      var p := LogPath(name);
      var out := Join(Rendered(name, lines, stamps), "\n");
      if out == "" {
        return;
      }
      var prev := if p in files then files[p].content else "";
      files := files[p := LogFile(prev + out + "\n", now)];
      EnsureTrimmed(p, maxBytes, tailLines, now);
    }

    /**
      `appendByDeviceId(deviceId, lines)`: the id is trimmed and resolved through
      `idToName`; an unknown id throws and writes nothing.
    */
    method AppendByDeviceId(deviceId: string, idToName: map<string, string>, lines: seq<string>,
                            stamps: seq<Stamp>, now: int, maxBytes: int, tailLines: int)
      returns (r: Outcome<string>)
      requires |stamps| == |lines|
      modifies this
      ensures r.Fail? <==> !Config.IdKnown(idToName, Trim(deviceId))
      ensures r.Fail? ==> r.error == "Unknown device_id" && files == old(files)
      ensures r.Pass? ==>
        files == AfterAppend(old(files), idToName[Trim(deviceId)], lines, stamps, now, maxBytes, tailLines)
    {
      var id := Trim(deviceId);
      if !Config.IdKnown(idToName, id) {
        return Fail("Unknown device_id");
      }
      AppendByName(idToName[id], lines, stamps, now, maxBytes, tailLines);
      return Pass;
    }

    /**
      `appendByDeviceId(deviceId, lines)` with the guard as written: a trimmed id that no
      device holds but that names a member every object inherits passes `!idToName[id]`,
      and the lines are appended under `String(idToName[id])`, the source text of that
      inherited function. That text depends on the JavaScript engine; `inheritedText`
      stands for it. For every configured id the append is the one the intended guard
      makes.
    */
    method AppendByDeviceIdAsWritten(deviceId: string, idToName: map<string, string>, inheritedText: string,
                                     lines: seq<string>, stamps: seq<Stamp>, now: int, maxBytes: int, tailLines: int)
      returns (r: Outcome<string>)
      requires |stamps| == |lines|
      modifies this
      ensures r.Fail? <==> !Config.IdKnownAsWritten(idToName, Trim(deviceId))
      ensures Trim(deviceId) !in Config.InheritedKeys ==> (r.Fail? <==> !Config.IdKnown(idToName, Trim(deviceId)))
      ensures r.Fail? ==> r.error == "Unknown device_id" && files == old(files)
      ensures r.Pass? && Trim(deviceId) in idToName ==>
        files == AfterAppend(old(files), idToName[Trim(deviceId)], lines, stamps, now, maxBytes, tailLines)
      ensures r.Pass? && Trim(deviceId) !in idToName ==>
        files == AfterAppend(old(files), inheritedText, lines, stamps, now, maxBytes, tailLines)
    {
      var id := Trim(deviceId);
      if !Config.IdKnownAsWritten(idToName, id) {
        return Fail("Unknown device_id");
      }
      var name := if id in idToName then idToName[id] else inheritedText;
      AppendByName(name, lines, stamps, now, maxBytes, tailLines);
      return Pass;
    }

    /** `clearByName(name)`: truncates the file to empty, creating it when absent. */
    method ClearByName(name: string, now: int)
      modifies this
      ensures files == old(files)[LogPath(name) := LogFile("", now)]
      ensures WellTerminated(old(files)) ==> WellTerminated(files)
    {
      files := files[LogPath(name) := LogFile("", now)];
    }
  }

  // ------------------------------------------------ lookups as written

  /**
    As written, `idToName[id]` is also truthy for a member every object inherits,
    so `appendByDeviceId("constructor", ...)` passes the guard with no device
    configured. `Store.AppendByDeviceIdAsWritten` carries that guard out;
    `Store.AppendByDeviceId` uses the intended `Config.IdKnown` instead.
  */
  lemma InheritedIdPassesGuard()
    ensures Config.IdKnownAsWritten(map[], Trim("constructor"))
    ensures !Config.IdKnown(map[], Trim("constructor"))
  {
    TrimShape("constructor");
  }
}

=== FILE: routes_control.dfy ===
/**
  The modular server's trigger route, `/set/:room/:direction`: a chain of checks over the
  configured rooms that ends either in a refusal or in one `publishTrue` call.
*/
module ControlRoutes {
  import opened Wrappers
  import opened Strings
  import opened Config
  import opened Cloud

  /** The property a direction drives. */
  function PropertyFor(cfg: DeviceConfig, dir: string): string {
    if dir == "up" then cfg.upPropertyId else cfg.downPropertyId
  }

  /**
    The checks of `/set/:room/:direction`, in order: authentication (401), a direction
    other than up or down (400), an unknown room (404), a room without a property for
    the direction (400). Room and direction are lowercased before any of them. When all
    pass, the route publishes `true` to the room's property for that direction.
  */
  function SetPlan(authToken: string, cred: Credentials, rooms: map<string, DeviceConfig>,
                   rawRoom: string, rawDir: string): (p: Plan)
    ensures p == Refuse(401, "Unauthorized") <==> !RequireAuth(authToken, cred)
    ensures (RequireAuth(authToken, cred) && Lower(rawDir) != "up" && Lower(rawDir) != "down")
              ==> p == Refuse(400, "Direction must be 'up' or 'down'")
    ensures p == Refuse(404, "Unknown room") <==>
              && RequireAuth(authToken, cred) && Lower(rawDir) in {"up", "down"}
              && !RoomKnownAsWritten(rooms, Lower(rawRoom))
    ensures (&& RequireAuth(authToken, cred) && Lower(rawDir) in {"up", "down"}
             && RoomKnownAsWritten(rooms, Lower(rawRoom))
             && PropertyFor(LookupAsWritten(rooms, Lower(rawRoom)).value, Lower(rawDir)) == "")
              ==> p == Refuse(400, "Missing " + Lower(rawDir) + " property for " + Lower(rawRoom))
    ensures p.Perform? <==>
              && RequireAuth(authToken, cred) && Lower(rawDir) in {"up", "down"}
              && Lower(rawRoom) in rooms && PropertyFor(rooms[Lower(rawRoom)], Lower(rawDir)) != ""
    ensures p.Perform? ==>
              var cfg := rooms[Lower(rawRoom)];
              p.call == Publish(cfg.thingId, PropertyFor(cfg, Lower(rawDir)), cfg.deviceId, PTrue)
  {
    if !RequireAuth(authToken, cred) then Refuse(401, "Unauthorized")
    else
      var room, dir := Lower(rawRoom), Lower(rawDir);
      if dir != "up" && dir != "down" then Refuse(400, "Direction must be 'up' or 'down'")
      else match LookupAsWritten(rooms, room)
        case None => Refuse(404, "Unknown room")
        case Some(cfg) =>
          var pid := PropertyFor(cfg, dir);
          if pid == "" then Refuse(400, "Missing " + dir + " property for " + room)
          else Perform(Publish(cfg.thingId, pid, cfg.deviceId, PTrue))
  }

  /**
    The reply once the plan has run: a refusal as planned, or, after the publish, 200
    `Triggered <room> <dir>` on success and 500 with the error's message on failure.
  */
  function SetReply(plan: Plan, rawRoom: string, rawDir: string, published: Result<string, string>): (reply: Reply)
    ensures plan.Refuse? ==> reply == Reply(plan.status, plan.text)
    ensures plan.Perform? && published.Failure? ==> reply == Reply(500, published.error)
    ensures plan.Perform? && published.Success? ==>
              reply == Reply(200, "Triggered " + Lower(rawRoom) + " " + Lower(rawDir))
  {
    match plan
    case Refuse(status, text) => Reply(status, text)
    case Perform(_) =>
      match published
      case Failure(e) => Reply(500, e)
      case Success(_) => Reply(200, "Triggered " + Lower(rawRoom) + " " + Lower(rawDir))
  }

  /** The route does not care how the room and the direction are capitalised. */
  lemma SetIgnoresCase(authToken: string, cred: Credentials, rooms: map<string, DeviceConfig>,
                       rawRoom: string, rawDir: string)
    ensures SetPlan(authToken, cred, rooms, Lower(rawRoom), Lower(rawDir))
         == SetPlan(authToken, cred, rooms, rawRoom, rawDir)
  {
    LowerIdempotent(rawRoom);
    LowerIdempotent(rawDir);
  }

  /**
    The lower-case name of a member every object inherits (such as `constructor`) passes
    the room lookup: the route then answers 400 for the missing property instead of 404,
    and publishes nothing.
  */
  lemma InheritedRoomAnswered400(authToken: string, cred: Credentials, rooms: map<string, DeviceConfig>,
                                 room: string, dir: string)
    requires RequireAuth(authToken, cred)
    requires room in InheritedKeys && room !in rooms
    requires forall i :: 0 <= i < |room| ==> LowerFixed(room[i])
    requires dir in {"up", "down"}
    ensures SetPlan(authToken, cred, rooms, room, dir) == Refuse(400, "Missing " + dir + " property for " + room)
  {
    assert Lower(room) == room by { LowerIdentity(room); }
    assert Lower(dir) == dir by { LowerDirections(); }
  }
}

=== FILE: routes_logs.dfy ===
/**
  The log routes: how request input becomes lines, and the order in which each
  handler checks the secret, the device and the lines before it touches the store.
  A handler's decision is a `Reply` (status, text, and the store operation it asks
  for); the mutating routes also exist as methods that perform that operation.
*/
module RoutesLogs {
  import opened Wrappers
  import opened Strings
  import Config
  import LogStore

  // ------------------------------------------------------------ incomingLines

  /**
    A JavaScript value as the request parser hands it over: absent, a string, an
    array, or anything else, given by its truthiness and its `String(v)` text.
  */
  datatype JsValue = Missing | Str(s: string) | Arr(items: seq<JsValue>) | Other(truthy: bool, text: string)

  predicate Truthy(v: JsValue) {
    match v
    case Missing => false
    case Str(s) => s != ""
    case Arr(_) => true
    case Other(t, _) => t
  }

  /** What `add(v)` pushes: nothing for a falsy value, the elements of an array in order, else `String(v)`. */
  function Flatten(v: JsValue): seq<string>
    decreases v, if v.Arr? then |v.items| + 1 else 0
  {
    match v
    case Missing => []
    case Str(s) => if s == "" then [] else [s]
    case Arr(items) => FlattenItems(v, |items|)
    case Other(t, text) => if t then [text] else []
  }

  /** What `v.forEach(x => add(x))` pushes for the first `n` elements of the array `v`. */
  function FlattenItems(v: JsValue, n: nat): seq<string>
    requires v.Arr? && n <= |v.items|
    decreases v, n
  {
    if n == 0 then [] else FlattenItems(v, n - 1) + Flatten(v.items[n - 1])
  }

  /** A falsy value contributes nothing. */
  lemma FalsySkipped(v: JsValue)
    ensures !Truthy(v) ==> Flatten(v) == []
    ensures v.Str? && Truthy(v) ==> Flatten(v) == [v.s]
  {
  }

  /** Flattening an array is flattening its two halves one after the other. */
  lemma {:induction false} FlattenSplit(a: seq<JsValue>, b: seq<JsValue>)
    ensures Flatten(Arr(a + b)) == Flatten(Arr(a)) + Flatten(Arr(b))
  {
    FlattenPrefix(a, b, |b|);
  }

  lemma {:induction false} FlattenPrefix(a: seq<JsValue>, b: seq<JsValue>, n: nat)
    requires n <= |b|
    ensures FlattenItems(Arr(a + b), |a| + n) == FlattenItems(Arr(a), |a|) + FlattenItems(Arr(b), n)
    decreases n
  {
    if n == 0 {
      FlattenSame(Arr(a + b), Arr(a), |a|);
    } else {
      FlattenPrefix(a, b, n - 1);
      assert (a + b)[|a| + n - 1] == b[n - 1];
      assert FlattenItems(Arr(a + b), |a| + n) == FlattenItems(Arr(a + b), |a| + n - 1) + Flatten(b[n - 1]);
      assert FlattenItems(Arr(b), n) == FlattenItems(Arr(b), n - 1) + Flatten(b[n - 1]);
    }
  }

  /** Two arrays that agree on a prefix flatten it alike. */
  lemma {:induction false} FlattenSame(v: JsValue, w: JsValue, n: nat)
    requires v.Arr? && w.Arr? && n <= |v.items| && n <= |w.items|
    requires v.items[..n] == w.items[..n]
    ensures FlattenItems(v, n) == FlattenItems(w, n)
    decreases n
  {
    if n > 0 {
      assert v.items[..n - 1] == w.items[..n - 1] by {
        assert v.items[..n - 1] == v.items[..n][..n - 1];
        assert w.items[..n - 1] == w.items[..n][..n - 1];
      }
      assert v.items[n - 1] == v.items[..n][n - 1];
      FlattenSame(v, w, n - 1);
    }
  }

  /** Nesting does not matter: an array inside an array flattens to the same strings. */
  lemma NestingFlattens(xs: seq<JsValue>)
    ensures Flatten(Arr([Arr(xs)])) == Flatten(Arr(xs))
  {
    var outer := Arr([Arr(xs)]);
    assert Flatten(outer) == FlattenItems(outer, 0) + Flatten(Arr(xs));
  }

  /**
    The closure `add`: pushes onto the bucket what `Flatten(v)` says, walking
    arrays element by element and recursing into each.
  */
  method Add(v: JsValue, bucket: seq<string>) returns (b: seq<string>)
    ensures b == bucket + Flatten(v)
    decreases v
  {
    if !Truthy(v) {
      return bucket;
    }
    if v.Arr? {
      b := bucket;
      var i := 0;
      while i < |v.items|
        invariant 0 <= i <= |v.items|
        invariant b == bucket + FlattenItems(v, i)
      {
        b := Add(v.items[i], b);
        i := i + 1;
      }
      return b;
    }
    var text := if v.Str? then v.s else v.text;
    return bucket + [text];
  }

  /** The replace/split/filter chain applied to the bucket. */
  function SplitInput(bucket: seq<string>): seq<string> {
    NonEmpty(SplitOn(NormalizeNewlines(Join(bucket, "\n")), '\n'))
  }

  /** `incomingLines(req)`: the body, then the `line` query parameter, each flattened, then split into lines. */
  method IncomingLines(body: JsValue, query: JsValue) returns (lines: seq<string>)
    ensures lines == SplitInput(Flatten(body) + Flatten(query))
  {
    var bucket: seq<string> := [];
    bucket := Add(body, bucket);
    bucket := Add(query, bucket);
    assert bucket == Flatten(body) + Flatten(query);
    lines := SplitInput(bucket);
  }

  /** A line of the result is non-empty and holds neither `\n` nor `\r`. */
  predicate CleanLine(l: string) {
    l != "" && '\n' !in l && '\r' !in l
  }

  /** Every line `incomingLines` returns is non-empty and free of line breaks. */
  lemma SplitInputClean(bucket: seq<string>)
    ensures forall i :: 0 <= i < |SplitInput(bucket)| ==> CleanLine(SplitInput(bucket)[i])
  {
    var text := NormalizeNewlines(Join(bucket, "\n"));
    var pieces := SplitOn(text, '\n');
    SplitPiecesFree(text, '\n');
    SplitPiecesAvoid(text, '\n', '\r');
    NonEmptySpec(pieces);
    NonEmptyFrom(pieces, '\n');
    NonEmptyFrom(pieces, '\r');
  }

  predicate NoBreaks(xs: seq<string>) {
    forall i :: 0 <= i < |xs| ==> '\n' !in xs[i] && '\r' !in xs[i]
  }

  /**
    Input that already holds no line breaks is only filtered: each non-empty string
    of the bucket becomes one line, in bucket order.
  */
  lemma SplitInputPlain(bucket: seq<string>)
    requires NoBreaks(bucket)
    ensures SplitInput(bucket) == NonEmpty(bucket)
  {
    if bucket == [] {
      assert SplitOn("", '\n') == [""];
      assert NonEmpty([""]) == [];
    } else {
      JoinAvoid(bucket, "\n", '\r');
      SplitJoin(bucket, '\n');
    }
  }

  /** Body lines come before query lines, and nothing is lost or reordered. */
  lemma BodyBeforeQuery(body: JsValue, query: JsValue)
    requires NoBreaks(Flatten(body) + Flatten(query))
    ensures SplitInput(Flatten(body) + Flatten(query)) == NonEmpty(Flatten(body)) + NonEmpty(Flatten(query))
  {
    SplitInputPlain(Flatten(body) + Flatten(query));
    NonEmptyConcat(Flatten(body), Flatten(query));
  }

  /**
    An illustration of `SplitInputClean` and `SplitInputPlain` on one input, not evidence
    beyond it: line breaks of every style separate lines, so "a\r\nb\rc" gives three lines.
  */
  lemma MixedBreaks()
    ensures SplitInput(["a\r\nb\rc"]) == ["a", "b", "c"]
  {
    NormalizeExample();
    SplitExample();
    assert Join(["a\r\nb\rc"], "\n") == "a\r\nb\rc";
    NonEmptyKeepsAll(["a", "b", "c"]);
  }

  lemma NormalizeExample()
    ensures NormalizeNewlines("a\r\nb\rc") == "a\nb\nc"
  {
    CrLfExample();
    assert ReplaceCr("a\nb\rc") == "a\nb\nc";
  }

  lemma SplitExample()
    ensures SplitOn("a\nb\nc", '\n') == ["a", "b", "c"]
  {
    SplitJoin(["a", "b", "c"], '\n');
    assert Join(["a", "b", "c"], "\n") == "a\nb\nc";
  }

  lemma CrLfExample()
    ensures ReplaceCrLf("a\r\nb\rc") == "a\nb\rc"
  {
    assert "a\r\nb\rc"[1..] == "\r\nb\rc";
    assert "\r\nb\rc"[2..] == "b\rc";
    assert "b\rc"[1..] == "\rc";
    assert "\rc"[1..] == "c";
    assert "c"[1..] == "";
  }

  // -------------------------------------------------------------- handlers

  /** The store operation a handler asks for once every check has passed. */
  datatype LogAction =
    | NoAction
    | ListAll
    | AppendName(name: string, lines: seq<string>)
    | AppendId(deviceId: string, lines: seq<string>)
    | TailName(name: string, n: int)
    | ClearName(name: string)

  datatype Reply = Reply(status: int, body: string, action: LogAction)

  const Unauthorized := Reply(401, "Unauthorized", NoAction)
  const UnknownName := Reply(404, "Unknown device name", NoAction)
  const UnknownId := Reply(404, "Unknown device_id", NoAction)
  const NoLines := Reply(400, "No lines provided", NoAction)

  /** GET /logs. */
  function GetLogs(authToken: string, cred: Config.Credentials): (r: Reply)
    ensures r.action != NoAction <==> Config.RequireAuth(authToken, cred)
    ensures !Config.RequireAuth(authToken, cred) ==> r == Unauthorized
    ensures Config.RequireAuth(authToken, cred) ==> r == Reply(200, "", ListAll)
  {
    if !Config.RequireAuth(authToken, cred) then Unauthorized else Reply(200, "", ListAll)
  }

  /**
    POST /log/:name: the secret, then the sanitised name must be a configured
    device, then there must be lines; only then does it append, under the
    sanitised name, and answer 204.
  */
  function PostLogByName(authToken: string, cred: Config.Credentials, rooms: map<string, Config.DeviceConfig>,
                         rawName: string, lines: seq<string>): (r: Reply)
    ensures !Config.RequireAuth(authToken, cred) ==> r == Unauthorized
    ensures Config.RequireAuth(authToken, cred) && LogStore.SafeName(rawName) !in rooms ==> r == UnknownName
    ensures Config.RequireAuth(authToken, cred) && LogStore.SafeName(rawName) in rooms && lines == [] ==> r == NoLines
    ensures r.status == 204 <==> Config.RequireAuth(authToken, cred) && LogStore.SafeName(rawName) in rooms && lines != []
    ensures r.action != NoAction ==> r.status == 204 && r.action == AppendName(LogStore.SafeName(rawName), lines)
  {
    var name := LogStore.SafeName(rawName);
    if !Config.RequireAuth(authToken, cred) then Unauthorized
    else if !Config.RoomKnown(rooms, name) then UnknownName
    else if lines == [] then NoLines
    else Reply(204, "", AppendName(name, lines))
  }

  /**
    POST /logid/:deviceId: the secret, then the trimmed id must map to a device
    name, then there must be lines.
  */
  function PostLogById(authToken: string, cred: Config.Credentials, idToName: map<string, string>,
                       rawId: string, lines: seq<string>): (r: Reply)
    ensures !Config.RequireAuth(authToken, cred) ==> r == Unauthorized
    ensures Config.RequireAuth(authToken, cred) && !Config.IdKnown(idToName, Trim(rawId)) ==> r == UnknownId
    ensures Config.RequireAuth(authToken, cred) && Config.IdKnown(idToName, Trim(rawId)) && lines == [] ==> r == NoLines
    ensures r.status == 204 <==> Config.RequireAuth(authToken, cred) && Config.IdKnown(idToName, Trim(rawId)) && lines != []
    ensures r.action != NoAction ==> r.status == 204 && r.action == AppendId(Trim(rawId), lines)
  {
    var id := Trim(rawId);
    if !Config.RequireAuth(authToken, cred) then Unauthorized
    else if !Config.IdKnown(idToName, id) then UnknownId
    else if lines == [] then NoLines
    else Reply(204, "", AppendId(id, lines))
  }

  /** `Number(req.query.n || 200)`: the count asked for, 200 when the parameter is absent or empty. */
  function CountParam(n: Option<int>): int {
    if n.Some? then n.value else 200
  }

  /** GET /log/:name: the secret, then a configured name, then the tail of its file as plain text. */
  function GetLog(authToken: string, cred: Config.Credentials, rooms: map<string, Config.DeviceConfig>,
                  dir: LogStore.Dir, rawName: string, n: Option<int>): (r: Reply)
    ensures !Config.RequireAuth(authToken, cred) ==> r == Unauthorized
    ensures Config.RequireAuth(authToken, cred) && LogStore.SafeName(rawName) !in rooms ==> r == UnknownName
    ensures r.status == 200 <==> Config.RequireAuth(authToken, cred) && LogStore.SafeName(rawName) in rooms
    ensures r.status == 200 ==>
      r.body == LogStore.TailByName(dir, LogStore.SafeName(rawName), CountParam(n))
      && r.action == TailName(LogStore.SafeName(rawName), CountParam(n))
  {
    var name := LogStore.SafeName(rawName);
    var count := CountParam(n);
    if !Config.RequireAuth(authToken, cred) then Unauthorized
    else if !Config.RoomKnown(rooms, name) then UnknownName
    else Reply(200, LogStore.TailByName(dir, name, count), TailName(name, count))
  }

  /** DELETE /log/:name: the secret, then a configured name, then the file is emptied. */
  function DeleteLog(authToken: string, cred: Config.Credentials, rooms: map<string, Config.DeviceConfig>,
                     rawName: string): (r: Reply)
    ensures !Config.RequireAuth(authToken, cred) ==> r == Unauthorized
    ensures Config.RequireAuth(authToken, cred) && LogStore.SafeName(rawName) !in rooms ==> r == UnknownName
    ensures r.status == 204 <==> Config.RequireAuth(authToken, cred) && LogStore.SafeName(rawName) in rooms
    ensures r.status != 204 ==> r.action == NoAction
    ensures r.status == 204 ==> r.action == ClearName(LogStore.SafeName(rawName))
  {
    var name := LogStore.SafeName(rawName);
    if !Config.RequireAuth(authToken, cred) then Unauthorized
    else if !Config.RoomKnown(rooms, name) then UnknownName
    else Reply(204, "", ClearName(name))
  }

  // ------------------------------------------------- handlers on the store

  /** POST /log/:name, carried out: the store changes only when the reply is 204. */
  method ServePostLogByName(store: LogStore.Store, authToken: string, cred: Config.Credentials,
                            rooms: map<string, Config.DeviceConfig>, rawName: string,
                            body: JsValue, query: JsValue, stamps: seq<LogStore.Stamp>,
                            now: int, maxBytes: int, tailLines: int) returns (r: Reply)
    requires |stamps| == |SplitInput(Flatten(body) + Flatten(query))|
    modifies store
    ensures r == PostLogByName(authToken, cred, rooms, rawName, SplitInput(Flatten(body) + Flatten(query)))
    ensures r.status != 204 ==> store.files == old(store.files)
    ensures r.status == 204 ==>
      store.files == LogStore.AfterAppend(old(store.files), LogStore.SafeName(rawName),
                                          SplitInput(Flatten(body) + Flatten(query)), stamps, now, maxBytes, tailLines)
  {
    var lines := IncomingLines(body, query);
    r := PostLogByName(authToken, cred, rooms, rawName, lines);
    if r.status == 204 {
      store.AppendByName(LogStore.SafeName(rawName), lines, stamps, now, maxBytes, tailLines);
    }
  }

  /** POST /logid/:deviceId, carried out through `appendByDeviceId`. */
  method ServePostLogById(store: LogStore.Store, authToken: string, cred: Config.Credentials,
                          idToName: map<string, string>, rawId: string,
                          body: JsValue, query: JsValue, stamps: seq<LogStore.Stamp>,
                          now: int, maxBytes: int, tailLines: int) returns (r: Reply)
    requires |stamps| == |SplitInput(Flatten(body) + Flatten(query))|
    modifies store
    ensures r == PostLogById(authToken, cred, idToName, rawId, SplitInput(Flatten(body) + Flatten(query)))
    ensures r.status != 204 ==> store.files == old(store.files)
    ensures r.status == 204 ==>
      store.files == LogStore.AfterAppend(old(store.files), idToName[Trim(rawId)],
                                          SplitInput(Flatten(body) + Flatten(query)), stamps, now, maxBytes, tailLines)
  {
    var lines := IncomingLines(body, query);
    r := PostLogById(authToken, cred, idToName, rawId, lines);
    if r.status == 204 {
      var outcome := store.AppendByDeviceId(Trim(rawId), idToName, lines, stamps, now, maxBytes, tailLines);
      TrimShape(Trim(rawId));
      TrimTwice(rawId);
    }
  }

  /** Trimming is idempotent, so the store's own trim of an already trimmed id changes nothing. */
  lemma TrimTwice(s: string)
    ensures Trim(Trim(s)) == Trim(s)
  {
    TrimShape(s);
    var t := Trim(s);
    TrimShape(t);
  }

  /** DELETE /log/:name, carried out. */
  method ServeDeleteLog(store: LogStore.Store, authToken: string, cred: Config.Credentials,
                        rooms: map<string, Config.DeviceConfig>, rawName: string, now: int) returns (r: Reply)
    modifies store
    ensures r == DeleteLog(authToken, cred, rooms, rawName)
    ensures r.status != 204 ==> store.files == old(store.files)
    ensures r.status == 204 ==> store.files == old(store.files)[LogStore.LogPath(LogStore.SafeName(rawName)) := LogStore.LogFile("", now)]
  {
    r := DeleteLog(authToken, cred, rooms, rawName);
    if r.status == 204 {
      store.ClearByName(LogStore.SafeName(rawName), now);
    }
  }

  // ----------------------------------------------------- guards as written

  /**
    POST /log/:name with the guard as written: `rooms[name]` is also truthy for inherited
    members. For every other name it answers as the intended guard does.
  */
  function PostLogByNameAsWritten(authToken: string, cred: Config.Credentials, rooms: map<string, Config.DeviceConfig>,
                                  rawName: string, lines: seq<string>): (r: Reply)
    ensures Config.RequireAuth(authToken, cred) && LogStore.SafeName(rawName) in Config.InheritedKeys && lines != [] ==>
      r == Reply(204, "", AppendName(LogStore.SafeName(rawName), lines))
    ensures LogStore.SafeName(rawName) !in Config.InheritedKeys ==> r == PostLogByName(authToken, cred, rooms, rawName, lines)
  {
    var name := LogStore.SafeName(rawName);
    if !Config.RequireAuth(authToken, cred) then Unauthorized
    else if !Config.RoomKnownAsWritten(rooms, name) then UnknownName
    else if lines == [] then NoLines
    else Reply(204, "", AppendName(name, lines))
  }

  /**
    With no device configured, POST /log/constructor is accepted as written (and
    writes `constructor.log`), where the intended guard answers 404.
  */
  lemma InheritedNameAccepted()
    ensures PostLogByNameAsWritten("", Config.Credentials("", ""), map[], "constructor", ["x"]).status == 204
    ensures PostLogByName("", Config.Credentials("", ""), map[], "constructor", ["x"]) == UnknownName
  {
    var name := "constructor";
    assert forall i :: 0 <= i < |name| ==> LogStore.SafeChar(name[i]);
    LogStore.SafeNameFixed(name);
  }

  /**
    POST /logid/:deviceId with the guard as written: `idToName[id]` is truthy for inherited
    members. For every other id it answers as the intended guard does.
  */
  function PostLogByIdAsWritten(authToken: string, cred: Config.Credentials, idToName: map<string, string>,
                                rawId: string, lines: seq<string>): (r: Reply)
    ensures (Config.RequireAuth(authToken, cred) && Trim(rawId) !in idToName
             && Trim(rawId) in Config.InheritedKeys && lines != []) ==> r == Reply(204, "", AppendId(Trim(rawId), lines))
    ensures Trim(rawId) !in Config.InheritedKeys ==> r == PostLogById(authToken, cred, idToName, rawId, lines)
  {
    var id := Trim(rawId);
    if !Config.RequireAuth(authToken, cred) then Unauthorized
    else if !Config.IdKnownAsWritten(idToName, id) then UnknownId
    else if lines == [] then NoLines
    else Reply(204, "", AppendId(id, lines))
  }

  /** With no device configured, POST /logid/toString is accepted as written; the intended guard answers 404. */
  lemma InheritedIdAccepted()
    ensures PostLogByIdAsWritten("", Config.Credentials("", ""), map[], "toString", ["x"]).status == 204
    ensures PostLogById("", Config.Credentials("", ""), map[], "toString", ["x"]) == UnknownId
  {
    TrimShape("toString");
  }

  /**
    GET /log/:name with the guard as written (line 61): an inherited member name passes
    and its (usually missing) file is read. For every other name it answers as the
    intended guard does.
  */
  function GetLogAsWritten(authToken: string, cred: Config.Credentials, rooms: map<string, Config.DeviceConfig>,
                           dir: LogStore.Dir, rawName: string, n: Option<int>): (r: Reply)
    ensures r.status == 200 <==> Config.RequireAuth(authToken, cred) && Config.RoomKnownAsWritten(rooms, LogStore.SafeName(rawName))
    ensures r.status == 200 ==>
      r.body == LogStore.TailByName(dir, LogStore.SafeName(rawName), CountParam(n))
      && r.action == TailName(LogStore.SafeName(rawName), CountParam(n))
    ensures LogStore.SafeName(rawName) !in Config.InheritedKeys ==> r == GetLog(authToken, cred, rooms, dir, rawName, n)
  {
    var name := LogStore.SafeName(rawName);
    var count := CountParam(n);
    if !Config.RequireAuth(authToken, cred) then Unauthorized
    else if !Config.RoomKnownAsWritten(rooms, name) then UnknownName
    else Reply(200, LogStore.TailByName(dir, name, count), TailName(name, count))
  }

  /**
    DELETE /log/:name with the guard as written (line 69): an inherited member name passes
    and its file is emptied, or created empty. For every other name it answers as the
    intended guard does.
  */
  function DeleteLogAsWritten(authToken: string, cred: Config.Credentials, rooms: map<string, Config.DeviceConfig>,
                              rawName: string): (r: Reply)
    ensures r.status == 204 <==> Config.RequireAuth(authToken, cred) && Config.RoomKnownAsWritten(rooms, LogStore.SafeName(rawName))
    ensures r.status == 204 ==> r.action == ClearName(LogStore.SafeName(rawName))
    ensures LogStore.SafeName(rawName) !in Config.InheritedKeys ==> r == DeleteLog(authToken, cred, rooms, rawName)
  {
    var name := LogStore.SafeName(rawName);
    if !Config.RequireAuth(authToken, cred) then Unauthorized
    else if !Config.RoomKnownAsWritten(rooms, name) then UnknownName
    else Reply(204, "", ClearName(name))
  }

  /**
    With no device configured, GET /log/constructor answers 200 with the placeholder and
    DELETE /log/constructor answers 204 and creates an empty `constructor.log` as
    written, where the intended guard answers 404 to both.
  */
  lemma InheritedNameReadAndCleared()
    ensures GetLogAsWritten("", Config.Credentials("", ""), map[], map[], "constructor", None)
      == Reply(200, "(empty)\n", TailName("constructor", 200))
    ensures GetLog("", Config.Credentials("", ""), map[], map[], "constructor", None) == UnknownName
    ensures DeleteLogAsWritten("", Config.Credentials("", ""), map[], "constructor")
      == Reply(204, "", ClearName("constructor"))
    ensures DeleteLog("", Config.Credentials("", ""), map[], "constructor") == UnknownName
  {
    var name := "constructor";
    assert forall i :: 0 <= i < |name| ==> LogStore.SafeChar(name[i]);
    LogStore.SafeNameFixed(name);
  }
}

=== FILE: strings.dfy ===
/**
  The JavaScript string operations the gateway relies on, stated over `string`
  (a sequence of characters): `trim`, `toLowerCase`, `split` on one character,
  `join`, the `\r\n`/`\r` to `\n` replacement chain, the byte size of a UTF-8
  file and decimal notation.
*/
module Strings {

  // ---------------------------------------------------------------- trim

  /** The WhiteSpace and LineTerminator characters that `String.prototype.trim` removes. */
  predicate IsJsSpace(c: char) {
    || c == '\t' || c == '\n' || c == '\U{000B}' || c == '\U{000C}' || c == '\r' || c == ' '
    || c == '\U{00A0}' || c == '\U{1680}' || ('\U{2000}' <= c <= '\U{200A}')
    || c == '\U{2028}' || c == '\U{2029}' || c == '\U{202F}' || c == '\U{205F}'
    || c == '\U{3000}' || c == '\U{FEFF}'
  }

  ghost predicate AllSpace(s: string) {
    forall i :: 0 <= i < |s| ==> IsJsSpace(s[i])
  }

  /** `s.trimStart()`. */
  function TrimStart(s: string): string
    decreases |s|
  {
    if |s| > 0 && IsJsSpace(s[0]) then TrimStart(s[1..]) else s
  }

  /** `s.trimEnd()`. */
  function TrimEnd(s: string): string
    decreases |s|
  {
    if |s| > 0 && IsJsSpace(s[|s| - 1]) then TrimEnd(s[..|s| - 1]) else s
  }

  /** trimStart removes a leading run of spaces and stops at the first other character. */
  lemma {:induction false} TrimStartSpec(s: string)
    ensures |TrimStart(s)| <= |s| && TrimStart(s) == s[|s| - |TrimStart(s)|..]
    ensures AllSpace(s[..|s| - |TrimStart(s)|])
    ensures TrimStart(s) == "" || !IsJsSpace(TrimStart(s)[0])
    decreases |s|
  {
    if |s| > 0 && IsJsSpace(s[0]) {
      TrimStartSpec(s[1..]);
      var r := TrimStart(s[1..]);
      assert s[1..][..|s| - 1 - |r|] == s[1..|s| - |r|];
    }
  }

  /** trimEnd removes a trailing run of spaces and stops at the last other character. */
  lemma {:induction false} TrimEndSpec(s: string)
    ensures |TrimEnd(s)| <= |s| && TrimEnd(s) == s[..|TrimEnd(s)|]
    ensures AllSpace(s[|TrimEnd(s)|..])
    ensures TrimEnd(s) == "" || !IsJsSpace(TrimEnd(s)[|TrimEnd(s)| - 1])
    decreases |s|
  {
    if |s| > 0 && IsJsSpace(s[|s| - 1]) {
      var p := s[..|s| - 1];
      TrimEndSpec(p);
      var r := TrimEnd(p);
      assert TrimEnd(s) == r;
      assert r == s[..|r|];
      forall i | 0 <= i < |s| - |r|
        ensures IsJsSpace(s[|r|..][i])
      {
        if |r| + i < |s| - 1 {
          assert s[|r|..][i] == p[|r|..][i];
        }
      }
    }
  }

  /** `s.trim()`. */
  function Trim(s: string): string {
    TrimEnd(TrimStart(s))
  }

  /** `t` is the part of `s` starting at `k`, and everything of `s` around it is white space. */
  ghost predicate TrimmedAt(s: string, t: string, k: int) {
    && 0 <= k && k + |t| <= |s| && t == s[k..k + |t|]
    && AllSpace(s[..k]) && AllSpace(s[k + |t|..])
  }

  /**
    The shape of what `trim` yields: no longer than `s`, made of its characters, empty
    exactly when `s` is all white space, with no white space at either end, and `s`
    itself when `s` has no white space at either end.
  */
  lemma TrimShape(s: string)
    ensures |Trim(s)| <= |s|
    ensures forall i :: 0 <= i < |Trim(s)| ==> Trim(s)[i] in s
    ensures Trim(s) == "" <==> AllSpace(s)
    ensures Trim(s) != "" ==> !IsJsSpace(Trim(s)[0]) && !IsJsSpace(Trim(s)[|Trim(s)| - 1])
    ensures s == "" || (!IsJsSpace(s[0]) && !IsJsSpace(s[|s| - 1])) ==> Trim(s) == s
  {
    var a := TrimStart(s);
    var r := TrimEnd(a);
    TrimStartSpec(s);
    TrimEndSpec(a);
    assert forall i :: 0 <= i < |r| ==> r[i] == s[|s| - |a| + i];
    assert r == "" ==> s == s[..|s| - |a|] + a[|r|..];
  }

  /** `trim` leaves the slice of `s` that starts after the leading white space. */
  lemma TrimAt(s: string)
    ensures TrimmedAt(s, Trim(s), |s| - |TrimStart(s)|)
  {
    var a := TrimStart(s);
    var r := TrimEnd(a);
    TrimStartSpec(s);
    TrimEndSpec(a);
    var k := |s| - |a|;
    assert a == s[k..];
    assert s[k + |r|..] == a[|r|..];
    assert r == s[k..k + |r|];
  }

  /**
    What `trim` yields: the contiguous part of `s` left once the white space at both
    ends is removed, which neither starts nor ends with white space; empty exactly
    when `s` is all white space; `s` itself when `s` has no white space at either end.
  */
  lemma TrimSpec(s: string)
    ensures exists k :: TrimmedAt(s, Trim(s), k)
    ensures Trim(s) == "" <==> AllSpace(s)
    ensures Trim(s) != "" ==> !IsJsSpace(Trim(s)[0]) && !IsJsSpace(Trim(s)[|Trim(s)| - 1])
    ensures s == "" || (!IsJsSpace(s[0]) && !IsJsSpace(s[|s| - 1])) ==> Trim(s) == s
  {
    TrimShape(s);
    TrimAt(s);
  }

  // --------------------------------------------------------- toLowerCase

  /**
    `toLowerCase` on one character, for the mappings that can produce a character of
    [a-z]: ASCII capitals, KELVIN SIGN (to "k") and LATIN CAPITAL LETTER I WITH DOT
    ABOVE (to "i" followed by COMBINING DOT ABOVE). Every other character is kept.
  */
  function LowerChar(c: char): string {
    if 'A' <= c <= 'Z' then [(c as int + 32) as char]
    else if c == '\U{212A}' then "k"
    else if c == '\U{0130}' then "i\U{0307}"
    else [c]
  }

  predicate LowerFixed(c: char) {
    !('A' <= c <= 'Z') && c != '\U{212A}' && c != '\U{0130}'
  }

  function Lower(s: string): string
    decreases |s|
  {
    if s == "" then "" else LowerChar(s[0]) + Lower(s[1..])
  }

  /** Lowercasing leaves a string alone when it has no character that lowercasing changes. */
  lemma {:induction false} LowerIdentity(s: string)
    requires forall i :: 0 <= i < |s| ==> LowerFixed(s[i])
    ensures Lower(s) == s
    decreases |s|
  {
    if s != "" {
      LowerIdentity(s[1..]);
      assert s == [s[0]] + s[1..];
    }
  }

  /** Every character `toLowerCase` produces is one it leaves alone. */
  lemma {:induction false} LowerOutputFixed(s: string)
    ensures forall i :: 0 <= i < |Lower(s)| ==> LowerFixed(Lower(s)[i])
    decreases |s|
  {
    if s != "" {
      LowerOutputFixed(s[1..]);
      var h, t := LowerChar(s[0]), Lower(s[1..]);
      assert Lower(s) == h + t;
      forall i | 0 <= i < |h + t| ensures LowerFixed((h + t)[i]) {
        if i >= |h| { assert (h + t)[i] == t[i - |h|]; }
      }
    }
  }

  /** Lowercasing twice is lowercasing once. */
  lemma LowerIdempotent(s: string)
    ensures Lower(Lower(s)) == Lower(s)
  {
    LowerOutputFixed(s);
    LowerIdentity(Lower(s));
  }

  /** The two directions the trigger routes accept are already lower case. */
  lemma LowerDirections()
    ensures Lower("up") == "up" && Lower("down") == "down"
  {
    assert Lower("p") == "p" by { assert "p"[1..] == ""; }
    assert Lower("up") == "up" by { assert "up"[1..] == "p"; }
    assert Lower("n") == "n" by { assert "n"[1..] == ""; }
    assert Lower("wn") == "wn" by { assert "wn"[1..] == "n"; }
    assert Lower("own") == "own" by { assert "own"[1..] == "wn"; }
    assert Lower("down") == "down" by { assert "down"[1..] == "own"; }
  }

  // ------------------------------------------------------- split and join

  /** `xs.join(sep)`. */
  function Join(xs: seq<string>, sep: string): string
    decreases |xs|
  {
    if |xs| == 0 then "" else if |xs| == 1 then xs[0] else xs[0] + sep + Join(xs[1..], sep)
  }

  /**
    `s.split(c)` for a one-character separator, one character at a time: a
    separator opens a new piece, any other character joins the first piece.
  */
  function SplitOn(s: string, c: char): (r: seq<string>)
    ensures |r| >= 1
    decreases |s|
  {
    if s == [] then [""]
    else
      var rest := SplitOn(s[1..], c);
      if s[0] == c then [""] + rest else [[s[0]] + rest[0]] + rest[1..]
  }

  /** No piece of a split holds the separator. */
  lemma {:induction false} SplitPiecesFree(s: string, c: char)
    ensures forall i :: 0 <= i < |SplitOn(s, c)| ==> c !in SplitOn(s, c)[i]
    decreases |s|
  {
    if s != [] {
      SplitPiecesFree(s[1..], c);
    }
  }

  /** Prefixing the first part of a join prefixes the joined text. */
  lemma JoinPrefixFirst(x: string, xs: seq<string>, sep: string)
    requires |xs| >= 1
    ensures Join([x + xs[0]] + xs[1..], sep) == x + Join(xs, sep)
  {
    var ys := [x + xs[0]] + xs[1..];
    assert ys[1..] == xs[1..];
  }

  /** Joining the pieces back with the separator gives the text. */
  lemma {:induction false} SplitRejoins(s: string, c: char)
    ensures Join(SplitOn(s, c), [c]) == s
    decreases |s|
  {
    if s != [] {
      var rest := SplitOn(s[1..], c);
      SplitRejoins(s[1..], c);
      if s[0] == c {
        assert ([""] + rest)[1..] == rest;
      } else {
        JoinPrefixFirst([s[0]], rest, [c]);
      }
      assert s == [s[0]] + s[1..];
    }
  }

  /** The two halves of SplitOn's round trip, together. */
  lemma SplitOnSpec(s: string, c: char)
    ensures forall i :: 0 <= i < |SplitOn(s, c)| ==> c !in SplitOn(s, c)[i]
    ensures Join(SplitOn(s, c), [c]) == s
  {
    SplitPiecesFree(s, c);
    SplitRejoins(s, c);
  }

  /** A character missing from the text is missing from every piece of its split. */
  lemma {:induction false} SplitPiecesAvoid(s: string, c: char, d: char)
    requires d !in s
    ensures forall i :: 0 <= i < |SplitOn(s, c)| ==> d !in SplitOn(s, c)[i]
    decreases |s|
  {
    if s != [] {
      assert d !in s[1..] by {
        forall k | 0 <= k < |s| - 1 ensures s[1..][k] != d { assert s[1..][k] == s[k + 1]; }
      }
      SplitPiecesAvoid(s[1..], c, d);
    }
  }

  /** A character missing from the parts and the separator is missing from the joined text. */
  lemma {:induction false} JoinAvoid(xs: seq<string>, sep: string, d: char)
    requires d !in sep && forall i :: 0 <= i < |xs| ==> d !in xs[i]
    ensures d !in Join(xs, sep)
    decreases |xs|
  {
    if |xs| > 1 {
      JoinAvoid(xs[1..], sep, d);
    }
  }

  lemma JoinSnoc(xs: seq<string>, x: string, sep: string)
    requires |xs| >= 1
    ensures Join(xs + [x], sep) == Join(xs, sep) + sep + x
    decreases |xs|
  {
    if |xs| > 1 {
      assert (xs + [x])[1..] == xs[1..] + [x];
      JoinSnoc(xs[1..], x, sep);
    }
  }

  /** Text followed by a separator splits into the pieces of the text, then the pieces of what follows. */
  lemma {:induction false} SplitConcat(a: string, b: string, c: char)
    ensures SplitOn(a + [c] + b, c) == SplitOn(a, c) + SplitOn(b, c)
    decreases |a|
  {
    var s := a + [c] + b;
    if a == [] {
      assert s[1..] == b;
    } else {
      assert s[0] == a[0] && s[1..] == a[1..] + [c] + b;
      SplitConcat(a[1..], b, c);
      var front, back := SplitOn(a[1..], c), SplitOn(b, c);
      if a[0] == c {
        assert SplitOn(s, c) == [""] + (front + back);
      } else {
        assert (front + back)[0] == front[0] && (front + back)[1..] == front[1..] + back;
        assert SplitOn(s, c) == [[a[0]] + front[0]] + (front[1..] + back);
      }
    }
  }

  /** A text without the separator is a single piece. */
  lemma {:induction false} SplitFree(x: string, c: char)
    requires c !in x
    ensures SplitOn(x, c) == [x]
    decreases |x|
  {
    if x != [] {
      SplitFree(x[1..], c);
      assert x == [x[0]] + x[1..];
    }
  }

  /** Splitting at a separator that occurs in no part recovers the parts: the inverse of SplitOn's round trip. */
  lemma {:induction false} SplitJoin(xs: seq<string>, c: char)
    requires |xs| >= 1
    requires forall i :: 0 <= i < |xs| ==> c !in xs[i]
    ensures SplitOn(Join(xs, [c]), c) == xs
    decreases |xs|
  {
    SplitFree(xs[0], c);
    if |xs| > 1 {
      SplitConcat(xs[0], Join(xs[1..], [c]), c);
      SplitJoin(xs[1..], c);
      assert xs == [xs[0]] + xs[1..];
    }
  }

  // ----------------------------------------------------- filters and maps

  /** `.filter(Boolean)` on strings: drops the empty ones, keeps the order. */
  function NonEmpty(xs: seq<string>): (r: seq<string>)
    ensures |r| <= |xs|
    decreases |xs|
  {
    if xs == [] then [] else (if xs[0] == "" then [] else [xs[0]]) + NonEmpty(xs[1..])
  }

  /** What `.filter(Boolean)` keeps is never empty. */
  lemma {:induction false} NonEmptySpec(xs: seq<string>)
    ensures forall i :: 0 <= i < |NonEmpty(xs)| ==> NonEmpty(xs)[i] != ""
    decreases |xs|
  {
    if xs != [] {
      NonEmptySpec(xs[1..]);
    }
  }

  lemma {:induction false} NonEmptyConcat(a: seq<string>, b: seq<string>)
    ensures NonEmpty(a + b) == NonEmpty(a) + NonEmpty(b)
    decreases |a|
  {
    if a != [] {
      assert (a + b)[1..] == a[1..] + b;
      NonEmptyConcat(a[1..], b);
    } else {
      assert a + b == b;
    }
  }

  lemma {:induction false} NonEmptyKeepsAll(xs: seq<string>)
    requires forall i :: 0 <= i < |xs| ==> xs[i] != ""
    ensures NonEmpty(xs) == xs
    decreases |xs|
  {
    if xs != [] {
      NonEmptyKeepsAll(xs[1..]);
      assert xs == [xs[0]] + xs[1..];
    }
  }

  /** Every string that NonEmpty keeps is one of its input strings. */
  lemma {:induction false} NonEmptyMembers(xs: seq<string>)
    ensures forall i :: 0 <= i < |NonEmpty(xs)| ==> NonEmpty(xs)[i] in xs
    decreases |xs|
  {
    if xs != [] {
      NonEmptyMembers(xs[1..]);
      assert forall x :: x in xs[1..] ==> x in xs;
    }
  }

  /** Every string that NonEmpty keeps comes from its input. */
  lemma {:induction false} NonEmptyFrom(xs: seq<string>, c: char)
    requires forall i :: 0 <= i < |xs| ==> c !in xs[i]
    ensures forall i :: 0 <= i < |NonEmpty(xs)| ==> c !in NonEmpty(xs)[i]
    decreases |xs|
  {
    if xs != [] {
      NonEmptyFrom(xs[1..], c);
    }
  }

  /** A suffix relation on strings and on sequences of lines. */
  predicate IsSuffix<T(==)>(a: seq<T>, b: seq<T>) {
    |a| <= |b| && a == b[|b| - |a|..]
  }

  // ------------------------------------------------ newline normalisation

  /** `.replace(/\r\n/g, "\n")`, scanning left to right. */
  function ReplaceCrLf(s: string): string
    decreases |s|
  {
    if |s| == 0 then ""
    else if |s| >= 2 && s[0] == '\r' && s[1] == '\n' then "\n" + ReplaceCrLf(s[2..])
    else [s[0]] + ReplaceCrLf(s[1..])
  }

  /** `.replace(/\r/g, "\n")`. */
  function ReplaceCr(s: string): (r: string)
    ensures |r| == |s| && '\r' !in r
  {
    seq(|s|, i requires 0 <= i < |s| => if s[i] == '\r' then '\n' else s[i])
  }

  /** The two replacements in a row: every CRLF and every lone CR becomes LF. */
  function NormalizeNewlines(s: string): (r: string)
    ensures '\r' !in r
    ensures '\r' !in s ==> r == s
  {
    if '\r' !in s then CrLfFree(s); ReplaceCr(ReplaceCrLf(s))
    else ReplaceCr(ReplaceCrLf(s))
  }

  lemma {:induction false} CrLfFree(s: string)
    requires '\r' !in s
    ensures ReplaceCrLf(s) == s
    ensures ReplaceCr(s) == s
    decreases |s|
  {
    if |s| > 0 {
      assert '\r' !in s[1..] by {
        forall k | 0 <= k < |s| - 1 ensures s[1..][k] != '\r' { assert s[1..][k] == s[k + 1]; }
      }
      CrLfFree(s[1..]);
      assert s == [s[0]] + s[1..];
    }
  }

  // ----------------------------------------------------------- byte size

  /** Number of bytes `c` takes in UTF-8. */
  function Utf8Width(c: char): nat {
    if c as int < 0x80 then 1 else if c as int < 0x800 then 2 else if c as int < 0x1_0000 then 3 else 4
  }

  /** Size in bytes of `s` written as UTF-8, which is what `fs.statSync(p).size` reports. */
  function Utf8Size(s: string): (r: nat)
    ensures |s| <= r <= 4 * |s|
    decreases |s|
  {
    if s == "" then 0 else Utf8Width(s[0]) + Utf8Size(s[1..])
  }

  // ------------------------------------------------------------- numbers

  predicate IsDigit(c: char) { '0' <= c <= '9' }

  /** Decimal notation of a natural number, as template strings print it. */
  function NatToString(n: nat): (r: string)
    ensures r != []
    ensures forall i :: 0 <= i < |r| ==> IsDigit(r[i])
    ensures n >= 10 ==> r[0] != '0'
    decreases n
  {
    var d := ["0123456789"[n % 10]];
    if n < 10 then d else NatToString(n / 10) + d
  }

  function IntToString(i: int): string {
    if i < 0 then "-" + NatToString(-i) else NatToString(i)
  }
}

=== FILE: wrappers.dfy ===
/** Option and Result, used for the source's null returns and thrown errors. */
module Wrappers {

  datatype Option<+T> = None | Some(value: T)

  /** Success carries the value a JavaScript function returns; Failure the message it throws. */
  datatype Result<+T, +E> = Success(value: T) | Failure(error: E)

  /** The outcome of an operation that returns nothing or throws. */
  datatype Outcome<+E> = Pass | Fail(error: E)
}
